=== FILE: README.md ===
# Leme check-up core, modelled in Dafny

Leme is a financial check-up for small businesses: a Next.js front end collects a
company's figures (or a future owner's plans) through step-by-step forms, and a FastAPI
back end validates them, computes indicators and a health score, classifies problems,
assembles 30/60/90-day action plans, and, for a business not yet open, recommends a
starting capital and selects alerts. Sessions track who started an analysis, and two
jobs send abandonment and 30-day re-engagement e-mails.

This project models that logic as pure Dafny functions over immutable records:

| file | models |
|---|---|
| `wrappers.dfy` | `Option` and `Result` (an HTTP status and a message) |
| `numeric.dfy` | JavaScript `Math.round`, Python `int()` and `round()` over exact reals |
| `text.dfy` | whitespace trimming and the front end's e-mail pattern |
| `uuid.dfy` | reading and printing identifiers as Python's `uuid.UUID` does |
| `calendar.dfy` | default months, history labels, months until opening |
| `money_input.dfy` | the digits-to-cents money inputs |
| `analise_wizard.dfy` | the four-stage analysis form (`useAnalise`, `prepararDadosParaApi`) |
| `pre_abertura_wizard.dfy` | the ten-step pre-opening form (`usePreAbertura` and its step components) |
| `schemas.dfy` | the request validators of both back-end schemas |
| `indicadores.dfy` | trend, indicators and the health score |
| `diagnostico.dfy` | problems, 30/60/90-day actions, strengths and attention points |
| `dashboard.dfy` | the dashboard router's formatting, status, payback, diagnosis, plan and blocks |
| `dashboard_cards.dfy` | the payback card, history table and score modal |
| `simulador.dfy` | the survival simulator |
| `frase_impacto.dfy` | both impact-phrase helpers |
| `pre_abertura_service.dfy` | recommended capital, comparisons, alerts and checklist |
| `resultado_cards.dfy` | the checklist card and the comparison chart |
| `sessao.dfy` | the session router |
| `abandono_job.dfy` | the abandonment e-mail job |
| `reengajamento_job.dfy` | the 30-day re-engagement job |

Money is `real`. The clock, the mailer and the database are parameters: "now" is an
integer on the server's clock, a send is the next value of a boolean oracle sequence,
and a table is a sequence of records.

## Model

| member | source | states |
|---|---|---|
| Calendar.MonthName | frontend/types/analise.ts:65-79 | a month number has a name exactly when it lies in 1-12; any other number reads as the empty label |
| Calendar.PreviousMonth | frontend/types/analise.ts:140-152 | the default reference month is a valid month exactly one month before today's |
| Calendar.NextMonth | frontend/types/pre_abertura.ts:103-114 | the default opening month is a valid month exactly one month after today's |
| Calendar.PreviousAndNextMonthCases | frontend/types/analise.ts:145-149 | January steps back to December of the previous year and December forward to January of the next; other months stay in the year |
| Calendar.MonthsBack | frontend/components/analise/Etapa4SaudeFinanceira.tsx:39-45 | the normalising loop lands exactly `mesesAtras` months before the reference, on a valid month, and leaves the year alone when no wrap is needed |
| Calendar.HistoryLabel | frontend/components/analise/Etapa4SaudeFinanceira.tsx:39-50 | a history label always has a month name for a valid reference and a non-negative offset, and offset 0 is the reference month's own label |
| Calendar.MonthsUntilOpening | backend/services/pre_abertura.py:135-141 | the months left are never negative, add up from today to the opening month, and are 0 exactly when the opening month is not in the future |
| MoneyInput.Amount | frontend/components/analise/Etapa4SaudeFinanceira.tsx:344-346 | the amount is never negative, is 0 when no digit was typed, and is always a whole number of cents |
| MoneyInput.AmountOfDecimal | frontend/components/pre-abertura/PassoCapital.tsx:31-35 | typing the cents n as a numeral makes the input hold n/100 reais |
| MoneyInput.AmountIgnoresNonDigit | frontend/components/pre-abertura/PassoCapital.tsx:32-33 | a typed separator, letter or currency sign, before or after the text, never changes the amount |
| MoneyInput.AmountAppendDigit | frontend/components/analise/Etapa4SaudeFinanceira.tsx:345-346 | one more digit shifts the cents one place left and adds that digit |
| MoneyInput.ParseInt | frontend/components/analise/Etapa4SaudeFinanceira.tsx:346 | parsing the digits gives no number exactly when there are none |
| MoneyInput.DisplayOf | frontend/components/pre-abertura/PassoCapital.tsx:16-29 | the box is blank exactly for a non-positive amount and otherwise shows that amount |
| MoneyInput.HandleChange | frontend/components/pre-abertura/PassoCapital.tsx:31-36 | a keystroke hands up a non-negative amount and blanks the box exactly when that amount is 0 |
| Text.Trim | frontend/hooks/useAnalise.ts:50 | trimming gives a slice of the input with no white space at either end, empty exactly when the input is all white space |
| Text.EmailValidMatchesPattern | frontend/hooks/useAnalise.ts:54 | the linear e-mail check accepts exactly the strings the pattern `[\w.-]+@[\w.-]+\.\w+` matches in full |
| Text.EmailAccepted | frontend/hooks/useAnalise.ts:54 | an address of the usual shape is accepted |
| Text.EmailWithoutAtRejected | frontend/hooks/useAnalise.ts:54 | a string without '@' is always rejected |
| Uuid.Parse | backend/routers/sessao.py:99-102 | in the canonical forms (hexadecimal digits, hyphens and surrounding braces), text is read as an identifier exactly when, braces and hyphens dropped, 32 hexadecimal digits remain |
| Uuid.ParseFormat | backend/routers/sessao.py:78-81 | the text written for an identifier reads back as the same identifier |
| AnaliseWizard.ValidateStage1 | frontend/hooks/useAnalise.ts:47-59 | the name is flagged exactly when fewer than two characters remain after trimming, the e-mail exactly when the pattern fails to match, nothing else is flagged, and the stage is valid exactly when nothing is flagged |
| AnaliseWizard.ValidateStage2 | frontend/hooks/useAnalise.ts:62-69 | sector and state are flagged exactly when not chosen, and the stage is valid exactly when neither is flagged |
| AnaliseWizard.ValidateStage4 | frontend/hooks/useAnalise.ts:72-98 | each of the five figures is flagged exactly under its own condition, validity means nothing flagged, and the alerts are the coherence alerts |
| AnaliseWizard.Stage4Flagged | frontend/hooks/useAnalise.ts:76-87 | the revenue, headcount and each answered-yes amount are flagged exactly when missing or not positive |
| AnaliseWizard.CoherenceAlerts | frontend/hooks/useAnalise.ts:89-95 | the cost alert appears exactly when cost exceeds revenue and comes first, the expense alert exactly when expenses exceed revenue |
| AnaliseWizard.AlertsNeverBlock | frontend/hooks/useAnalise.ts:89-97 | changing costs and expenses never changes whether stage 4 is valid |
| AnaliseWizard.StageValidation | frontend/hooks/useAnalise.ts:102-106 | stage 3 has nothing to validate |
| AnaliseWizard.Advance | frontend/hooks/useAnalise.ts:101-117 | advancing reports the stage's validity, replaces errors and alerts with the stage's, moves on exactly when valid before the last stage, and keeps the data |
| AnaliseWizard.Back | frontend/hooks/useAnalise.ts:120-126 | going back from stage 1 changes nothing; from a later stage it moves one back and clears errors and alerts |
| AnaliseWizard.AdvanceThenBack | frontend/hooks/useAnalise.ts:101-126 | a successful advance before the last stage, undone by going back, restores the state with nothing flagged |
| AnaliseWizard.ProgressQuarters | frontend/hooks/useAnalise.ts:141 | progress is 25% per stage, strictly increasing, and 100% only at the last stage |
| AnaliseWizard.Set | frontend/hooks/useAnalise.ts:27 | the spread update gives the field the value and leaves every other field as it was |
| AnaliseWizard.UpdateData | frontend/hooks/useAnalise.ts:25-33 | an update stores the value in its field, keeps every other field, clears that field's error and leaves the other fields' errors, the stage and the alerts alone |
| AnaliseWizard.SetCurrentValue | frontend/hooks/useAnalise.ts:27 | storing the value a field already holds gives back the same record |
| AnaliseWizard.UpdateWithCurrentValue | frontend/hooks/useAnalise.ts:25-33 | an update with the current value leaves the form's data unchanged |
| AnaliseWizard.UpdateHistory | frontend/hooks/useAnalise.ts:36-44 | one month of the revenue history changes, the other two months and everything else stay |
| AnaliseWizard.ToggleCard | frontend/hooks/useAnalise.ts:129-133 | a toggled card is open exactly when it was closed, and other cards keep their state |
| AnaliseWizard.Without | frontend/hooks/useAnalise.ts:131 | filtering removes every copy of the card and keeps every other card |
| AnaliseWizard.ToggleTwice | frontend/hooks/useAnalise.ts:129-138 | toggling a card twice restores which cards are open, and from a closed card restores the list itself |
| AnaliseWizard.StageTitlesCoverStages | frontend/types/analise.ts:84-89 | there is a title for exactly the four stages |
| AnaliseWizard.InitialData | frontend/types/analise.ts:156-182 | the initial form holds the previous month, no optional amounts, one employee and zero figures, and fails the validation of stages 1, 2 and 4 |
| AnaliseWizard.InitialWizard | frontend/hooks/useAnalise.ts:17-22 | the hook starts at stage 1 with nothing flagged, not loading, and only the revenue card open |
| AnaliseWizard.PrepareForApi | frontend/lib/api.ts:13-40 | the request carries every figure as entered, and each dependent amount only when its yes/no answer is yes |
| AnaliseWizard.PayloadIgnoresHiddenInputs | frontend/lib/api.ts:32-37 | the entry method is never sent, and an amount typed before its answer was turned to no is dropped |
| AnaliseWizard.HandleSubmit | frontend/components/analise/Etapa4SaudeFinanceira.tsx:52-74 | the request is sent exactly when advancing succeeds, holds the prepared data, always ends not loading, and the redirect happens exactly on a successful response |
| AnaliseWizard.AmountKeystroke | frontend/components/analise/Etapa4SaudeFinanceira.tsx:344-349 | the value handed up is the parsed amount, non-negative, and the box is blank exactly when it is 0 |
| PreAberturaWizard.Set | frontend/hooks/usePreAbertura.ts:28 | storing a value changes that field to it and no other field |
| PreAberturaWizard.UpdateField | frontend/hooks/usePreAbertura.ts:26-34 | an edit stores the value, clears that field's error, and leaves every other field, every other error and the step alone |
| PreAberturaWizard.NextStep | frontend/hooks/usePreAbertura.ts:49-63 | there is a next step exactly before step 10, and it always lies ahead |
| PreAberturaWizard.PreviousStep | frontend/hooks/usePreAbertura.ts:66-79 | there is a previous step exactly after step 1, and it always lies behind |
| PreAberturaWizard.StepGraph | frontend/hooks/usePreAbertura.ts:49-79 | a service business skips the stock step in both directions; every other move is by one step |
| PreAberturaWizard.BackThenForward | frontend/hooks/usePreAbertura.ts:49-79 | going back and then forward returns to the same step, except from the stock step of a service, which a service never reaches by moving |
| PreAberturaWizard.ForwardThenBack | frontend/hooks/usePreAbertura.ts:49-79 | going forward and then back returns to the same step, with the same exception |
| PreAberturaWizard.ValidateStep | frontend/hooks/usePreAbertura.ts:83-153 | a step is valid exactly when its answers are complete and exactly when no error is reported; errors name only the step's own fields, always with a message, and the band and stock errors only arise for a business with employees or a product business |
| PreAberturaWizard.OpeningStepAlwaysValid | frontend/hooks/usePreAbertura.ts:111-113 | the opening-date step never reports an error |
| PreAberturaWizard.Advance | frontend/hooks/usePreAbertura.ts:157-173 | advancing shows the step's errors, succeeds exactly when the step is complete, stays put on failure, moves to the next step on success, and stays on step 10 |
| PreAberturaWizard.Back | frontend/hooks/usePreAbertura.ts:175-183 | going back fails exactly on step 1 and then changes nothing; otherwise it lands on the previous step with no errors |
| PreAberturaWizard.GoToStep | frontend/hooks/usePreAbertura.ts:185-188 | jumping lands on the chosen step with no errors and the answers unchanged |
| PreAberturaWizard.AdvanceThenBack | frontend/hooks/usePreAbertura.ts:157-183 | advancing past a complete step and going back restores the state with no errors, outside the stock step of a service |
| PreAberturaWizard.ProgressBounds | frontend/hooks/usePreAbertura.ts:257-272 | progress is a percentage, 100 exactly on step 10, and 10% per step for a business with a stock step |
| PreAberturaWizard.ProgressIncreases | frontend/hooks/usePreAbertura.ts:257-272 | moving forward never lowers progress and raises it on every move a business can make |
| PreAberturaWizard.BuildPayload | frontend/hooks/usePreAbertura.ts:206-221 | the stock answer is sent only for a product business, the band exactly when there are employees, city and e-mail exactly when filled in, and every other answer as entered |
| PreAberturaWizard.Submit | frontend/hooks/usePreAbertura.ts:192-253 | a request is made exactly when the current step is complete and carries the built payload; success needs a good response; loading ends after a request; the answers and the step stay |
| PreAberturaWizard.CompleteDraftPayload | frontend/hooks/usePreAbertura.ts:93-134 | a draft complete on every step sends a stock answer for a product business, an employees answer, and a band whenever there are employees |
| PreAberturaWizard.SubmitChecksOnlyCurrentStep | frontend/hooks/usePreAbertura.ts:192-199 | a product draft whose stock question was skipped by jumping is still sent, without a stock answer |
| PreAberturaWizard.SubmitIgnoresLoading | frontend/hooks/usePreAbertura.ts:192-201 | a submission while another is in flight still sends the request |
| PreAberturaWizard.InitialDraft | frontend/types/pre_abertura.ts:103-133 | the initial draft opens in the month after today's, with nothing answered and zero amounts, and fails the type, capital and employees steps |
| PreAberturaWizard.Reset | frontend/hooks/usePreAbertura.ts:283-289 | a reset returns to step 1 with the initial draft and no errors, and cannot advance |
| PreAberturaWizard.StepIdsCoverSteps | frontend/types/pre_abertura.ts:48-59 | there is a screen for exactly the ten steps |
| PreAberturaWizard.SelectHasEmployees | frontend/components/pre-abertura/PassoFuncionarios.tsx:15-21 | answering the employees question stores the answer, clears the band on "no", keeps it on "yes", and touches no other answer |
| PreAberturaWizard.EmployeesButtonMatchesValidation | frontend/components/pre-abertura/PassoFuncionarios.tsx:148-153 | the disabled "next" button of the employees step coincides with the step failing validation, a band error only shows with the band buttons, and answering "no" enables the button |
| PreAberturaWizard.ClientsSubmit | frontend/components/pre-abertura/PassoClientes.tsx:20-23 | submitting from the last step never moves, and sends exactly when the step is complete |
| PreAberturaWizard.ClientsButtonEnabledSends | frontend/components/pre-abertura/PassoClientes.tsx:107-110 | on step 10 an enabled "send" button always sends the built payload |
| PreAberturaWizard.EmailNeverValidated | frontend/components/pre-abertura/PassoClientes.tsx:86-92 | typing the optional e-mail never changes any step's validation |
| PreAberturaWizard.CapitalChange | frontend/components/pre-abertura/PassoCapital.tsx:31-36 | the stored capital is the parsed, non-negative amount, the box is blank exactly when it is 0, and no other answer changes |
| PreAberturaWizard.CapitalDisplaySync | frontend/components/pre-abertura/PassoCapital.tsx:23-29 | a changed stored amount redraws the box, blank exactly for a non-positive amount; an unchanged one keeps the box |
| PreAberturaWizard.CapitalKeystrokeThenSync | frontend/components/pre-abertura/PassoCapital.tsx:23-36 | the redraw after a keystroke shows what the keystroke showed |
| Schemas.UfListsAgree | backend/schemas/analise.py:38-42 | both schemas accept the same list of 27 distinct federative units |
| Schemas.ValidateEstado | backend/schemas/analise.py:160-167 | a state is accepted exactly when its upper-case form is a listed unit, and is stored upper-case |
| Schemas.ValidateEstadoIdempotent | backend/schemas/pre_abertura.py:186-193 | validating an accepted state again accepts it unchanged |
| Schemas.LowerCaseStateAccepted | backend/schemas/analise.py:164-167 | lower-case input names the same unit |
| Schemas.CoherenceAlerts | backend/schemas/analise.py:196-214 | the cost alert appears exactly when cost exceeds revenue and comes first, the expense alert exactly when expenses exceed revenue |
| Schemas.GetAlerts | backend/schemas/analise.py:216-218 | the alerts read back are the stored ones, or none when none were stored |
| Schemas.ValidateAnaliseAsWritten | backend/schemas/analise.py:52-194 | as the code behaves, a request is accepted exactly when the field bounds hold, the state is a listed unit, and no amount is an explicit null under its set flag; the accepted input keeps the request's values and stores the coherence alerts |
| Schemas.ValidateAnalise | backend/schemas/analise.py:52-218 | a request is accepted exactly when every bound holds, the state is a unit and each flagged amount is present; the result is a valid input with the upper-case state and the coherence alerts stored |
| Schemas.NullAmountRule | backend/schemas/analise.py:169-194 | an explicit null stock, debt or asset amount under its set flag is rejected in both readings, nulls under clear flags are accepted, and the two readings differ only on a left-out stock key |
| Schemas.OmittedAmountSlipsThrough | backend/schemas/analise.py:130-176 | a request with the stock flag set and no stock key is accepted as written, with no stock amount, and rejected by the corrected rule |
| Schemas.ValidatePreAberturaAsWritten | backend/schemas/pre_abertura.py:92-211 | as the code behaves, a pre-opening request is accepted exactly when the field bounds hold, the state is a listed unit, and neither the stock answer of a product nor the band of an employer is an explicit null |
| Schemas.ValidatePreAbertura | backend/schemas/pre_abertura.py:92-211 | a pre-opening request is accepted exactly when every bound holds, the state is a unit, a product business answers the stock question and a business with employees gives its band; the result is a valid input |
| Schemas.PreAberturaNullRules | backend/schemas/pre_abertura.py:195-211 | a null stock answer is rejected for a product business and accepted for a service, a null band is rejected with employees, and the two readings agree whenever both keys were sent |
| Schemas.OmittedStockAnswerSlipsThrough | backend/schemas/pre_abertura.py:108-111 | a product request with no stock key is accepted as written, without a stock answer, and rejected by the corrected rule |
| Indicadores.Multiples | backend/services/indicadores.py:149-154 | a listed sector uses its own multiples, any other sector 2.0x-5.0x, and every minimum lies below its maximum within 1.5x-6.0x |
| Indicadores.EverySectorHasMultiples | backend/services/indicadores.py:11-33 | each of the 21 schema sectors has its own row of multiples |
| Indicadores.TrendStatusOf | backend/services/indicadores.py:69-74 | a trend is growing exactly above 5%, falling exactly below -5%, and stable in between, bounds included |
| Indicadores.CalcularTendencia | backend/services/indicadores.py:45-80 | the trend is the mean of the month-over-month variations taken from a positive earlier month, with its band; with no positive earlier month it is a stable 0% |
| Indicadores.AllPositiveTrend | backend/services/indicadores.py:61-67 | with every earlier month positive, the trend is the plain mean of the three variations |
| Indicadores.FlatRevenueIsStable | backend/services/indicadores.py:61-74 | flat positive revenue is a stable trend of 0% |
| Indicadores.Score | backend/services/indicadores.py:240-308 | the six criteria sum to a score between 8 and 100 |
| Indicadores.ScoreExtremes | backend/services/indicadores.py:252-308 | the worst company scores exactly 8 and the best exactly 100 |
| Indicadores.ScoreMonotone | backend/services/indicadores.py:254-306 | a higher margin, a longer cash runway or a better trend never lowers the score |
| Indicadores.ScoreDebtAntitone | backend/services/indicadores.py:290-296 | a heavier debt never raises the score, and having no debt weight scores best |
| Indicadores.FlaggedAmount | backend/services/indicadores.py:99-101 | an amount counts only under its flag, and is 0 otherwise |
| Indicadores.NonZero | backend/services/indicadores.py:216-217 | an optional figure is reported exactly when it is present and not 0 |
| Indicadores.CashRunway | backend/services/indicadores.py:109-111 | the runway is the whole number of days the cash covers at a thirtieth of the monthly expenses per day, never negative |
| Indicadores.PaybackOf | backend/services/indicadores.py:167-187 | the payback splits into whole years and 0-11 months, its goal share is in (0, 100] and is 100 exactly for a return within five years |
| Indicadores.DebtWeight | backend/services/indicadores.py:139-143 | the debt weight is present exactly for a positive flagged debt, and positive when there is revenue |
| Indicadores.Valuation | backend/services/indicadores.py:146-158 | both valuation bounds exist exactly for a positive annual profit, the minimum positive and below the maximum |
| Indicadores.PaybackBlock | backend/services/indicadores.py:168-170 | the payback exists exactly when both bounds do and the profit is positive, and is the mean value over the annual profit |
| Indicadores.CycleBlock | backend/services/indicadores.py:117-128 | the financial cycle exists exactly for a positive flagged stock |
| Indicadores.CalcularIndicadores | backend/services/indicadores.py:85-237 | given the stock and debt amounts under their flags, the indicators of an input: the cycle only with stock, capital as receivables plus flagged stock minus payables, debt weight only with positive debt and revenue, result as revenue minus cost and expenses, valuation and payback exactly for a profit, a score between 8 and 100 and a trend in its band |
| Indicadores.PaybackIsMeanMultiple | backend/services/indicadores.py:156-170 | the payback in years is the mean of the sector's two multiples, whatever the profit |
| Indicadores.RetailPayback | backend/services/indicadores.py:167-181 | retail's multiples give a payback of exactly two years, 100% of the goal, in the top band |
| Diagnostico.GetBenchmarks | backend/services/diagnostico.py:25-39 | a listed sector uses its own benchmark row and any other sector the default row; every target margin lies in 25-60% and every ideal cycle in 10-30 days |
| Diagnostico.FamilyBlock | backend/services/diagnostico.py:59-214 | each family reports at most one problem of its own, and reports a problem exactly when that problem's condition holds |
| Diagnostico.Blocks | backend/services/diagnostico.py:59-214 | the families checked so far report, in family order, exactly the problems whose conditions hold |
| Diagnostico.IdentificarProblemas | backend/services/diagnostico.py:42-216 | a problem is reported exactly when its condition holds against the sector's benchmark; the problems come in family order, at most eight |
| Diagnostico.FamilyOrderedBound | backend/services/diagnostico.py:42-216 | a list in strict family order holds at most eight problems |
| Diagnostico.OneProblemPerFamily | backend/services/diagnostico.py:59-214 | two problems of the same family are never reported together |
| Diagnostico.Specific30 | backend/services/diagnostico.py:230-330 | the problem-driven 30-day actions never include the generic daily control, and a critical runway puts the urgent cash action first |
| Diagnostico.Padded30 | backend/services/diagnostico.py:333-367 | the 30-day padding yields exactly four actions that start with the specific ones, and adds the daily control exactly when nothing specific was found |
| Diagnostico.Acoes30 | backend/services/diagnostico.py:218-367 | the 30-day plan has four actions: the first four specific ones, or all of them padded; the daily control appears exactly when no problem drives an action; a critical runway comes first |
| Diagnostico.Acoes60 | backend/services/diagnostico.py:369-464 | the 60-day plan has three or four actions, always starts with the indicator routine, and puts the cycle reduction second for a long cycle |
| Diagnostico.Acoes90 | backend/services/diagnostico.py:467-553 | the 90-day plan is the four stabilisation actions exactly when a problem is critical or the result is not positive, and the four growth actions otherwise |
| Diagnostico.BreakEvenMonthIsStabilised | backend/services/diagnostico.py:479-488 | a month that exactly breaks even reports no loss and still gets the stabilisation plan |
| Diagnostico.LossIsCritical | backend/services/diagnostico.py:59-66 | a loss always reports a critical problem |
| Diagnostico.StrengthBlock | backend/services/diagnostico.py:555-647 | each group of strengths contributes at most one of its own, and a strength exactly when its condition holds |
| Diagnostico.StrengthBlocks | backend/services/diagnostico.py:555-647 | the groups checked so far list exactly the strengths whose conditions hold |
| Diagnostico.AllStrengths | backend/services/diagnostico.py:555-645 | before the cut, the strengths listed are exactly those whose conditions hold |
| Diagnostico.PontosFortes | backend/services/diagnostico.py:555-647 | at most four strengths are listed, each one really holds, and none is dropped when four or fewer hold |
| Diagnostico.StrengthsContradictNoProblem | backend/services/diagnostico.py:59-214 | a runway, debt or profit strength never appears together with a problem of the same family |
| Diagnostico.Reported | backend/services/diagnostico.py:42-216 | one problem is listed exactly when its condition holds |
| Diagnostico.OfSeverity | backend/services/diagnostico.py:656-661 | the problems kept for one severity are exactly the listed ones of that severity |
| Diagnostico.BySeverityPermutes | backend/services/diagnostico.py:656-661 | sorting by severity neither loses nor duplicates a problem |
| Diagnostico.BySeveritySorted | backend/services/diagnostico.py:656-661 | the sorted problems run from critical through high to medium |
| Diagnostico.PontosAtencao | backend/services/diagnostico.py:649-702 | there are as many attention points as problems, at most five, each the point of the problem at that place in severity order |
| Diagnostico.MarkersFollowSeverity | backend/services/diagnostico.py:666-696 | a point carries the siren exactly for a critical problem and the warning sign exactly for a high one, under the problem's own title |
| Diagnostico.PontosAtencaoSorted | backend/services/diagnostico.py:656-702 | attention points come out in severity order |
| Diagnostico.CriticalComesFirst | backend/services/diagnostico.py:656-702 | when any problem is critical, the first attention point carries the siren |
| Diagnostico.GerarDiagnostico | backend/services/diagnostico.py:704-730 | a diagnosis has at most four strengths, at most five attention points, four 30-day actions, three or four 60-day actions and four 90-day actions |
| Diagnostico.LossDiagnosis | backend/services/diagnostico.py:704-730 | a loss puts the siren on the first attention point and the 90-day plan on stabilisation |
| Dashboard.Replace | backend/routers/dashboard.py:21 | every occurrence of one character is replaced by another and nothing else changes |
| Dashboard.SwapSeparatorsSwaps | backend/routers/dashboard.py:21 | the three-step replacement swaps thousands commas and decimal points position by position, as long as the placeholder is absent |
| Dashboard.SwapSeparatorsInvolution | backend/routers/dashboard.py:21 | swapping the separators twice gives back the original text |
| Dashboard.FormatarMoeda | backend/routers/dashboard.py:17-21 | a missing amount prints as "R$ 0"; otherwise the grouped number follows "R$ " with its separators swapped to the Brazilian convention |
| Dashboard.FormatarNumero | backend/routers/dashboard.py:24-29 | a missing number prints as "0"; the whole-number rendering keeps its length and contains no comma, the grouping commas having become dots |
| Dashboard.NumeroAgreesWithMoeda | backend/routers/dashboard.py:21-29 | for a whole number both formatters put points between thousands |
| Dashboard.GetStatus | backend/routers/dashboard.py:151-190 | the health band of each indicator kind follows its own thresholds (margin 40/20, runway 60/30, score 70/50, debt 30/50, cycle 45/60, sign for result and capital, missing break-even is critical); unknown kinds are healthy |
| Dashboard.GetStatusMonotone | backend/routers/dashboard.py:151-190 | a larger margin, runway, result or score never worsens the band, while a larger debt weight or cycle never improves it |
| Dashboard.ScoreStatusBands | backend/routers/dashboard.py:186-189 | a score of 70 or more is healthy, 50 to 70 needs attention, below 50 is critical |
| Dashboard.GetTendenciaTipo | backend/routers/dashboard.py:193-197 | a variation above 5% is rising, below -5% falling, and stable in between, bounds included |
| Dashboard.TrendKindMatchesCalculator | backend/routers/dashboard.py:193-197 | the dashboard's rising and falling labels agree with the trend status the indicator calculator assigns |
| Dashboard.GerarPayback | backend/routers/dashboard.py:200-250 | no profit gives a critical payback and a missing or non-positive valuation an unavailable one; years and months are shown exactly for the healthy and attention bands, months lie in 0-11 and the goal share in 0-100% |
| Dashboard.PaybackAgreesWithCalculator | backend/routers/dashboard.py:223-228 | with a profit and a positive valuation, the dashboard's years, months and goal share are the calculator's |
| Dashboard.Strengths | backend/routers/dashboard.py:286-440 | the strengths listed are exactly the verdicts that found a strength, in rule order |
| Dashboard.Concerns | backend/routers/dashboard.py:286-440 | the concerns listed are exactly the verdicts that found a concern, in rule order |
| Dashboard.MarginVerdict | backend/routers/dashboard.py:287-312 | the margin always yields a verdict, a strength exactly from 25% upwards |
| Dashboard.ResultVerdict | backend/routers/dashboard.py:314-342 | a negative result is exactly the loss concern and a zero result exactly the break-even concern |
| Dashboard.VulnerabilityVerdict | backend/routers/dashboard.py:343-358 | the vulnerability concern appears exactly when a positive surplus would turn negative after a 30% revenue drop; this rule never yields a strength |
| Dashboard.DependencyThreshold | backend/routers/dashboard.py:351-358 | when the surplus survives the drop, the dependency concern appears exactly when the erosion reaches 59.5% before rounding |
| Dashboard.CashVerdict | backend/routers/dashboard.py:359-379 | the runway is a strength exactly from 60 days and yields nothing exactly when it is not positive |
| Dashboard.DebtVerdict | backend/routers/dashboard.py:381-397 | the debt weight is a strength exactly below 15% and a concern exactly from 30% |
| Dashboard.BreakEvenVerdict | backend/routers/dashboard.py:398-412 | the break-even rule can only raise a concern |
| Dashboard.Take4 | backend/routers/dashboard.py:444-445 | the cut keeps the first four items, and keeps every item of a list of four or fewer |
| Dashboard.GerarDiagnostico | backend/routers/dashboard.py:252-446 | at most four strengths and four concerns, and the margin verdict heads the strengths or the concerns |
| Dashboard.ConcernsAppend | backend/routers/dashboard.py:286-440 | the concerns of two runs of rules are the concerns of each run, one after the other |
| Dashboard.LossIsShown | backend/routers/dashboard.py:337-345 | a loss is always among the concerns shown, however many other concerns arise |
| Dashboard.Insert | backend/routers/dashboard.py:857-859 | inserting into a list sorted by descending priority keeps it sorted and adds exactly that action |
| Dashboard.SortDesc | backend/routers/dashboard.py:857-859 | sorting by descending priority permutes the candidates into priority order |
| Dashboard.Top4 | backend/routers/dashboard.py:857-863 | the plan keeps four candidates, or all when fewer, in descending priority, drawn from the candidates |
| Dashboard.Top4KeepsHighest | backend/routers/dashboard.py:857-863 | a candidate left out of the plan has a priority no higher than any action kept |
| Dashboard.Selected | backend/routers/dashboard.py:516-846 | every action whose condition holds becomes a candidate, and nothing else does |
| Dashboard.SelectedOnce | backend/routers/dashboard.py:516-846 | a distinct action is a candidate exactly when its condition holds |
| Dashboard.Candidates30 | backend/routers/dashboard.py:516-650 | the 30-day candidates always include the weekly control, include the loss action exactly when the result is negative, and rank it above every other candidate |
| Dashboard.Candidates60 | backend/routers/dashboard.py:652-750 | the 60-day candidates always include the emergency reserve |
| Dashboard.ScoreAction | backend/routers/dashboard.py:756-800 | a score of 70 or more proposes growth, 50 to 70 raising the score, and below 50 leaving the critical zone at the higher priority |
| Dashboard.Candidates90 | backend/routers/dashboard.py:752-855 | the 90-day candidates number at least four, include the score's own action, and rank leaving the critical zone above all others |
| Dashboard.PlanOf | backend/routers/dashboard.py:857-863 | each horizon's plan holds one to four actions, and the 90-day plan exactly four, sorted by priority and drawn from that horizon's candidates |
| Dashboard.UniqueMaximumLeads | backend/routers/dashboard.py:857-863 | a candidate with a strictly highest priority heads the plan |
| Dashboard.LossLeadsThirtyDays | backend/routers/dashboard.py:516-533 | a loss puts the loss-elimination action first in the 30-day plan |
| Dashboard.CriticalScoreLeadsNinetyDays | backend/routers/dashboard.py:783-800 | a score below 50 puts leaving the critical zone first in the 90-day plan |
| Dashboard.CapitalStatus | backend/routers/dashboard.py:898-907 | working capital is critical exactly when negative, and healthy exactly when non-negative and covered by cash |
| Dashboard.CycleCard | backend/routers/dashboard.py:909-929 | a missing cycle is shown as not applicable and healthy, a non-positive one as its absolute value and healthy, a positive one with the cycle's band |
| Dashboard.BreakEvenCard | backend/routers/dashboard.py:931-946 | a missing break-even is critical; with revenue it is healthy exactly below revenue and critical otherwise; without revenue it needs attention |
| Dashboard.GerarBlocos | backend/routers/dashboard.py:883-1051 | the efficiency, cash and structure blocks of three, three and two cards; each card shows its stored figure (0 when missing) graded by the dashboard's bands: margin, result, runway and debt weight by their kinds, break-even against the revenue, capital critical exactly for a deficit, the cycle by its own card, revenue per employee always healthy |
| Dashboard.CardsFollowFigures | backend/routers/dashboard.py:883-1051 | the result card is critical exactly on a loss, the margin card healthy exactly from 40%, the runway card critical exactly under 30 days, and with revenue the break-even card critical exactly when the point is missing or not below it |
| DashboardCards.FormatarTempo | frontend/components/dashboard/PaybackCard.tsx:18-35 | an unavailable payback reads "Indisponível" when critical and "Não calculado" otherwise; "Imediato" exactly for zero years and zero months; otherwise one or two non-zero parts, each with its singular or plural unit |
| DashboardCards.TempoReadsBack | frontend/components/dashboard/PaybackCard.tsx:23-34 | the parts of the text add up to exactly the years and months of the payback |
| DashboardCards.CalcularProgresso | frontend/components/dashboard/PaybackCard.tsx:38-43 | an unavailable payback has no progress; otherwise progress lies in 0-100 and is full from five years on |
| DashboardCards.GetBarColor | frontend/components/dashboard/PaybackCard.tsx:46-52 | the bar is grey exactly when unavailable or critical, green up to two years, yellow up to four, orange beyond |
| DashboardCards.ExcellentIsGreen | frontend/components/dashboard/PaybackCard.tsx:46-56 | an excellent payback is drawn green and reads as immediate, as months only, or as one year |
| DashboardCards.CardAvailabilityMatchesRouter | frontend/components/dashboard/PaybackCard.tsx:14-15 | the card treats the payback as unavailable exactly when the dashboard graded it critical or unavailable |
| DashboardCards.PaybackAtLeastTwoYears | frontend/components/dashboard/PaybackCard.tsx:55-56 | multiples averaging at least two give a payback of at least two whole years |
| DashboardCards.ExcellenceUnreachableFromValuation | frontend/components/dashboard/PaybackCard.tsx:55-56 | a payback computed from the sector multiples is never in the card's excellent state |
| DashboardCards.GetVariacao | frontend/components/dashboard/HistoricoTable.tsx:24-27 | the oldest analysis shows no change; every other shows its score minus the next older one's |
| DashboardCards.VariacoesTelescope | frontend/components/dashboard/HistoricoTable.tsx:24-27 | the changes from one row down to the oldest add up to that row's score minus the oldest score |
| DashboardCards.GetStatusLabel | frontend/components/dashboard/HistoricoTable.tsx:43-50 | the three known statuses get a display name of their own; any other status is shown as sent |
| DashboardCards.LabelsDistinguishStatuses | frontend/components/dashboard/HistoricoTable.tsx:43-50 | different statuses sent by the dashboard never share a label |
| DashboardCards.RenderHistorico | frontend/components/dashboard/HistoricoTable.tsx:52-103 | no history gives the empty state; otherwise one row per analysis, in order, with its own change |
| DashboardCards.MaxScore | frontend/components/dashboard/ScoreModal.tsx:21 | the chart's scale is at least 100, bounds every score, and is 100 or one of the scores |
| DashboardCards.GetBarHeight | frontend/components/dashboard/ScoreModal.tsx:24-26 | a bar is at least 10% high, at most 100% for a score within the scale, and otherwise proportional to its score |
| DashboardCards.BarsFitChart | frontend/components/dashboard/ScoreModal.tsx:21-26 | every bar of the history is between 10% and 100% high |
| DashboardCards.GetScoreBarColor | frontend/components/dashboard/ScoreModal.tsx:29-33 | green exactly from 70, red exactly below 50 |
| DashboardCards.ModalColourMatchesStatus | frontend/components/dashboard/ScoreModal.tsx:29-33 | the modal colours each score exactly as the dashboard grades it |
| DashboardCards.RenderModal | frontend/components/dashboard/ScoreModal.tsx:18-96 | a closed modal renders nothing; an open one draws one bar per history entry with its height |
| Simulador.Run | frontend/components/dashboard/SimuladorSobrevivencia.tsx:39-46 | a scenario that does not burn cash reports 999 days and no shortfall; one that burns cash reports the shortfall and the rounded days it lasts, none without cash |
| Simulador.Clamp | frontend/components/dashboard/SimuladorSobrevivencia.tsx:33-36 | a clamped input is never negative and keeps a non-negative value unchanged |
| Simulador.Calcular | frontend/components/dashboard/SimuladorSobrevivencia.tsx:32-49 | the stress scenario keeps 70% of the clamped revenue, its balance is lower by 30% of it, and it stays positive only if today's does |
| Simulador.StressBurnsFaster | frontend/components/dashboard/SimuladorSobrevivencia.tsx:39-48 | when today's month burns cash, the stress month burns too and lasts no longer |
| Simulador.Concluir | frontend/components/dashboard/SimuladorSobrevivencia.tsx:94-126 | the conclusion is critical exactly when cash burns with under 60 days left; the profit-to-loss, reduced-surplus and no-cash texts appear exactly in their cases, quoting the drop and the days |
| Simulador.DropIsThirtyPercent | frontend/components/dashboard/SimuladorSobrevivencia.tsx:94 | on non-negative revenue the drop quoted is 30% of it |
| Simulador.BarWidth | frontend/components/dashboard/SimuladorSobrevivencia.tsx:63 | the bar is the share of a 180-day scale, full exactly from 180 days |
| Simulador.BarColourOf | frontend/components/dashboard/SimuladorSobrevivencia.tsx:64 | green exactly from 90 days, red exactly below 60 |
| Simulador.BarWidthMonotone | frontend/components/dashboard/SimuladorSobrevivencia.tsx:63 | a longer runway never draws a shorter bar |
| Simulador.CriticalMatchesRedBar | frontend/components/dashboard/SimuladorSobrevivencia.tsx:118-123 | a critical conclusion is drawn exactly when cash burns and today's bar is red |
| FraseImpacto.CalcularFraseImpacto | frontend/lib/fraseImpacto.ts:14-61 | the company name falls back to "sua empresa"; the phrase chosen is one whose rule applies with no earlier rule applying, and it quotes the loss, the rounded runway or margin, or the score |
| FraseImpacto.LossTakesPrecedence | frontend/lib/fraseImpacto.ts:24-31 | a loss beats every other rule and quotes its size |
| FraseImpacto.FallbackOnlyMidScore | frontend/lib/fraseImpacto.ts:49-60 | the fallback phrase is reached only for a score between 50 and 75 |
| FraseImpacto.VariantsAgreeOnNonNegative | frontend/components/dashboard/fraseImpacto.ts:26-35 | for a non-negative runway and margin the dashboard copy picks the same rule as the library, and the same phrase unless it quotes the unrounded runway |
| FraseImpacto.NegativeRunwaySkippedByDashboard | frontend/components/dashboard/fraseImpacto.ts:27-29 | a negative runway fires the runway phrase in the library copy and is skipped by the dashboard copy |
| PreAberturaService.EverySectorBenchmarked | backend/services/pre_abertura.py:29-79 | every sector the request schema accepts has its own benchmark row |
| PreAberturaService.CapitalBase | backend/services/pre_abertura.py:29-79 | a sector's capital base is at least 15 000, and 25 000 for a sector without a row |
| PreAberturaService.RevenueReference | backend/services/pre_abertura.py:241-249 | a sector's revenue reference is at least 10 000 |
| PreAberturaService.CustoFuncionario | backend/services/pre_abertura.py:118-125 | an employee costs 6 000 in light services, 10 000 in labour-intensive sectors and 8 000 elsewhere |
| PreAberturaService.BandQuantitiesAgree | backend/services/pre_abertura.py:81-86 | the service's head count per band is the form's, and covers exactly the bands the schema accepts |
| PreAberturaService.QuantidadeFuncionarios | backend/services/pre_abertura.py:128-132 | no band counts no employees, a listed band its head count, and every count lies in 0-12 |
| PreAberturaService.MesesAteAbertura | backend/services/pre_abertura.py:135-141 | the months until opening are never negative |
| PreAberturaService.CalcularCapitalRecomendado | backend/services/pre_abertura.py:144-201 | the base and cost per employee are the sector's; the staff add-on is the band's head count times that cost, none without employees; a product with stock adds 20% of base plus staff; opening under three months away adds 15% of that running subtotal; a technology product adds 75% of the base |
| PreAberturaService.RecommendedCompounds | backend/services/pre_abertura.py:147-153 | the recommendation is base plus staff times 1.20 for stock and 1.15 for a rush opening, plus the technology add-on |
| PreAberturaService.RecommendedAtLeastBase | backend/services/pre_abertura.py:144-201 | the recommendation never falls below the sector base, nor below 1.75 times it for a technology product |
| PreAberturaService.LeanServiceNeedsBase | backend/services/pre_abertura.py:144-201 | a service with no employees opening three or more months ahead needs exactly the sector base |
| PreAberturaService.CapitalStatusOf | backend/services/pre_abertura.py:224-231 | a difference of 0% or more is above, down to -20% adequate, down to -50% below, and further down far below |
| PreAberturaService.CapitalDifference | backend/services/pre_abertura.py:218-221 | the percentage difference of the capital from a positive recommendation, zero otherwise |
| PreAberturaService.CompararCapital | backend/services/pre_abertura.py:204-239 | the comparison carries the capital and the recommendation, bands the exact percentage difference and reports it rounded to one decimal place; a non-positive recommendation counts as above with a zero difference |
| PreAberturaService.CapitalDifferenceRounded | backend/services/pre_abertura.py:222-237 | 10 000 against 30 000 is reported as -66.7 and banded as far below |
| PreAberturaService.CapitalBandsOnAmounts | backend/services/pre_abertura.py:204-239 | the capital bands on the amounts: at least the recommendation, at least 80% of it, at least half of it, or less |
| PreAberturaService.RevenueStatusOf | backend/services/pre_abertura.py:256-263 | a difference above 50% is far above, from 0% up to 50% above, down to -50% below, and further down far below |
| PreAberturaService.CompararFaturamento | backend/services/pre_abertura.py:241-272 | the comparison carries the sector reference, bands the exact percentage difference and reports it rounded to one decimal place |
| PreAberturaService.RevenueBandsOnAmounts | backend/services/pre_abertura.py:241-272 | the revenue bands on the amounts: above 150% of the reference, at least the reference, or under half of it |
| PreAberturaService.OptimismAlertReadsRoundedDifference | backend/services/pre_abertura.py:368 | the optimism alert compares the rounded difference, so an expectation banded far above can still miss the alert |
| PreAberturaService.Fired | backend/services/pre_abertura.py:305-580 | the alerts listed are exactly the ones of the order whose conditions hold |
| PreAberturaService.AlertasFinanceiros | backend/services/pre_abertura.py:305-387 | the financial alerts listed are exactly the financial ones whose conditions hold |
| PreAberturaService.AlertasOperacionais | backend/services/pre_abertura.py:390-502 | the operational alerts listed are exactly the operational ones whose conditions hold |
| PreAberturaService.AlertasEstruturais | backend/services/pre_abertura.py:505-580 | the structural alerts listed are exactly the structural ones whose conditions hold |
| PreAberturaService.StructuralShape | backend/services/pre_abertura.py:505-580 | the structural list is never empty, because of the fallback, and lists the positive alerts before the others |
| PreAberturaService.SomeStructuralFires | backend/services/pre_abertura.py:516-566 | when some structural condition holds, a structural alert is listed |
| PreAberturaService.PositivesFirst | backend/services/pre_abertura.py:578 | positive alerts placed before the rest stay in front |
| PreAberturaService.AlertExclusions | backend/services/pre_abertura.py:318-455 | the evaluators never list both capital alerts, two stock-margin variants, or the mixed-stock alert with the aggravated one |
| PreAberturaService.CapitalAlertsExclusive | backend/services/pre_abertura.py:318-337 | the far-below and below capital alerts never appear together |
| PreAberturaService.StockAlertsExclusive | backend/services/pre_abertura.py:426-470 | the stock alerts split on the margin midpoint and on short capital, so no two of them fire together |
| PreAberturaService.SelecionarAlertas | backend/services/pre_abertura.py:275-302 | the selection takes the first alert of each category, in financial, operational, structural order, at most three |
| PreAberturaService.SelectionShape | backend/services/pre_abertura.py:275-302 | with a structural alert present, the selection holds one to three alerts of distinct categories, the structural one last |
| PreAberturaService.Alertas | backend/services/pre_abertura.py:275-580 | a request gets one to three alerts, of distinct categories, the structural one last, each of which really fires |
| PreAberturaService.GuaranteedClientsShowE4 | backend/services/pre_abertura.py:516-524 | demand validated by clients makes the positive demand alert the one shown for the structure |
| PreAberturaService.ShortCapitalLeads | backend/services/pre_abertura.py:318-337 | short capital always leads the selection, far below with the stronger alert |
| PreAberturaService.ConditionalItems | backend/services/pre_abertura.py:608-628 | the stock, clients and staff items appear exactly when their conditions hold |
| PreAberturaService.GerarChecklist | backend/services/pre_abertura.py:585-629 | four fixed items come first, then exactly the conditional items whose conditions hold |
| PreAberturaService.ProcessarAnalise | backend/services/pre_abertura.py:634-677 | the result carries the recommended capital's components, the capital comparison banded on the exact difference and reported rounded to one decimal, the revenue comparison and the checklist; it recommends at least the sector base, carries one to three alerts, gives a context message exactly to a technology product and lists four to seven checklist items; its alerts are the selection for the request's facts (capital and revenue comparisons, months until opening), and its opening label is the opening month's name with the opening year |
| ResultadoCards.IndicesSize | frontend/components/pre-abertura/resultado/ChecklistCard.tsx:50 | a list of n items has exactly n positions to tick |
| ResultadoCards.ToggleItem | frontend/components/pre-abertura/resultado/ChecklistCard.tsx:13-23 | clicking an item flips its tick and leaves every other item as it was |
| ResultadoCards.ToggleTwice | frontend/components/pre-abertura/resultado/ChecklistCard.tsx:13-23 | clicking the same item twice restores the ticked set |
| ResultadoCards.ToggleStaysWithinList | frontend/components/pre-abertura/resultado/ChecklistCard.tsx:13-23 | clicking an item of the list keeps the ticked set within the list |
| ResultadoCards.Resumir | frontend/components/pre-abertura/resultado/ChecklistCard.tsx:25-27 | the counter shows the ticked items over all items, and the bar the same share in percent, 0 for an empty list and at most 100 |
| ResultadoCards.TickingRaisesProgress | frontend/components/pre-abertura/resultado/ChecklistCard.tsx:13-27 | ticking an unticked item strictly raises the bar |
| ResultadoCards.CalcularLarguras | frontend/components/pre-abertura/resultado/GraficoComparativo.tsx:23-25 | the larger value fills the bar, both bars are empty when neither value is positive, and the two widths keep the values' proportion |
| ResultadoCards.StatusInfo | frontend/components/pre-abertura/resultado/GraficoComparativo.tsx:38-72 | as written: green exactly for "acima" and "adequado", yellow exactly for "abaixo", and "below the reference" for every other status, including "muito_acima" |
| ResultadoCards.VeryHighRevenueShownAsBelow | frontend/components/pre-abertura/resultado/GraficoComparativo.tsx:38-72 | a revenue estimate more than 50% above the sector reference is drawn red and labelled as below it |
| ResultadoCards.StatusInfoCorrigido | frontend/components/pre-abertura/resultado/GraficoComparativo.tsx:38-72 | corrected: "muito_acima" reads as above, like "acima"; every other status is shown as written |
| ResultadoCards.CorrectedRevenueChartFollowsAmounts | frontend/components/pre-abertura/resultado/GraficoComparativo.tsx:38-72 | with the correction the revenue chart is green, and never says below, exactly when the estimate reaches the sector reference |
| ResultadoCards.CapitalChartFollowsAmounts | frontend/components/pre-abertura/resultado/GraficoComparativo.tsx:38-72 | the capital chart is green, and never says below, exactly when the capital reaches 80% of the recommendation; the correction does not change it |
| Sessoes.Find | backend/routers/sessao.py:104 | the lookup returns a row with the id asked for, and nothing exactly when no row has it |
| Sessoes.FindUnique | backend/routers/sessao.py:104 | with unique ids the lookup returns the one row that has the id |
| Sessoes.AppendFresh | backend/models/sessao.py:64 | appending a row with a new id keeps the ids unique |
| Sessoes.NormalizeEmail | backend/routers/sessao.py:70 | a stored e-mail has no upper-case letter and no surrounding space |
| Sessoes.NormalizeEmailIdempotent | backend/routers/sessao.py:70 | normalising an e-mail twice changes nothing more |
| Sessoes.IniciarSessao | backend/routers/sessao.py:56-81 | starting appends exactly one row, started, with the normalised e-mail and a fresh id, leaves the other rows unchanged, and answers with an id that parses back to the new row's |
| Sessoes.StatusConcluido | backend/routers/sessao.py:109-114 | completion records "recuperada" exactly after an abandonment e-mail, and "concluida" otherwise |
| Sessoes.ConcluirSessao | backend/routers/sessao.py:84-128 | a malformed session id answers 400, an unknown one 404 and a malformed analysis id 400; otherwise only that row changes, taking its completed status and the analysis id |
| Sessoes.ConcluirFound | backend/routers/sessao.py:99-128 | completing a row found by its id, with a well-formed analysis id, succeeds with exactly that update |
| Sessoes.CompleteFresh | backend/routers/sessao.py:84-128 | a just-started row completes as "concluida" and nothing else changes |
| Sessoes.StartThenComplete | backend/routers/sessao.py:56-128 | completing with the id the start returned succeeds with "concluida" and leaves the other rows as they were |
| Sessoes.RecompletingRecoveredConcludes | backend/routers/sessao.py:109-114 | completing a recovered session again turns it into "concluida" |
| Sessoes.BuscarSessao | backend/routers/sessao.py:131-154 | a malformed id answers 400; a well-formed one finds a row exactly when one has that id, and answers 404 otherwise |
| AbandonoJob.Enviado | backend/services/abandono_job.py:64-66 | a delivered e-mail records its time and the matching abandonment status, and changes nothing else on the row |
| AbandonoJob.ProcessarFase | backend/services/abandono_job.py:58-96 | a phase's loop records every delivered e-mail and counts each eligible session once, as sent or as failed |
| AbandonoJob.ProcessarAbandonos | backend/services/abandono_job.py:22-101 | the job runs the first-e-mail phase and then the second over what the first left; completed, recovered and twice-mailed sessions are untouched; a session mailed first in a run is not mailed again in it; the counts cover exactly the eligible sessions |
| AbandonoJob.OneEmailPerRun | backend/services/abandono_job.py:46-96 | a session eligible for the first e-mail never also receives the second in the same run |
| AbandonoJob.SecondEmailSpacing | backend/services/abandono_job.py:75-96 | the second e-mail goes only to a session whose first e-mail went out at least 45 hours before |
| AbandonoJob.FirstEmailWindow | backend/services/abandono_job.py:46-69 | the first e-mail goes only to a started session created between 3 and 48 hours before |
| AbandonoJob.RerunFindsNothing | backend/services/abandono_job.py:46-96 | when every e-mail of a run is delivered, a second run at the same moment finds nothing to send |
| AbandonoJob.AposAdvances | backend/services/abandono_job.py:58-96 | a phase keeps the status coherent with the recorded times and moves a session forward by at most one step |
| AbandonoJob.ProcessarAbandonoManual | backend/services/abandono_job.py:104-154 | manual sending reports success exactly for a well-formed id of an existing session, type 1 or 2 and a delivered e-mail, and then records it on that row; otherwise nothing changes |
| AbandonoJob.ManualReachesCompletedSession | backend/services/abandono_job.py:120-141 | unlike the job, manual sending reaches a completed session and sets it back to an abandonment status |
| AbandonoJob.OperationsKeepCoherence | backend/services/abandono_job.py:104-154 | manual sending and completion keep every row's status coherent with its recorded times |
| ReengajamentoJob.ProcessarReengajamento | backend/services/reengajamento_job.py:19-79 | the run's counts cover every analysis the query returned, once each, and the deliveries equal the addresses mailed |
| ReengajamentoJob.CountsCoverCandidates | backend/services/reengajamento_job.py:58-74 | sent, failed and skipped add up to the analyses the query returned |
| ReengajamentoJob.DeliveriesAreAddresses | backend/services/reengajamento_job.py:69-72 | each delivery adds a new address, so deliveries count the addresses mailed |
| ReengajamentoJob.ProcessadosAreDeliveries | backend/services/reengajamento_job.py:56-72 | an address is marked as mailed exactly when an analysis with it was delivered in the run |
| ReengajamentoJob.OneDeliveryPerAddress | backend/services/reengajamento_job.py:55-72 | within one run no address receives the invitation twice |
| ReengajamentoJob.SkippedHasEarlierDelivery | backend/services/reengajamento_job.py:59-62 | an analysis is skipped only when an earlier one with the same address was delivered |
| ReengajamentoJob.DuplicateMailedNextRun | backend/services/reengajamento_job.py:58-74 | as written, a skipped duplicate stays unrecorded, so the next run inside the window mails the same address again |
| ReengajamentoJob.CorrectionExtendsRecording | backend/services/reengajamento_job.py:58-74 | the correction records every delivery as written does, and beyond that only analyses whose address was mailed in the run |
| ReengajamentoJob.CorrectedNoRepeat | backend/services/reengajamento_job.py:24-26 | with the correction, no analysis whose address was mailed is returned by a later run |
| ReengajamentoJob.FindAnalise | backend/services/reengajamento_job.py:102 | the lookup returns an analysis with the id asked for, and nothing exactly when none has it |
| ReengajamentoJob.EnviarEmail30dManual | backend/services/reengajamento_job.py:82-116 | manual sending reports success exactly for a well-formed id of an existing analysis and a delivered e-mail, and then records the time on that analysis; otherwise nothing changes |

## Left out

- Rendering, styling and animation: components are modelled only through the values they compute, the buttons they enable and what they choose to show.
- React mechanics such as state batching, effects, timers and memoisation: each hook is a record plus pure transition functions.
- Network requests, the database, PDF reports, payments and e-mail delivery are left out. A request is the payload handed over, a table is a sequence of rows, and a delivery is the next value of a boolean sequence.
- Query order is taken to be table order. Columns no property reads (`updated_at`, server-side creation defaults) are not kept.
- Clocks are parameters: the current time of the jobs and today's month for the forms and for `calcular_meses_ate_abertura`.
- Floating point is not modelled: money and percentages are exact reals.
- Python's `round(x, 2)` of the stored indicators and of the recommended capital is not applied. Values are kept unrounded.
- The payback goal share's `round(…, 1)` (backend/services/indicadores.py:229, backend/routers/dashboard.py:248) is not applied either. The share is kept unrounded.
- The two-decimal rounding of the trend before it feeds the score is also not applied.
- The one-decimal rounding of both pre-opening comparison differences, capital and revenue, is modelled, as are `Math.round` and the erosion's `round`.
- Locale formatting is abstract:
  - `toLocaleString` and Python's thousands grouping are not modelled;
  - the grouped digit string is an input of `Dashboard.FormatarMoeda`;
  - texts that quote figures are kept as the figures they quote.
- Long human-readable texts (action descriptions, phrases, explanations) are not modelled. They are represented by the datatype constructor that selects them.
- JavaScript `NaN` is not modelled, nor `null` passed where the types say `undefined`. The number precision of `parseInt` on very long digit strings is not modelled either.
- The payback card's icon configuration and the history table's colour classes are presentation only.
- Text.Trim: the white space removed is the ASCII set plus NBSP, not every Unicode space character that `trim` and `strip` remove.
- Sessoes.NormalizeEmail: lower-casing maps ASCII letters only. Python's `lower` also maps other alphabets.
- Uuid.Parse: only the canonical forms are read. Python also removes `urn:` and `uuid:` anywhere in the text, and its final `int(hex, 16)` accepts surrounding white space, a `+` sign, `_` between digits and a `0x` prefix. Such text (for example `0x` followed by 30 digits) is an identifier to the service, which then answers 404, and malformed to the model, which answers 400.
- Schemas.ValidateEstado: upper-casing maps ASCII letters only. Python's `upper` also maps other letters, some onto ASCII ones (`ſ` becomes `S`), so text such as `ſp` names a unit to the service and is rejected by the model.
- Sessoes.IniciarSessao: the request's `email` is an `EmailStr`. The service answers 422 to a malformed address and creates no row, and it reduces a `Name <addr>` form to the address before lower-casing. The model takes the address as given, so it stores a row for any text, for example `not an email` or `ana <a@b.co>`.
- Schemas.ValidateAnalise and Schemas.ValidatePreAbertura state the bounds and conditional rules. They do not state pydantic's `EmailStr` address validation.
- DashboardCards.GetBarHeight: below a tenth of the scale it states only the 10% floor and does not restate the `max`.
- Diagnostico.Acoes60: it states the length, the first action and the cycle action in second place, not every later position.
- Diagnostico.GerarDiagnostico: it states the sizes of the five lists. Their contents are stated by the members that build them.
- Dashboard.GerarDiagnostico: it states the bounds and which verdict heads the lists. The other positions are stated through `Dashboard.LossIsShown` and the verdict functions.
- Dashboard.FormatarNumero: only the default rendering without decimals is modelled. The branch with decimals (line 30) is the separator swap `Dashboard.SwapSeparators` already states for currency.
- Dashboard.Candidates60: it states only that the unconditional reserve action is a candidate. The selection rule is stated by `Dashboard.Selected`.
- Dashboard.SortDesc: stability for equal priorities is not stated. In each horizon, the actions that can be selected together have distinct priorities.

## Findings

| source | as written | input that shows it | evidently intended | confidence | as-written member | corrected member |
|---|---|---|---|---|---|---|
| frontend/components/pre-abertura/resultado/GraficoComparativo.tsx:38-72 | only "acima" and "adequado" are read as good; the service's "muito_acima" falls into the last branch, drawn red and labelled as below the reference | expected revenue 30 000 for "comercio_varejo" (reference 15 000): status "muito_acima", difference +100%, shown red as "100% abaixo da referência" | "muito_acima" is shown like "acima", green and above the reference | high; not executed | ResultadoCards.VeryHighRevenueShownAsBelow | ResultadoCards.CorrectedRevenueChartFollowsAmounts |
| backend/services/reengajamento_job.py:58-74 | within one run a second analysis of an already-mailed address is skipped but not stamped, so it stays a candidate | two analyses of ana@loja.com created 30 days ago: the run mails the first and skips the second; a run half an hour later, still inside the two-day window, mails the address again | one 30-day invitation per address, as the job's own description states at lines 24-26; every analysis whose address was mailed is stamped | medium; not executed | ReengajamentoJob.DuplicateMailedNextRun | ReengajamentoJob.CorrectedNoRepeat |
| backend/schemas/analise.py:169-194 | the conditional-required validators run only on keys present in the request, because pydantic does not validate defaults; an omitted amount passes where an explicit null is rejected | `tem_estoque: true` with no `estoque` key: accepted with no stock amount, after which `calcular_indicadores` compares `None > 0` | the amount is required under its flag whether null or left out | high; not executed | Schemas.OmittedAmountSlipsThrough | Schemas.ValidateAnalise |
| backend/schemas/pre_abertura.py:195-211 | the same holds for the stock answer and the employee band | `tipo_negocio: "produto"` with no `tem_estoque` key: accepted with no stock answer | the stock answer is required for a product business, and the band when there are employees, whether null or left out | high; not executed | Schemas.OmittedStockAnswerSlipsThrough | Schemas.ValidatePreAbertura |

=== FILE: abandono_job.dfy ===
/** The periodic job that e-mails owners who started an analysis and did not finish it:
    a first e-mail between 3 and 48 hours after the start, a second one 45 hours after the
    first. The clock is the parameter `agora` (seconds, UTC); the mailer's answer for each
    row is an oracle indexed by the row's position in the table. */
module AbandonoJob {
  import opened Wrappers
  import Uuid
  import opened Sessoes

  const Hora: int := 3600

  /** The two e-mails of the recovery sequence. */
  datatype Fase = Primeiro | Segundo

  /** The query of each phase. A missing `email_1_enviado_em` never satisfies the
      comparison of the second query, as in SQL. */
  predicate Elegivel(f: Fase, s: Sessao, agora: int) {
    match f
    case Primeiro =>
      s.status == Iniciada && agora - 48 * Hora < s.createdAt <= agora - 3 * Hora && s.email1EnviadoEm.None?
    case Segundo =>
      s.status == AbandonoEmail1 && s.email1EnviadoEm.Some? && s.email1EnviadoEm.value <= agora - 45 * Hora &&
      s.email2EnviadoEm.None?
  }

  /** What a delivered e-mail records on the row. */
  function Enviado(f: Fase, s: Sessao, agora: int): (r: Sessao)
    ensures r.id == s.id && r.nomeEmpresa == s.nomeEmpresa && r.email == s.email
    ensures r.analiseId == s.analiseId && r.createdAt == s.createdAt
    ensures f == Primeiro ==> r.status == AbandonoEmail1 && r.email1EnviadoEm == Some(agora) && r.email2EnviadoEm == s.email2EnviadoEm
    ensures f == Segundo ==> r.status == AbandonoEmail2 && r.email2EnviadoEm == Some(agora) && r.email1EnviadoEm == s.email1EnviadoEm
  {
    match f
    case Primeiro => s.(email1EnviadoEm := Some(agora), status := AbandonoEmail1)
    case Segundo => s.(email2EnviadoEm := Some(agora), status := AbandonoEmail2)
  }

  /** A row after one phase: changed only when the query picks it and the mailer delivers. */
  function Apos(f: Fase, s: Sessao, agora: int, entregue: bool): Sessao {
    if Elegivel(f, s, agora) && entregue then Enviado(f, s, agora) else s
  }

  /** The mailer's answer for the row at position `k`; no answer counts as a failure. */
  function Entregue(envios: seq<bool>, k: int): bool {
    0 <= k < |envios| && envios[k]
  }

  /** The table after a phase. */
  function AposFase(f: Fase, t: seq<Sessao>, agora: int, envios: seq<bool>): (r: seq<Sessao>)
    ensures |r| == |t| && forall k :: 0 <= k < |t| ==> r[k] == Apos(f, t[k], agora, Entregue(envios, k))
  {
    seq(|t|, k requires 0 <= k < |t| => Apos(f, t[k], agora, Entregue(envios, k)))
  }

  // ---------- Counting ----------

  /** Rows among the first `n` that the phase's query picks. */
  function Elegiveis(f: Fase, t: seq<Sessao>, agora: int, n: nat): nat
    requires n <= |t|
  {
    if n == 0 then 0 else Elegiveis(f, t, agora, n - 1) + (if Elegivel(f, t[n - 1], agora) then 1 else 0)
  }

  /** Picked rows among the first `n` whose e-mail was delivered. */
  function Enviados(f: Fase, t: seq<Sessao>, agora: int, envios: seq<bool>, n: nat): nat
    requires n <= |t|
  {
    if n == 0 then 0
    else Enviados(f, t, agora, envios, n - 1) + (if Elegivel(f, t[n - 1], agora) && Entregue(envios, n - 1) then 1 else 0)
  }

  /** Picked rows among the first `n` whose e-mail failed. */
  function Falhas(f: Fase, t: seq<Sessao>, agora: int, envios: seq<bool>, n: nat): nat
    requires n <= |t|
  {
    if n == 0 then 0
    else Falhas(f, t, agora, envios, n - 1) + (if Elegivel(f, t[n - 1], agora) && !Entregue(envios, n - 1) then 1 else 0)
  }

  /** One phase of `processar_abandonos`: each picked row is mailed; a delivered e-mail is
      recorded on the row and counted as sent, a failed one counted as a failure. */
  method ProcessarFase(f: Fase, t: seq<Sessao>, agora: int, envios: seq<bool>) returns (t2: seq<Sessao>, enviados: nat, falhas: nat)
    ensures t2 == AposFase(f, t, agora, envios)
    ensures enviados == Enviados(f, t, agora, envios, |t|) && falhas == Falhas(f, t, agora, envios, |t|)
    ensures enviados + falhas == Elegiveis(f, t, agora, |t|)
  {
    t2 := t;
    enviados, falhas := 0, 0;
    var i := 0;
    while i < |t|
      invariant 0 <= i <= |t| && |t2| == |t|
      invariant forall k :: 0 <= k < i ==> t2[k] == Apos(f, t[k], agora, Entregue(envios, k))
      invariant forall k :: i <= k < |t| ==> t2[k] == t[k]
      invariant enviados == Enviados(f, t, agora, envios, i) && falhas == Falhas(f, t, agora, envios, i)
      invariant enviados + falhas == Elegiveis(f, t, agora, i)
    {
      if Elegivel(f, t[i], agora) {
        if Entregue(envios, i) {
          t2 := t2[i := Enviado(f, t[i], agora)];
          enviados := enviados + 1;
        } else {
          falhas := falhas + 1;
        }
      }
      i := i + 1;
    }
    assert t2 == AposFase(f, t, agora, envios);
  }

  /** The counters `processar_abandonos` returns. */
  datatype Stats = Stats(email1Enviados: nat, email1Falhas: nat, email2Enviados: nat, email2Falhas: nat)

  /** `processar_abandonos`: the first-e-mail phase, then the second-e-mail phase over the
      table the first one left. */
  method ProcessarAbandonos(t: seq<Sessao>, agora: int, envios1: seq<bool>, envios2: seq<bool>) returns (t2: seq<Sessao>, stats: Stats)
    ensures |t2| == |t|
    ensures forall k :: 0 <= k < |t| ==>
      t2[k] == Apos(Segundo, Apos(Primeiro, t[k], agora, Entregue(envios1, k)), agora, Entregue(envios2, k))
    ensures forall k :: 0 <= k < |t| ==>
      t2[k].id == t[k].id && t2[k].email == t[k].email && t2[k].analiseId == t[k].analiseId
    ensures forall k :: 0 <= k < |t| && t[k].status in {Concluida, Recuperada, AbandonoEmail2} ==> t2[k] == t[k]
    ensures forall k :: 0 <= k < |t| && Elegivel(Primeiro, t[k], agora) ==> t2[k].email2EnviadoEm == t[k].email2EnviadoEm
    ensures t2 == AposFase(Segundo, AposFase(Primeiro, t, agora, envios1), agora, envios2)
    ensures stats.email1Enviados + stats.email1Falhas == Elegiveis(Primeiro, t, agora, |t|)
    ensures stats.email1Enviados == Enviados(Primeiro, t, agora, envios1, |t|)
    ensures var t1 := AposFase(Primeiro, t, agora, envios1);
      stats.email2Enviados == Enviados(Segundo, t1, agora, envios2, |t|) &&
      stats.email2Enviados + stats.email2Falhas == Elegiveis(Segundo, t1, agora, |t|)
  {
    var t1, e1, f1 := ProcessarFase(Primeiro, t, agora, envios1);
    var e2, f2;
    t2, e2, f2 := ProcessarFase(Segundo, t1, agora, envios2);
    stats := Stats(e1, f1, e2, f2);
    forall k | 0 <= k < |t| && Elegivel(Primeiro, t[k], agora)
      ensures t2[k].email2EnviadoEm == t[k].email2EnviadoEm
    {
      OneEmailPerRun(t[k], agora, Entregue(envios1, k), Entregue(envios2, k));
    }
  }

  /** A session that receives the first e-mail in a run is not sent the second in the
      same run: its first e-mail is too recent. */
  lemma OneEmailPerRun(s: Sessao, agora: int, b1: bool, b2: bool)
    requires Elegivel(Primeiro, s, agora)
    ensures Apos(Segundo, Apos(Primeiro, s, agora, b1), agora, b2).email2EnviadoEm == s.email2EnviadoEm
    ensures Apos(Segundo, Apos(Primeiro, s, agora, b1), agora, b2) == Apos(Primeiro, s, agora, b1)
  {
    var s1 := Apos(Primeiro, s, agora, b1);
    assert !Elegivel(Segundo, s1, agora);
  }

  /** The second e-mail goes out at least 45 hours after the first. */
  lemma SecondEmailSpacing(s: Sessao, agora: int, b: bool)
    requires s.email2EnviadoEm.None? && Apos(Segundo, s, agora, b).email2EnviadoEm.Some?
    ensures s.email1EnviadoEm.Some? && s.email1EnviadoEm.value + 45 * Hora <= agora
    ensures Apos(Segundo, s, agora, b).email2EnviadoEm == Some(agora)
  {
  }

  /** The first e-mail goes out 3 to 48 hours after the session started. */
  lemma FirstEmailWindow(s: Sessao, agora: int, b: bool)
    requires s.email1EnviadoEm.None? && Apos(Primeiro, s, agora, b).email1EnviadoEm.Some?
    ensures s.status == Iniciada && s.createdAt + 3 * Hora <= agora < s.createdAt + 48 * Hora
  {
  }

  /** If every e-mail of a run was delivered, a second run at the same moment finds
      nothing to send. */
  lemma RerunFindsNothing(s: Sessao, agora: int)
    ensures var s2 := Apos(Segundo, Apos(Primeiro, s, agora, true), agora, true);
      !Elegivel(Primeiro, s2, agora) && !Elegivel(Segundo, s2, agora)
  {
  }

  /** The recorded status agrees with the recorded e-mails: a session marked as having
      received an e-mail has its sending time. */
  predicate Coerente(s: Sessao) {
    (s.status == AbandonoEmail1 ==> s.email1EnviadoEm.Some?) &&
    (s.status == AbandonoEmail2 ==> s.email2EnviadoEm.Some?)
  }

  /** The position of a status in the recovery sequence; completion ends it. */
  function Etapa(st: Status): nat {
    match st
    case Iniciada => 0
    case AbandonoEmail1 => 1
    case AbandonoEmail2 => 2
    case Concluida => 3
    case Recuperada => 3
  }

  /** A phase keeps rows coherent and only moves a session forward, by exactly one step. */
  lemma AposAdvances(f: Fase, s: Sessao, agora: int, b: bool)
    ensures Coerente(s) ==> Coerente(Apos(f, s, agora, b))
    ensures var r := Apos(f, s, agora, b);
      r == s || (Etapa(r.status) == Etapa(s.status) + 1 && Etapa(r.status) == (if f == Primeiro then 1 else 2))
  {
  }

  /** `processar_abandono_manual`: for a well-formed id of an existing session and type 1 or
      2 the e-mail is sent whatever the session's status, and recorded when delivered; the
      answer is whether it was delivered. Anything else answers false and changes nothing. */
  function ProcessarAbandonoManual(t: seq<Sessao>, sessaoId: string, tipo: int, agora: int, entregue: bool): (r: (seq<Sessao>, bool))
    ensures r.1 <==> Uuid.Parse(sessaoId).Some? && Find(t, Uuid.Parse(sessaoId).value).Some? && tipo in {1, 2} && entregue
    ensures !r.1 ==> r.0 == t
    ensures r.1 ==>
      var k := Find(t, Uuid.Parse(sessaoId).value).value;
      r.0 == t[k := Enviado(if tipo == 1 then Primeiro else Segundo, t[k], agora)]
  {
    match Uuid.Parse(sessaoId)
    case None => (t, false)
    case Some(id) =>
      match Find(t, id)
      case None => (t, false)
      case Some(k) =>
        if tipo == 1 then (if entregue then t[k := Enviado(Primeiro, t[k], agora)] else t, entregue)
        else if tipo == 2 then (if entregue then t[k := Enviado(Segundo, t[k], agora)] else t, entregue)
        else (t, false)
  }

  /** Unlike the job, the manual sending reaches a completed session and sets it back to an
      abandonment status. */
  lemma ManualReachesCompletedSession(t: seq<Sessao>, k: nat, agora: int)
    requires k < |t| && IdsUnique(t) && Uuid.Valid(t[k].id) && t[k].status == Concluida
    ensures var r := ProcessarAbandonoManual(t, Uuid.Format(t[k].id), 1, agora, true);
      r.1 && r.0[k].status == AbandonoEmail1
    ensures !Elegivel(Primeiro, t[k], agora) && !Elegivel(Segundo, t[k], agora)
  {
    Uuid.ParseFormat(t[k].id);
    FindUnique(t, t[k].id, k);
  }

  /** Every operation on sessions keeps every row coherent. */
  lemma OperationsKeepCoherence(t: seq<Sessao>, sessaoId: string, analiseId: string, tipo: int, agora: int, entregue: bool)
    requires forall k :: 0 <= k < |t| ==> Coerente(t[k])
    ensures var r := ProcessarAbandonoManual(t, sessaoId, tipo, agora, entregue).0;
      forall k :: 0 <= k < |r| ==> Coerente(r[k])
    ensures var r := ConcluirSessao(t, sessaoId, analiseId);
      r.Success? ==> forall k :: 0 <= k < |r.value.0| ==> Coerente(r.value.0[k])
  {
  }
}

=== FILE: analise_wizard.dfy ===
/** The four-stage financial analysis intake (`useAnalise`), its financial step
    (`Etapa4SaudeFinanceira`) and the request body built by `prepararDadosParaApi`. */
module AnaliseWizard {
  import opened Wrappers
  import opened Numeric
  import Calendar
  import Text
  import MoneyInput

  /** `ReceitaHistorico`: revenue of the three months before the reference month. */
  datatype History = History(tresMesesAtras: real, doisMesesAtras: real, mesPassado: real)

  /** `DadosAnalise`. An optional `?: number` is an `Option<real>`. */
  datatype Data = Data(
    nomeEmpresa: string,
    email: string,
    setor: string,
    estado: string,
    mesReferencia: int,
    anoReferencia: int,
    metodoEntrada: string,
    historico: History,
    receitaAtual: real,
    custoVendas: real,
    despesasFixas: real,
    caixaBancos: real,
    contasReceber: real,
    contasPagar: real,
    temEstoque: bool,
    estoque: Option<real>,
    temDividas: bool,
    dividasTotais: Option<real>,
    temBens: bool,
    bensEquipamentos: Option<real>,
    numFuncionarios: int)

  /** The keys of `DadosAnalise`; they also key the errors the validators flag. */
  datatype Field =
    | NomeEmpresa | Email | Setor | Estado | MesReferencia | AnoReferencia | MetodoEntrada
    | ReceitaHistorico | ReceitaAtual | CustoVendas | DespesasFixas | CaixaBancos
    | ContasReceber | ContasPagar | TemEstoque | Estoque | TemDividas | DividasTotais
    | TemBens | BensEquipamentos | NumFuncionarios

  /** A value that can be stored in a field. */
  datatype Value =
    | Chars(s: string) | Count(n: int) | Number(x: real) | Flag(b: bool)
    | MaybeNumber(o: Option<real>) | Months(h: History)

  /** The value has the type TypeScript demands of that field (`DadosAnalise[K]`). */
  predicate Fits(f: Field, v: Value) {
    match f
    case NomeEmpresa | Email | Setor | Estado | MetodoEntrada => v.Chars?
    case MesReferencia | AnoReferencia | NumFuncionarios => v.Count?
    case ReceitaHistorico => v.Months?
    case TemEstoque | TemDividas | TemBens => v.Flag?
    case Estoque | DividasTotais | BensEquipamentos => v.MaybeNumber?
    case _ => v.Number?
  }

  function Get(d: Data, f: Field): (v: Value)
    ensures Fits(f, v)
  {
    match f
    case NomeEmpresa => Chars(d.nomeEmpresa)
    case Email => Chars(d.email)
    case Setor => Chars(d.setor)
    case Estado => Chars(d.estado)
    case MesReferencia => Count(d.mesReferencia)
    case AnoReferencia => Count(d.anoReferencia)
    case MetodoEntrada => Chars(d.metodoEntrada)
    case ReceitaHistorico => Months(d.historico)
    case ReceitaAtual => Number(d.receitaAtual)
    case CustoVendas => Number(d.custoVendas)
    case DespesasFixas => Number(d.despesasFixas)
    case CaixaBancos => Number(d.caixaBancos)
    case ContasReceber => Number(d.contasReceber)
    case ContasPagar => Number(d.contasPagar)
    case TemEstoque => Flag(d.temEstoque)
    case Estoque => MaybeNumber(d.estoque)
    case TemDividas => Flag(d.temDividas)
    case DividasTotais => MaybeNumber(d.dividasTotais)
    case TemBens => Flag(d.temBens)
    case BensEquipamentos => MaybeNumber(d.bensEquipamentos)
    case NumFuncionarios => Count(d.numFuncionarios)
  }

  /** `{ ...prev, [campo]: valor }`: one field takes the value, the others keep theirs. */
  function Set(d: Data, f: Field, v: Value): (r: Data)
    requires Fits(f, v)
    ensures Get(r, f) == v
    ensures forall g :: g != f ==> Get(r, g) == Get(d, g)
  {
    match f
    case NomeEmpresa => d.(nomeEmpresa := v.s)
    case Email => d.(email := v.s)
    case Setor => d.(setor := v.s)
    case Estado => d.(estado := v.s)
    case MesReferencia => d.(mesReferencia := v.n)
    case AnoReferencia => d.(anoReferencia := v.n)
    case MetodoEntrada => d.(metodoEntrada := v.s)
    case ReceitaHistorico => d.(historico := v.h)
    case ReceitaAtual => d.(receitaAtual := v.x)
    case CustoVendas => d.(custoVendas := v.x)
    case DespesasFixas => d.(despesasFixas := v.x)
    case CaixaBancos => d.(caixaBancos := v.x)
    case ContasReceber => d.(contasReceber := v.x)
    case ContasPagar => d.(contasPagar := v.x)
    case TemEstoque => d.(temEstoque := v.b)
    case Estoque => d.(estoque := v.o)
    case TemDividas => d.(temDividas := v.b)
    case DividasTotais => d.(dividasTotais := v.o)
    case TemBens => d.(temBens := v.b)
    case BensEquipamentos => d.(bensEquipamentos := v.o)
    case NumFuncionarios => d.(numFuncionarios := v.n)
  }

  /** Storing the value a field already holds gives back the same record. */
  lemma {:induction false} SetCurrentValue(d: Data, f: Field)
    ensures Set(d, f, Get(d, f)) == d
  {
  }

  /** `EtapaFluxo`. */
  type Stage = e: int | 1 <= e <= 4 witness 1

  /** The hook's state; `cards` is `cardsExpandidos`. */
  datatype Wizard = Wizard(
    dados: Data,
    etapa: Stage,
    erros: map<Field, string>,
    alertas: seq<string>,
    cards: seq<string>,
    carregando: bool)

  /** `ResultadoValidacao` with its non-blocking alerts. */
  datatype Validation = Validation(valido: bool, erros: map<Field, string>, alertas: seq<string>)

  const CostAlert := "Custo maior que receita. Verifique os valores."
  const ExpenseAlert := "Despesas maiores que receita. Isso indica prejuízo."

  const MsgNome := "Nome da empresa é obrigatório"
  const MsgEmail := "Email inválido"
  const MsgSetor := "Selecione o setor"
  const MsgEstado := "Selecione o estado"

  /** `validarEtapa1`: a company name of at least two non-blank characters and an
      e-mail address matching the pattern. */
  function ValidateStage1(d: Data): (v: Validation)
    ensures NomeEmpresa in v.erros <==> |Text.Trim(d.nomeEmpresa)| < 2
    ensures Email in v.erros <==> !Text.MatchesEmailPattern(d.email)
    ensures v.erros.Keys <= {NomeEmpresa, Email}
    ensures v.valido <==> v.erros == map[]
    ensures v.alertas == []
  {
    Text.EmailValidMatchesPattern(d.email);
    var e1: map<Field, string> := if d.nomeEmpresa == "" || |Text.Trim(d.nomeEmpresa)| < 2 then map[NomeEmpresa := MsgNome] else map[];
    var e2 := if d.email == "" || !Text.EmailValid(d.email) then e1[Email := MsgEmail] else e1;
    Validation(|e2| == 0, e2, [])
  }

  /** `validarEtapa2`: a sector and a state are chosen. */
  function ValidateStage2(d: Data): (v: Validation)
    ensures Setor in v.erros <==> d.setor == ""
    ensures Estado in v.erros <==> d.estado == ""
    ensures v.erros.Keys <= {Setor, Estado}
    ensures v.valido <==> v.erros == map[]
    ensures v.alertas == []
  {
    var e1: map<Field, string> := if d.setor == "" then map[Setor := MsgSetor] else map[];
    var e2 := if d.estado == "" then e1[Estado := MsgEstado] else e1;
    Validation(|e2| == 0, e2, [])
  }

  /** A flagged optional amount is missing or not positive (`!x || x <= 0`). */
  predicate MissingAmount(flag: bool, x: Option<real>) {
    flag && (x.None? || x.value <= 0.0)
  }

  /** The message `validarEtapa4` shows for each field it flags. */
  function Stage4Message(f: Field): string {
    match f
    case ReceitaAtual => MsgReceita
    case NumFuncionarios => MsgFuncionarios
    case Estoque => MsgEstoque
    case DividasTotais => MsgDividas
    case _ => MsgBens
  }

  const MsgReceita := "Receita é obrigatória"
  const MsgFuncionarios := "Mínimo 1 funcionário"
  const MsgEstoque := "Informe o valor do estoque"
  const MsgDividas := "Informe o valor das dívidas"
  const MsgBens := "Informe o valor dos bens"

  /** The fields `validarEtapa4` flags. */
  function Stage4Flagged(d: Data): (s: set<Field>)
    ensures ReceitaAtual in s <==> d.receitaAtual <= 0.0
    ensures NumFuncionarios in s <==> d.numFuncionarios < 1
    ensures Estoque in s <==> MissingAmount(d.temEstoque, d.estoque)
    ensures DividasTotais in s <==> MissingAmount(d.temDividas, d.dividasTotais)
    ensures BensEquipamentos in s <==> MissingAmount(d.temBens, d.bensEquipamentos)
    ensures s <= {ReceitaAtual, NumFuncionarios, Estoque, DividasTotais, BensEquipamentos}
  {
    (if d.receitaAtual <= 0.0 then {ReceitaAtual} else {})
    + (if d.numFuncionarios < 1 then {NumFuncionarios} else {})
    + (if MissingAmount(d.temEstoque, d.estoque) then {Estoque} else {})
    + (if MissingAmount(d.temDividas, d.dividasTotais) then {DividasTotais} else {})
    + (if MissingAmount(d.temBens, d.bensEquipamentos) then {BensEquipamentos} else {})
  }

  /** The non-blocking alerts of `validarEtapa4`, cost before expenses. */
  function CoherenceAlerts(receita: real, custo: real, despesas: real): (a: seq<string>)
    ensures |a| <= 2
    ensures CostAlert in a <==> custo > receita
    ensures ExpenseAlert in a <==> despesas > receita
    ensures custo > receita ==> a[0] == CostAlert
  {
    (if custo > receita then [CostAlert] else []) + (if despesas > receita then [ExpenseAlert] else [])
  }

  /** `validarEtapa4`: blocking errors on the figures and non-blocking coherence alerts. */
  function ValidateStage4(d: Data): (v: Validation)
    ensures ReceitaAtual in v.erros <==> d.receitaAtual <= 0.0
    ensures NumFuncionarios in v.erros <==> d.numFuncionarios < 1
    ensures Estoque in v.erros <==> MissingAmount(d.temEstoque, d.estoque)
    ensures DividasTotais in v.erros <==> MissingAmount(d.temDividas, d.dividasTotais)
    ensures BensEquipamentos in v.erros <==> MissingAmount(d.temBens, d.bensEquipamentos)
    ensures v.erros.Keys <= {ReceitaAtual, NumFuncionarios, Estoque, DividasTotais, BensEquipamentos}
    ensures v.valido <==> v.erros == map[]
    ensures v.alertas == CoherenceAlerts(d.receitaAtual, d.custoVendas, d.despesasFixas)
  {
    var flagged := Stage4Flagged(d);
    var erros := map f | f in flagged :: Stage4Message(f);
    assert erros.Keys == flagged;
    Validation(flagged == {}, erros, CoherenceAlerts(d.receitaAtual, d.custoVendas, d.despesasFixas))
  }

  /** The coherence alerts never block: costs and expenses do not affect validity. */
  lemma AlertsNeverBlock(d: Data, custo: real, despesas: real)
    ensures ValidateStage4(d.(custoVendas := custo, despesasFixas := despesas)).valido == ValidateStage4(d).valido
  {
  }

  /** The validation `avancar` runs for a stage; stage 3 (entry method) has none. */
  function StageValidation(d: Data, e: Stage): (v: Validation)
    ensures e == 3 ==> v == Validation(true, map[], [])
  {
    if e == 1 then ValidateStage1(d)
    else if e == 2 then ValidateStage2(d)
    else if e == 4 then ValidateStage4(d)
    else Validation(true, map[], [])
  }

  /** The outcome of `avancar`: the new state and the boolean returned. */
  datatype Move = Move(w: Wizard, ok: bool)

  /** `avancar`: replace errors and alerts, move on when valid before the last stage. */
  function Advance(w: Wizard): (m: Move)
    ensures m.ok == StageValidation(w.dados, w.etapa).valido
    ensures m.w.erros == StageValidation(w.dados, w.etapa).erros
    ensures m.w.alertas == StageValidation(w.dados, w.etapa).alertas
    ensures m.w.etapa == (if m.ok && w.etapa < 4 then w.etapa + 1 else w.etapa)
    ensures w.etapa == 3 ==> m.ok && m.w.etapa == 4
    ensures m.w.dados == w.dados && m.w.cards == w.cards && m.w.carregando == w.carregando
  {
    var v := StageValidation(w.dados, w.etapa);
    var w1 := w.(erros := v.erros, alertas := v.alertas);
    if v.valido && w.etapa < 4 then Move(w1.(etapa := w.etapa + 1), true)
    else Move(w1, v.valido)
  }

  /** `voltar`. */
  function Back(w: Wizard): (r: Wizard)
    ensures w.etapa == 1 ==> r == w
    ensures w.etapa > 1 ==> r.etapa == w.etapa - 1 && r.erros == map[] && r.alertas == []
    ensures r.dados == w.dados && r.cards == w.cards
  {
    if w.etapa > 1 then w.(etapa := w.etapa - 1, erros := map[], alertas := []) else w
  }

  /** Going back from an advanced stage restores it with nothing flagged. */
  lemma {:induction false} AdvanceThenBack(w: Wizard)
    requires w.etapa < 4 && Advance(w).ok
    ensures Back(Advance(w).w) == w.(erros := map[], alertas := [])
  {
  }

  /** `progresso`. */
  function Progress(e: Stage): int {
    Round((e as real / 4.0) * 100.0)
  }

  /** Progress moves in quarters: strictly increasing and 100 only at the last stage. */
  lemma {:induction false} ProgressQuarters(e: Stage)
    ensures Progress(e) == 25 * e
    ensures Progress(e) == 100 <==> e == 4
    ensures e < 4 ==> Progress(e) < Progress(e + 1)
  {
    assert (e as real / 4.0) * 100.0 == (25 * e) as real;
    RoundOfInt(25 * e);
    if e < 4 {
      assert ((e + 1) as real / 4.0) * 100.0 == (25 * (e + 1)) as real;
      RoundOfInt(25 * (e + 1));
    }
  }

  /** `atualizarDados(campo, valor)`: store the value in its field and clear that field's
      error if one is shown; every other field and error is kept. */
  function UpdateData(w: Wizard, f: Field, v: Value): (r: Wizard)
    requires Fits(f, v)
    ensures Get(r.dados, f) == v
    ensures forall g :: g != f ==> Get(r.dados, g) == Get(w.dados, g)
    ensures f !in r.erros || r.erros[f] == ""
    ensures forall g :: g != f ==> (g in r.erros <==> g in w.erros) && (g in r.erros ==> r.erros[g] == w.erros[g])
    ensures r.etapa == w.etapa && r.alertas == w.alertas && r.cards == w.cards && r.carregando == w.carregando
  {
    var erros := if f in w.erros && w.erros[f] != "" then w.erros - {f} else w.erros;
    w.(dados := Set(w.dados, f, v), erros := erros)
  }

  /** Storing the value a field already holds leaves the form's data as it was. */
  lemma {:induction false} UpdateWithCurrentValue(w: Wizard, f: Field)
    ensures UpdateData(w, f, Get(w.dados, f)).dados == w.dados
  {
    SetCurrentValue(w.dados, f);
  }

  /** A month of the revenue history. */
  datatype HistoryMonth = TresMesesAtras | DoisMesesAtras | MesPassado

  function HistoryGet(h: History, m: HistoryMonth): real {
    match m
    case TresMesesAtras => h.tresMesesAtras
    case DoisMesesAtras => h.doisMesesAtras
    case MesPassado => h.mesPassado
  }

  /** `atualizarReceitaHistorico`: one nested field changes; errors and alerts stay. */
  function UpdateHistory(w: Wizard, m: HistoryMonth, valor: real): (r: Wizard)
    ensures HistoryGet(r.dados.historico, m) == valor
    ensures forall n :: n != m ==> HistoryGet(r.dados.historico, n) == HistoryGet(w.dados.historico, n)
    ensures r.dados.(historico := w.dados.historico) == w.dados
    ensures r.erros == w.erros && r.alertas == w.alertas && r.etapa == w.etapa
  {
    var h := w.dados.historico;
    var h' := match m
      case TresMesesAtras => h.(tresMesesAtras := valor)
      case DoisMesesAtras => h.(doisMesesAtras := valor)
      case MesPassado => h.(mesPassado := valor);
    w.(dados := w.dados.(historico := h'))
  }

  /** `prev.filter(id => id !== cardId)`. */
  function Without(cards: seq<string>, id: string): (r: seq<string>)
    ensures id !in r
    ensures forall x :: x != id ==> (x in r <==> x in cards)
    ensures id !in cards ==> r == cards
    ensures |r| <= |cards|
  {
    if cards == [] then []
    else (if cards[0] == id then [] else [cards[0]]) + Without(cards[1..], id)
  }

  /** `toggleCard`. */
  function ToggleCard(cards: seq<string>, id: string): (r: seq<string>)
    ensures id in r <==> id !in cards
    ensures forall x :: x != id ==> (x in r <==> x in cards)
  {
    if id in cards then Without(cards, id) else cards + [id]
  }

  /** `isCardExpandido`. */
  predicate IsCardExpanded(cards: seq<string>, id: string) {
    id in cards
  }

  /** Toggling a card twice restores the set of expanded cards; from a collapsed
      card it restores the list itself. */
  lemma {:induction false} ToggleTwice(cards: seq<string>, id: string)
    ensures forall x :: IsCardExpanded(ToggleCard(ToggleCard(cards, id), id), x) <==> IsCardExpanded(cards, x)
    ensures id !in cards ==> ToggleCard(ToggleCard(cards, id), id) == cards
  {
    if id !in cards {
      WithoutAppended(cards, id);
    }
  }

  lemma {:induction false} WithoutAppended(cards: seq<string>, id: string)
    requires id !in cards
    ensures Without(cards + [id], id) == cards
    decreases |cards|
  {
    if cards == [] {
      assert Without([id], id) == [] + Without([], id);
    } else {
      assert (cards + [id])[1..] == cards[1..] + [id];
      WithoutAppended(cards[1..], id);
    }
  }

  /** `ETAPAS_INFO`: the title of each stage. */
  const StageTitles: map<int, string> := map[
    1 := "Identificação", 2 := "Informações Básicas", 3 := "Método de Entrada", 4 := "Saúde Financeira"]

  lemma StageTitlesCoverStages()
    ensures forall e: int :: e in StageTitles <==> 1 <= e <= 4
  {
  }

  /** `DADOS_INICIAIS`, with today's month passed in (`Date.getMonth()`, 0-11). */
  function InitialData(mesJs: int, anoHoje: int): (d: Data)
    requires 0 <= mesJs <= 11
    ensures !d.temEstoque && d.estoque.None?
    ensures !d.temDividas && d.dividasTotais.None?
    ensures !d.temBens && d.bensEquipamentos.None?
    ensures d.numFuncionarios == 1 && d.setor == "" && d.estado == ""
    ensures d.receitaAtual == 0.0 && d.custoVendas == 0.0 && d.despesasFixas == 0.0
    ensures d.caixaBancos == 0.0 && d.contasReceber == 0.0 && d.contasPagar == 0.0
    ensures d.historico == History(0.0, 0.0, 0.0)
    ensures Calendar.ValidMonth(Calendar.MonthYear(d.mesReferencia, d.anoReferencia))
    ensures !StageValidation(d, 1).valido && !StageValidation(d, 2).valido && !StageValidation(d, 4).valido
  {
    var anterior := Calendar.PreviousMonth(mesJs, anoHoje);
    var d := Data("", "", "", "", anterior.mes, anterior.ano, "manual", History(0.0, 0.0, 0.0),
      0.0, 0.0, 0.0, 0.0, 0.0, 0.0, false, None, false, None, false, None, 1);
    assert Text.Trim("") == [];
    d
  }

  /** The hook's initial state: stage 1, nothing flagged, the revenue card open. */
  function InitialWizard(mesJs: int, anoHoje: int): (w: Wizard)
    requires 0 <= mesJs <= 11
    ensures w.etapa == 1 && w.erros == map[] && w.alertas == [] && !w.carregando
    ensures IsCardExpanded(w.cards, "receita") && |w.cards| == 1
  {
    Wizard(InitialData(mesJs, anoHoje), 1, map[], [], ["receita"], false)
  }

  /** The JSON body of `POST /analises`, `prepararDadosParaApi`. */
  datatype ApiPayload = ApiPayload(
    nomeEmpresa: string,
    email: string,
    setor: string,
    estado: string,
    mesReferencia: int,
    anoReferencia: int,
    historico: History,
    receitaAtual: real,
    custoVendas: real,
    despesasFixas: real,
    caixaBancos: real,
    contasReceber: real,
    contasPagar: real,
    temEstoque: bool,
    estoque: Option<real>,
    temDividas: bool,
    dividasTotais: Option<real>,
    temBens: bool,
    bensEquipamentos: Option<real>,
    numFuncionarios: int)

  /** `x || 0` on a number: 0 stays 0 (NaN, the other falsy number, is not modelled). */
  function OrZero(x: real): real {
    if x == 0.0 then 0.0 else x
  }

  /** `prepararDadosParaApi`: dependent amounts are sent only under their flag. */
  function PrepareForApi(d: Data): (p: ApiPayload)
    ensures p.estoque == (if d.temEstoque then d.estoque else None)
    ensures p.dividasTotais == (if d.temDividas then d.dividasTotais else None)
    ensures p.bensEquipamentos == (if d.temBens then d.bensEquipamentos else None)
    ensures p.historico == d.historico
    ensures p.nomeEmpresa == d.nomeEmpresa && p.email == d.email && p.setor == d.setor && p.estado == d.estado
    ensures p.mesReferencia == d.mesReferencia && p.anoReferencia == d.anoReferencia
    ensures p.receitaAtual == d.receitaAtual && p.custoVendas == d.custoVendas && p.despesasFixas == d.despesasFixas
    ensures p.caixaBancos == d.caixaBancos && p.contasReceber == d.contasReceber && p.contasPagar == d.contasPagar
    ensures p.temEstoque == d.temEstoque && p.temDividas == d.temDividas && p.temBens == d.temBens
    ensures p.numFuncionarios == d.numFuncionarios
  {
    ApiPayload(
      d.nomeEmpresa, d.email, d.setor, d.estado, d.mesReferencia, d.anoReferencia,
      History(OrZero(d.historico.tresMesesAtras), OrZero(d.historico.doisMesesAtras), OrZero(d.historico.mesPassado)),
      d.receitaAtual, d.custoVendas, d.despesasFixas, d.caixaBancos, d.contasReceber, d.contasPagar,
      d.temEstoque, if d.temEstoque then d.estoque else None,
      d.temDividas, if d.temDividas then d.dividasTotais else None,
      d.temBens, if d.temBens then d.bensEquipamentos else None,
      d.numFuncionarios)
  }

  /** The entry method is not sent, and a dependent amount typed before its flag was
      turned off is dropped. */
  lemma {:induction false} PayloadIgnoresHiddenInputs(d: Data, metodo: string, estoque: Option<real>)
    ensures PrepareForApi(d.(metodoEntrada := metodo)) == PrepareForApi(d)
    ensures !d.temEstoque ==> PrepareForApi(d.(estoque := estoque)) == PrepareForApi(d)
  {
  }

  /** The outcome of `Etapa4SaudeFinanceira.handleSubmit`. `respostaOk` says whether
      `criarAnalise` resolved; the request itself is not modelled. */
  datatype SubmitOutcome = SubmitOutcome(w: Wizard, request: Option<ApiPayload>, redirected: bool)

  /** `handleSubmit`: send only after `avancar()` returns true, always clear `carregando`. */
  function HandleSubmit(w: Wizard, respostaOk: bool): (o: SubmitOutcome)
    ensures o.request.Some? <==> Advance(w).ok
    ensures o.request.Some? ==> o.request.value == PrepareForApi(w.dados) && !o.w.carregando
    ensures o.redirected <==> o.request.Some? && respostaOk
    ensures w.etapa == 4 ==> o.w.etapa == 4
  {
    var m := Advance(w);
    if m.ok then SubmitOutcome(m.w.(carregando := false), Some(PrepareForApi(w.dados)), respostaOk)
    else SubmitOutcome(m.w, None, false)
  }

  /** The outcome of `InputMonetario.handleChange`: the display and the value handed up. */
  function AmountKeystroke(entrada: string): (c: MoneyInput.Change)
    ensures c.valor == MoneyInput.Amount(entrada) && c.valor >= 0.0
    ensures c.display.Empty? <==> c.valor == 0.0
  {
    MoneyInput.HandleChange(entrada)
  }
}

=== FILE: calendar.dfy ===
/** Month arithmetic: the default reference and opening months, the history labels
    of the financial step, and the months left until a planned opening. */
module Calendar {

  /** A calendar month (1-12) of a year. */
  datatype MonthYear = MonthYear(mes: int, ano: int)

  /** The linear month count 12·ano + mes, in which consecutive months differ by one. */
  function Index(m: MonthYear): int {
    12 * m.ano + m.mes
  }

  predicate ValidMonth(m: MonthYear) {
    1 <= m.mes <= 12
  }

  /** The month names of the intake form, indexed 1-12. */
  const MonthNames: seq<string> := [
    "Janeiro", "Fevereiro", "Março", "Abril", "Maio", "Junho",
    "Julho", "Agosto", "Setembro", "Outubro", "Novembro", "Dezembro"
  ]

  /** `MESES.find(m => m.value === mes)?.label || ""`. */
  function MonthName(mes: int): (s: string)
    ensures s == "" <==> !(1 <= mes <= 12)
  {
    if 1 <= mes <= 12 then MonthNames[mes - 1] else ""
  }

  /** A "month/year" label as the history inputs print it. */
  datatype Label = Label(nomeMes: string, ano: int)

  /** `getMesAnterior`: the month before today's. `mesJs` is `Date.getMonth()`, counted 0-11. */
  function PreviousMonth(mesJs: int, anoHoje: int): (r: MonthYear)
    requires 0 <= mesJs <= 11
    ensures ValidMonth(r)
    ensures Index(r) == Index(MonthYear(mesJs + 1, anoHoje)) - 1
  {
    if mesJs == 0 then MonthYear(12, anoHoje - 1) else MonthYear(mesJs, anoHoje)
  }

  /** `getProximoMes`: the month after today's. `mesJs` is `Date.getMonth()`, counted 0-11. */
  function NextMonth(mesJs: int, anoHoje: int): (r: MonthYear)
    requires 0 <= mesJs <= 11
    ensures ValidMonth(r)
    ensures Index(r) == Index(MonthYear(mesJs + 1, anoHoje)) + 1
  {
    var mes := mesJs + 2;
    if mes > 12 then MonthYear(mes - 12, anoHoje + 1) else MonthYear(mes, anoHoje)
  }

  /** The same month is one index apart from a unique neighbour on each side. */
  lemma {:induction false} IndexInjective(a: MonthYear, b: MonthYear)
    requires ValidMonth(a) && ValidMonth(b) && Index(a) == Index(b)
    ensures a == b
  {
  }

  /** January goes back to December of the previous year, any other month to the
      month before in the same year; December goes on to January of the next year. */
  lemma {:induction false} PreviousAndNextMonthCases(mesJs: int, anoHoje: int)
    requires 0 <= mesJs <= 11
    ensures mesJs == 0 ==> PreviousMonth(mesJs, anoHoje) == MonthYear(12, anoHoje - 1)
    ensures mesJs != 0 ==> PreviousMonth(mesJs, anoHoje) == MonthYear(mesJs, anoHoje)
    ensures mesJs == 11 ==> NextMonth(mesJs, anoHoje) == MonthYear(1, anoHoje + 1)
    ensures mesJs != 11 ==> NextMonth(mesJs, anoHoje) == MonthYear(mesJs + 2, anoHoje)
  {
    var p := PreviousMonth(mesJs, anoHoje);
    var n := NextMonth(mesJs, anoHoje);
    if mesJs == 0 {
      IndexInjective(p, MonthYear(12, anoHoje - 1));
    } else {
      IndexInjective(p, MonthYear(mesJs, anoHoje));
    }
    if mesJs == 11 {
      IndexInjective(n, MonthYear(1, anoHoje + 1));
    } else {
      IndexInjective(n, MonthYear(mesJs + 2, anoHoje));
    }
  }

  /** `getMesAno(mesesAtras)`: step back `mesesAtras` months from the reference month,
      normalising with the source's `while (mes <= 0)` loop. */
  method MonthsBack(referencia: MonthYear, mesesAtras: int) returns (r: MonthYear)
    ensures Index(r) == Index(referencia) - mesesAtras
    ensures r.mes >= 1
    ensures referencia.mes <= 12 && mesesAtras >= 0 ==> ValidMonth(r)
    ensures referencia.mes - mesesAtras >= 1 ==> r == MonthYear(referencia.mes - mesesAtras, referencia.ano)
  {
    var mes := referencia.mes - mesesAtras;
    var ano := referencia.ano;
    while mes <= 0
      invariant 12 * ano + mes == Index(referencia) - mesesAtras
      invariant mes <= 12 || mes == referencia.mes - mesesAtras
      invariant referencia.mes - mesesAtras >= 1 ==> ano == referencia.ano
      decreases -mes
    {
      mes := mes + 12;
      ano := ano - 1;
    }
    r := MonthYear(mes, ano);
  }

  /** The label `getMesAno` prints for `mesesAtras` months before the reference. */
  method HistoryLabel(referencia: MonthYear, mesesAtras: int) returns (l: Label)
    ensures referencia.mes <= 12 && mesesAtras >= 0 ==> l.nomeMes != ""
    ensures mesesAtras == 0 && ValidMonth(referencia) ==> l == ReferenceLabel(referencia)
  {
    var m := MonthsBack(referencia, mesesAtras);
    l := Label(MonthName(m.mes), m.ano);
  }

  /** `mesReferenciaLabel`: the reference month's own label. */
  function ReferenceLabel(referencia: MonthYear): Label {
    Label(MonthName(referencia.mes), referencia.ano)
  }

  /** `calcular_meses_ate_abertura` with the clock passed in: the calendar-month
      distance from today to the opening month, floored at zero. */
  function MonthsUntilOpening(abertura: MonthYear, hoje: MonthYear): (r: int)
    requires ValidMonth(abertura) && ValidMonth(hoje)
    ensures r >= 0
    ensures Index(abertura) >= Index(hoje) ==> Index(hoje) + r == Index(abertura)
    ensures r == 0 <==> Index(abertura) <= Index(hoje)
  {
    var diferenca := (abertura.ano - hoje.ano) * 12 + (abertura.mes - hoje.mes);
    if diferenca > 0 then diferenca else 0
  }
}

=== FILE: dashboard.dfy ===
/** The dashboard router's pure helpers: number formatting, status bands, trend type,
    payback, the plain-language diagnosis, the prioritised 30/60/90-day plan and the
    indicator blocks. */
module Dashboard {
  import opened Wrappers
  import opened Numeric
  import Indicadores

  // ---------- Formatting ----------

  /** Every occurrence of `a` in `s` replaced by `b` (`str.replace` on single characters). */
  function Replace(s: string, a: char, b: char): (r: string)
    ensures |r| == |s|
    ensures forall k :: 0 <= k < |s| ==> r[k] == (if s[k] == a then b else s[k])
  {
    if s == [] then [] else [if s[0] == a then b else s[0]] + Replace(s[1..], a, b)
  }

  /** The chain `.replace(",", "X").replace(".", ",").replace("X", ".")`. */
  function SwapSeparators(s: string): string {
    Replace(Replace(Replace(s, ',', 'X'), '.', ','), 'X', '.')
  }

  /** On text without an 'X' (any number Python formats) the chain swaps ',' and '.'
      and keeps every other character. */
  lemma SwapSeparatorsSwaps(s: string)
    requires 'X' !in s
    ensures |SwapSeparators(s)| == |s|
    ensures forall k :: 0 <= k < |s| ==>
      SwapSeparators(s)[k] == (if s[k] == ',' then '.' else if s[k] == '.' then ',' else s[k])
  {
    assert forall k :: 0 <= k < |s| ==> s[k] != 'X' by {
      forall k | 0 <= k < |s| ensures s[k] != 'X' { assert s[k] in s; }
    }
  }

  /** Applying the chain twice gives the text back. */
  lemma SwapSeparatorsInvolution(s: string)
    requires 'X' !in s
    ensures SwapSeparators(SwapSeparators(s)) == s
  {
    SwapSeparatorsSwaps(s);
    var t := SwapSeparators(s);
    assert 'X' !in t by {
      forall k | 0 <= k < |t| ensures t[k] != 'X' { assert s[k] in s; }
    }
    SwapSeparatorsSwaps(t);
  }

  /** `formatar_moeda` given Python's grouped two-decimal rendering of the value
      (`f"{valor:,.2f}"`), or None for a missing value. */
  function FormatarMoeda(grouped: Option<string>): (r: string)
    ensures grouped.None? ==> r == "R$ 0"
    ensures grouped.Some? ==> |r| == 3 + |grouped.value| && r[..3] == "R$ "
    ensures grouped.Some? && 'X' !in grouped.value ==> SwapSeparators(r[3..]) == grouped.value
  {
    match grouped
    case None => "R$ 0"
    case Some(g) =>
      var r := "R$ " + SwapSeparators(g);
      if 'X' !in g then
        assert r[3..] == SwapSeparators(g);
        SwapSeparatorsInvolution(g);
        r
      else r
  }

  /** `formatar_numero` with no decimals: the grouping commas become dots. */
  function FormatarNumero(grouped: Option<string>): (r: string)
    ensures grouped.None? ==> r == "0"
    ensures grouped.Some? ==> |r| == |grouped.value| && ',' !in r
  {
    match grouped
    case None => "0"
    case Some(g) =>
      var r := Replace(g, ',', '.');
      assert forall k :: 0 <= k < |r| ==> r[k] != ',';
      r
  }

  /** With no decimal point in the grouped text the plain replace agrees with the swap chain. */
  lemma NumeroAgreesWithMoeda(g: string)
    requires 'X' !in g && '.' !in g
    ensures FormatarNumero(Some(g)) == SwapSeparators(g)
  {
    SwapSeparatorsSwaps(g);
    assert forall k :: 0 <= k < |g| ==> g[k] != '.' by {
      forall k | 0 <= k < |g| ensures g[k] != '.' { assert g[k] in g; }
    }
  }

  // ---------- Status bands ----------

  datatype Status = Saudavel | Atencao | Critico

  /** 0 is best: a larger rank is a worse status. */
  function Severity(s: Status): int {
    match s
    case Saudavel => 0
    case Atencao => 1
    case Critico => 2
  }

  /** The kinds whose rule compares the value without a None check first. */
  const NumericKinds: set<string> := {"margem_bruta", "folego_caixa", "resultado_mes", "score"}

  /** `get_status`: the band of a value for an indicator kind; unknown kinds are healthy. */
  function GetStatus(valor: Option<real>, tipo: string): (s: Status)
    requires tipo in NumericKinds ==> valor.Some?
    ensures tipo == "margem_bruta" ==> (s == Saudavel <==> valor.value >= 40.0) && (s == Critico <==> valor.value < 20.0)
    ensures tipo == "folego_caixa" ==> (s == Saudavel <==> valor.value >= 60.0) && (s == Critico <==> valor.value < 30.0)
    ensures tipo == "score" ==> (s == Saudavel <==> valor.value >= 70.0) && (s == Critico <==> valor.value < 50.0)
    ensures tipo == "resultado_mes" ==> (s == Saudavel <==> valor.value > 0.0) && (s == Atencao <==> valor.value == 0.0)
    ensures tipo == "peso_divida" ==> (s == Saudavel <==> valor.None? || valor.value < 30.0) && (s == Critico <==> valor.Some? && valor.value >= 50.0)
    ensures tipo == "ciclo_financeiro" ==> (s == Saudavel <==> valor.None? || valor.value <= 45.0) && (s == Critico <==> valor.Some? && valor.value > 60.0)
    ensures tipo == "capital_minimo" ==> (s == Critico <==> valor.Some? && valor.value < 0.0) && s != Atencao
    ensures tipo == "ponto_equilibrio" ==> (s == Critico <==> valor.None?) && s != Atencao
    ensures tipo !in NumericKinds + {"peso_divida", "ciclo_financeiro", "capital_minimo", "ponto_equilibrio"} ==> s == Saudavel
  {
    if tipo == "margem_bruta" then
      if valor.value >= 40.0 then Saudavel else if valor.value >= 20.0 then Atencao else Critico
    else if tipo == "folego_caixa" then
      if valor.value >= 60.0 then Saudavel else if valor.value >= 30.0 then Atencao else Critico
    else if tipo == "peso_divida" then
      if valor.None? || valor.value == 0.0 then Saudavel
      else if valor.value < 30.0 then Saudavel else if valor.value < 50.0 then Atencao else Critico
    else if tipo == "ciclo_financeiro" then
      if valor.None? then Saudavel else if valor.value <= 0.0 then Saudavel
      else if valor.value <= 45.0 then Saudavel else if valor.value <= 60.0 then Atencao else Critico
    else if tipo == "resultado_mes" then
      if valor.value > 0.0 then Saudavel else if valor.value == 0.0 then Atencao else Critico
    else if tipo == "capital_minimo" then
      if valor.None? then Saudavel else if valor.value >= 0.0 then Saudavel else Critico
    else if tipo == "ponto_equilibrio" then
      if valor.None? then Critico else Saudavel
    else if tipo == "score" then
      if valor.value >= 70.0 then Saudavel else if valor.value >= 50.0 then Atencao else Critico
    else Saudavel
  }

  /** A higher margin, runway, result or score never gives a worse status; a higher debt
      weight or a longer cycle never gives a better one. */
  lemma GetStatusMonotone(tipo: string, a: real, b: real)
    requires a <= b
    ensures tipo in NumericKinds ==> Severity(GetStatus(Some(b), tipo)) <= Severity(GetStatus(Some(a), tipo))
    ensures tipo in {"peso_divida", "ciclo_financeiro"} ==> Severity(GetStatus(Some(a), tipo)) <= Severity(GetStatus(Some(b), tipo))
  {
  }

  /** The score bands are those of the health-score gauge: 70 and 50. */
  lemma ScoreStatusBands(score: real)
    ensures GetStatus(Some(score), "score") == (if score >= 70.0 then Saudavel else if score >= 50.0 then Atencao else Critico)
  {
  }

  datatype TrendKind = Subindo | Descendo | Estavel

  /** `get_tendencia_tipo`. */
  function GetTendenciaTipo(variacao: real): (t: TrendKind)
    ensures t == Subindo <==> variacao > 5.0
    ensures t == Descendo <==> variacao < -5.0
    ensures t == Estavel <==> -5.0 <= variacao <= 5.0
  {
    if variacao > 5.0 then Subindo else if variacao < -5.0 then Descendo else Estavel
  }

  /** The dashboard's trend type uses the same ±5% bands as the calculator's status. */
  lemma TrendKindMatchesCalculator(p: real)
    ensures GetTendenciaTipo(p) == Subindo <==> Indicadores.TrendStatusOf(p) == Indicadores.Crescendo
    ensures GetTendenciaTipo(p) == Descendo <==> Indicadores.TrendStatusOf(p) == Indicadores.Caindo
  {
  }

  // ---------- Payback ----------

  datatype PaybackStatus = PaybackCritico | PaybackIndisponivel | PaybackSaudavel | PaybackAtencao

  datatype PaybackView = PaybackView(anos: Option<int>, meses: Option<int>, percentualMeta: real, status: PaybackStatus)

  /** `gerar_payback`: no profit first, then a missing valuation, then years and months
      of the mean valuation over the annual profit. */
  function GerarPayback(valorMin: Option<real>, valorMax: Option<real>, lucroAnual: real): (p: PaybackView)
    ensures lucroAnual <= 0.0 ==> p == PaybackView(None, None, 0.0, PaybackCritico)
    ensures lucroAnual > 0.0 && (valorMin.None? || valorMax.None? || valorMin.value <= 0.0 || valorMax.value <= 0.0)
            ==> p == PaybackView(None, None, 0.0, PaybackIndisponivel)
    ensures p.anos.Some? <==> p.status in {PaybackSaudavel, PaybackAtencao}
    ensures p.anos.Some? ==> p.anos.value >= 0 && p.meses.Some? && 0 <= p.meses.value <= 11
    ensures 0.0 <= p.percentualMeta <= 100.0
  {
    if lucroAnual <= 0.0 then PaybackView(None, None, 0.0, PaybackCritico)
    else if valorMin.None? || valorMax.None? || valorMin.value <= 0.0 || valorMax.value <= 0.0 then
      PaybackView(None, None, 0.0, PaybackIndisponivel)
    else
      var retorno := (valorMin.value + valorMax.value) / 2.0 / lucroAnual;
      TruncBounds(retorno);
      var anos := Trunc(retorno);
      TruncBounds((retorno - anos as real) * 12.0);
      var meses := Trunc((retorno - anos as real) * 12.0);
      var pct := Min(5.0 / retorno * 100.0, 100.0);
      PaybackView(Some(anos), Some(meses), pct, if retorno <= 3.5 then PaybackSaudavel else PaybackAtencao)
  }

  /** The dashboard's payback agrees with the calculator's on years, months and goal. */
  lemma PaybackAgreesWithCalculator(valorMin: real, valorMax: real, lucroAnual: real)
    requires lucroAnual > 0.0 && valorMin > 0.0 && valorMax > 0.0
    ensures GerarPayback(Some(valorMin), Some(valorMax), lucroAnual).anos == Some(Indicadores.PaybackOf(lucroAnual, valorMin, valorMax).anos)
    ensures GerarPayback(Some(valorMin), Some(valorMax), lucroAnual).meses == Some(Indicadores.PaybackOf(lucroAnual, valorMin, valorMax).meses)
    ensures GerarPayback(Some(valorMin), Some(valorMax), lucroAnual).percentualMeta == Indicadores.PaybackOf(lucroAnual, valorMin, valorMax).percentualMeta
  {
  }

  // ---------- Stored analysis ----------

  /** The stored columns the dashboard reads; every one may be NULL. */
  datatype Stored = Stored(
    setor: Option<string>,
    receitaAtual: Option<real>,
    custoVendas: Option<real>,
    despesasFixas: Option<real>,
    caixaBancos: Option<real>,
    contasReceber: Option<real>,
    contasPagar: Option<real>,
    dividasTotais: Option<real>,
    numFuncionarios: Option<int>,
    margemBruta: Option<real>,
    resultadoMes: Option<real>,
    folegoCaixa: Option<int>,
    pontoEquilibrio: Option<real>,
    cicloFinanceiro: Option<int>,
    capitalMinimo: Option<real>,
    receitaFuncionario: Option<real>,
    pesoDivida: Option<real>,
    tendenciaReceita: Option<real>,
    scoreSaude: Option<real>)

  /** `float(x) if x else 0` and `x if x is not None else 0`: both read NULL as 0. */
  function Or0(x: Option<real>): real {
    x.GetOr(0.0)
  }

  function Or0Int(x: Option<int>): int {
    x.GetOr(0)
  }

  // ---------- Diagnosis (dashboard version) ----------

  datatype Strength =
    | MargemExcelente | MargemAdequada
    | RentabilidadeMuitoBoa | ResultadoPositivo
    | ReservaConfortavel | ReservaAdequada
    | SemDividas | EndividamentoControlado
    | BoaProdutividade
    | ReceitaCrescendo

  datatype Concern =
    | MargemApertada | MargemMuitoBaixa | MargemNegativa
    | SobraMuitoBaixa | ResultadoZerado | OperandoNoPrejuizo
    | VulneravelAQueda | DependenciaDoFaturamento
    | ReservaLimitada | ReservaCritica
    | EndividamentoElevado
    | PertoDoLimite | PontoEquilibrioAlto
    | ProdutividadeBaixa
    | ReceitaEmQueda

  /** One rule's verdict: a strength, a concern, or nothing. */
  datatype Verdict = Forte(s: Strength) | Atento(c: Concern) | Nada

  function Strengths(vs: seq<Verdict>): (r: seq<Strength>)
    ensures |r| <= |vs|
    ensures forall s :: s in r <==> Forte(s) in vs
  {
    if vs == [] then []
    else (if vs[0].Forte? then [vs[0].s] else []) + Strengths(vs[1..])
  }

  function Concerns(vs: seq<Verdict>): (r: seq<Concern>)
    ensures |r| <= |vs|
    ensures forall c :: c in r <==> Atento(c) in vs
  {
    if vs == [] then []
    else (if vs[0].Atento? then [vs[0].c] else []) + Concerns(vs[1..])
  }

  function MarginVerdict(margem: real): (v: Verdict)
    ensures v != Nada
    ensures v.Forte? <==> margem >= 25.0
  {
    if margem >= 40.0 then Forte(MargemExcelente) else if margem >= 25.0 then Forte(MargemAdequada)
    else if margem >= 15.0 then Atento(MargemApertada) else if margem >= 0.0 then Atento(MargemMuitoBaixa)
    else Atento(MargemNegativa)
  }

  function ResultVerdict(resultado: real, receita: real): (v: Verdict)
    ensures resultado < 0.0 <==> v == Atento(OperandoNoPrejuizo)
    ensures resultado == 0.0 <==> v == Atento(ResultadoZerado)
  {
    if resultado > 0.0 && receita > 0.0 then
      var pct := resultado / receita * 100.0;
      if pct >= 15.0 then Forte(RentabilidadeMuitoBoa) else if pct >= 5.0 then Forte(ResultadoPositivo)
      else Atento(SobraMuitoBaixa)
    else if resultado == 0.0 then Atento(ResultadoZerado)
    else if resultado < 0.0 then Atento(OperandoNoPrejuizo)
    else Nada
  }

  /** The simulator link: does a 30% revenue drop turn the surplus into a loss, or erode
      at least 60% of it (Python's `round` of the erosion reaching 60)? */
  function VulnerabilityVerdict(receita: real, custoTotal: real): (v: Verdict)
    ensures v == Atento(VulneravelAQueda) <==> receita > custoTotal && receita > 0.0 && receita * 0.7 < custoTotal
    ensures v.Forte? == false
  {
    var sobra := receita - custoTotal;
    var sobraEst := receita * 0.7 - custoTotal;
    if receita > 0.0 && sobra > 0.0 then
      if sobraEst < 0.0 then Atento(VulneravelAQueda)
      else if sobraEst > 0.0 && RoundHalfEven((1.0 - sobraEst / sobra) * 100.0) >= 60 then Atento(DependenciaDoFaturamento)
      else Nada
    else Nada
  }

  /** The dependency concern appears exactly when the surplus survives the drop but the
      erosion, before Python's rounding, reaches 59.5%. */
  lemma DependencyThreshold(receita: real, custoTotal: real)
    requires receita > custoTotal && receita * 0.7 > custoTotal
    ensures VulnerabilityVerdict(receita, custoTotal) == Atento(DependenciaDoFaturamento)
            <==> (1.0 - (receita * 0.7 - custoTotal) / (receita - custoTotal)) * 100.0 >= 59.5
  {
    var erosao := (1.0 - (receita * 0.7 - custoTotal) / (receita - custoTotal)) * 100.0;
    RoundHalfEvenThreshold(erosao, 60);
    assert RoundHalfEven(erosao) >= 60 <==> erosao >= 59.5;
    if receita <= 0.0 {
      RatioAtLeastOne(receita * 0.7 - custoTotal, receita - custoTotal);
    }
  }

  function CashVerdict(folego: int): (v: Verdict)
    ensures v.Forte? <==> folego >= 60
    ensures v == Nada <==> folego <= 0
  {
    if folego >= 120 then Forte(ReservaConfortavel) else if folego >= 60 then Forte(ReservaAdequada)
    else if folego >= 30 then Atento(ReservaLimitada) else if folego > 0 then Atento(ReservaCritica) else Nada
  }

  function DebtVerdict(peso: real): (v: Verdict)
    ensures v.Forte? <==> peso < 15.0
    ensures v.Atento? <==> peso >= 30.0
  {
    if peso == 0.0 then Forte(SemDividas) else if peso < 15.0 then Forte(EndividamentoControlado)
    else if peso >= 30.0 then Atento(EndividamentoElevado) else Nada
  }

  function BreakEvenVerdict(pe: real, receita: real): (v: Verdict)
    ensures !v.Forte?
  {
    if pe > 0.0 && receita > 0.0 then
      var pct := pe / receita * 100.0;
      if pct >= 90.0 then Atento(PertoDoLimite) else if pct >= 70.0 then Atento(PontoEquilibrioAlto) else Nada
    else Nada
  }

  function ProductivityVerdict(funcionarios: int, recFunc: real): Verdict {
    if funcionarios > 0 && recFunc > 0.0 then
      if recFunc >= 10000.0 then Forte(BoaProdutividade) else if recFunc < 5000.0 then Atento(ProdutividadeBaixa) else Nada
    else Nada
  }

  function TrendVerdict(tendencia: Option<real>): Verdict {
    if tendencia.None? then Nada
    else if tendencia.value >= 10.0 then Forte(ReceitaCrescendo)
    else if tendencia.value <= -10.0 then Atento(ReceitaEmQueda) else Nada
  }

  /** The eight verdicts in the order the rules run. */
  function Verdicts(a: Stored): seq<Verdict> {
    var receita := Or0(a.receitaAtual);
    var custoTotal := Or0(a.custoVendas) + Or0(a.despesasFixas);
    [MarginVerdict(Or0(a.margemBruta)),
     ResultVerdict(Or0(a.resultadoMes), receita),
     VulnerabilityVerdict(receita, custoTotal),
     CashVerdict(Or0Int(a.folegoCaixa)),
     DebtVerdict(Or0(a.pesoDivida)),
     BreakEvenVerdict(Or0(a.pontoEquilibrio), receita),
     ProductivityVerdict(Or0Int(a.numFuncionarios), Or0(a.receitaFuncionario)),
     TrendVerdict(a.tendenciaReceita)]
  }

  datatype DiagnosisView = DiagnosisView(pontosFortes: seq<Strength>, pontosAtencao: seq<Concern>)

  function Take4<T>(s: seq<T>): (r: seq<T>)
    ensures |r| <= 4 && |r| <= |s| && r == s[..|r|]
    ensures |s| <= 4 ==> r == s
  {
    if |s| > 4 then s[..4] else s
  }

  /** The first verdict, when it is a strength, is the first strength; likewise for concerns. */
  lemma FirstVerdictLeads(vs: seq<Verdict>)
    requires |vs| > 0
    ensures vs[0].Forte? ==> |Strengths(vs)| > 0 && Strengths(vs)[0] == vs[0].s
    ensures vs[0].Atento? ==> |Concerns(vs)| > 0 && Concerns(vs)[0] == vs[0].c
  {
  }

  /** `gerar_diagnostico` of the dashboard: at most four strengths and four concerns, the
      margin verdict always heading one of the two lists. */
  function GerarDiagnostico(a: Stored): (d: DiagnosisView)
    ensures |d.pontosFortes| <= 4 && |d.pontosAtencao| <= 4
    ensures Or0(a.margemBruta) >= 25.0 ==> |d.pontosFortes| > 0 && d.pontosFortes[0] == MarginVerdict(Or0(a.margemBruta)).s
    ensures Or0(a.margemBruta) < 25.0 ==> |d.pontosAtencao| > 0 && d.pontosAtencao[0] == MarginVerdict(Or0(a.margemBruta)).c
  {
    var vs := Verdicts(a);
    FirstVerdictLeads(vs);
    DiagnosisView(Take4(Strengths(vs)), Take4(Concerns(vs)))
  }

  lemma {:induction false} ConcernsAppend(a: seq<Verdict>, b: seq<Verdict>)
    ensures Concerns(a + b) == Concerns(a) + Concerns(b)
  {
    if a == [] {
      assert a + b == b;
    } else {
      assert (a + b)[0] == a[0];
      assert (a + b)[1..] == a[1..] + b;
      ConcernsAppend(a[1..], b);
    }
  }

  /** A concern in second place survives the cut to four. */
  lemma SecondConcernShown(vs: seq<Verdict>)
    requires |vs| >= 2 && vs[1].Atento?
    ensures vs[1].c in Take4(Concerns(vs))
  {
    ConcernsAppend(vs[..2], vs[2..]);
    assert vs == vs[..2] + vs[2..];
    var head := Concerns(vs[..2]);
    assert Atento(vs[1].c) in vs[..2] by { assert vs[..2][1] == vs[1]; }
    assert |head| <= 2 && vs[1].c in head;
    var k :| 0 <= k < |head| && head[k] == vs[1].c;
    assert Concerns(vs)[k] == vs[1].c;
    assert Take4(Concerns(vs))[k] == vs[1].c;
  }

  /** A loss is always among the concerns shown: at most the margin verdict precedes it. */
  lemma LossIsShown(a: Stored)
    requires Or0(a.resultadoMes) < 0.0
    ensures OperandoNoPrejuizo in GerarDiagnostico(a).pontosAtencao
  {
    var vs := Verdicts(a);
    assert vs[1] == Atento(OperandoNoPrejuizo);
    SecondConcernShown(vs);
  }

  // ---------- Prioritised action plan ----------

  datatype PlanAction =
    // 30 days
    | EliminarPrejuizo | AumentarFolego | DeficitCapitalGiro | PrecificacaoUrgente | RenegociarDividas
    | MelhorarMargem | ReforcarCaixa | InvestigarQueda | ReduzirDespesas | AcelerarRecebimento | ControleSemanal
    // 60 days
    | TestarReajuste | AmpliarFolego | ReduzirCiclo | ReduzirEndividamento | AumentarResultado
    | AumentarProdutividade | ReservaEmergencia | AutomatizarCobranca
    // 90 days
    | InvestirCrescimento | ElevarScore | SairZonaCritica | Reinvestir | DiversificarReceita
    | AcompanharIndicadores | RevisarPrecificacao | DefinirMetas

  /** An action with its numeric priority score. */
  datatype Planned = Planned(prioridade: int, acao: PlanAction)

  predicate SortedDesc(s: seq<Planned>) {
    forall i, j :: 0 <= i < j < |s| ==> s[i].prioridade >= s[j].prioridade
  }

  /** Inserts an action that came earlier than all of `s`: before the first action of no
      higher priority, so ties keep their original order. */
  function Insert(x: Planned, s: seq<Planned>): (r: seq<Planned>)
    requires SortedDesc(s)
    ensures SortedDesc(r)
    ensures multiset(r) == multiset(s) + multiset{x}
    ensures |r| == |s| + 1
  {
    if s == [] || x.prioridade >= s[0].prioridade then [x] + s
    else
      var t := Insert(x, s[1..]);
      InsertBelowHead(x, s, t);
      [s[0]] + t
  }

  /** Putting the head of `s` back in front of the insertion into its tail keeps the order
      and the contents. */
  lemma InsertBelowHead(x: Planned, s: seq<Planned>, t: seq<Planned>)
    requires SortedDesc(s) && s != [] && x.prioridade < s[0].prioridade
    requires SortedDesc(t) && multiset(t) == multiset(s[1..]) + multiset{x}
    ensures SortedDesc([s[0]] + t)
    ensures multiset([s[0]] + t) == multiset(s) + multiset{x}
  {
    assert s == [s[0]] + s[1..];
    forall k | 0 <= k < |t| ensures t[k].prioridade <= s[0].prioridade {
      assert t[k] in multiset(t);
      if t[k] != x {
        assert t[k] in multiset(s[1..]);
        var j :| 0 <= j < |s[1..]| && s[1..][j] == t[k];
        assert s[j + 1] == t[k];
      }
    }
    assert multiset([s[0]] + t) == multiset{s[0]} + multiset(t);
  }

  /** `list.sort(key=priority, reverse=True)`: a stable sort, highest priority first. */
  function SortDesc(s: seq<Planned>): (r: seq<Planned>)
    ensures SortedDesc(r)
    ensures multiset(r) == multiset(s)
    ensures |r| == |s|
  {
    if s == [] then []
    else
      assert s == [s[0]] + s[1..];
      Insert(s[0], SortDesc(s[1..]))
  }

  /** The top four of a candidate list. */
  function Top4(cands: seq<Planned>): (r: seq<Planned>)
    ensures |r| == if |cands| < 4 then |cands| else 4
    ensures SortedDesc(r)
    ensures multiset(r) <= multiset(cands)
  {
    var sorted := SortDesc(cands);
    var r := Take4(sorted);
    assert sorted == r + sorted[|r|..];
    assert multiset(sorted) == multiset(r) + multiset(sorted[|r|..]);
    r
  }

  /** No action left out outranks an action kept. */
  lemma {:induction false} Top4KeepsHighest(cands: seq<Planned>, x: Planned)
    requires x in cands && x !in Top4(cands)
    ensures forall y :: y in Top4(cands) ==> y.prioridade >= x.prioridade
  {
    var sorted := SortDesc(cands);
    assert x in multiset(sorted);
    var k :| 0 <= k < |sorted| && sorted[k] == x;
    var r := Top4(cands);
    assert r == sorted[..|r|];
    assert k >= |r|;
  }

  /** The actions whose condition holds, in the order the source tests them: `conds[k]`
      decides whether `items[k]` is appended. */
  function Selected(conds: seq<bool>, items: seq<Planned>): (r: seq<Planned>)
    requires |conds| == |items|
    ensures |r| <= |items|
    ensures forall k :: 0 <= k < |items| && conds[k] ==> items[k] in r
    ensures forall y :: y in r ==> y in items
  {
    if items == [] then []
    else
      var tail := Selected(conds[1..], items[1..]);
      assert forall k :: 1 <= k < |items| ==> items[k] == items[1..][k - 1] && conds[k] == conds[1..][k - 1];
      (if conds[0] then [items[0]] else []) + tail
  }

  /** An action listed once is selected exactly when its condition holds. */
  lemma {:induction false} SelectedOnce(conds: seq<bool>, items: seq<Planned>, k: nat)
    requires |conds| == |items| && k < |items|
    requires forall j :: 0 <= j < |items| && j != k ==> items[j] != items[k]
    ensures items[k] in Selected(conds, items) <==> conds[k]
  {
    if k > 0 {
      assert forall j :: 0 <= j < |items| - 1 && j != k - 1 ==> items[1..][j] == items[j + 1];
      SelectedOnce(conds[1..], items[1..], k - 1);
      assert items[0] != items[k];
    } else {
      assert forall j :: 0 <= j < |items| - 1 ==> items[1..][j] != items[0];
    }
  }

  /** When one action's kind appears nowhere else and every other action has priority at
      most `bound`, the same holds of any selection. */
  lemma OnlyOneAbove(conds: seq<bool>, items: seq<Planned>, m: nat, bound: int)
    requires |conds| == |items| && m < |items|
    requires forall j :: 0 <= j < |items| && j != m ==> items[j].acao != items[m].acao && items[j].prioridade <= bound
    ensures forall y :: y in Selected(conds, items) && y.acao == items[m].acao ==> y == items[m]
    ensures forall y :: y in Selected(conds, items) && y.acao != items[m].acao ==> y.prioridade <= bound
  {
    forall y | y in Selected(conds, items)
      ensures y.acao == items[m].acao ==> y == items[m]
      ensures y.acao != items[m].acao ==> y.prioridade <= bound
    {
      var j :| 0 <= j < |items| && items[j] == y;
    }
  }

  /** One condition that holds before position `n`, and all from `n` on, select at least
      one action more than the tail. */
  lemma {:induction false} AtLeastOneMore(conds: seq<bool>, items: seq<Planned>, m: nat, n: nat)
    requires |conds| == |items| && m < n <= |items| && conds[m]
    requires forall k :: n <= k < |items| ==> conds[k]
    ensures |Selected(conds, items)| >= |items| - n + 1
  {
    if m == 0 {
      AtLeastFallbacks(conds[1..], items[1..], n - 1);
    } else {
      AtLeastOneMore(conds[1..], items[1..], m - 1, n - 1);
    }
  }

  /** Conditions that always hold from position `n` on select at least that many actions. */
  lemma {:induction false} AtLeastFallbacks(conds: seq<bool>, items: seq<Planned>, n: nat)
    requires |conds| == |items| && n <= |items| && forall k :: n <= k < |items| ==> conds[k]
    ensures |Selected(conds, items)| >= |items| - n
  {
    if items != [] {
      AtLeastFallbacks(conds[1..], items[1..], if n == 0 then 0 else n - 1);
    }
  }

  /** `BENCHMARK_MARGEM_SETOR.get(setor, 40)`. */
  const MarginBenchmarks: map<string, real> := map[
    "comercio_varejo" := 30.0, "comercio_atacado" := 20.0, "servicos" := 50.0, "industria" := 35.0,
    "tecnologia" := 60.0, "alimentacao" := 35.0, "saude" := 50.0, "educacao" := 50.0,
    "construcao" := 30.0, "agronegocio" := 30.0, "transporte" := 25.0, "hotelaria_turismo" := 40.0,
    "imobiliario" := 35.0, "financeiro" := 50.0, "comunicacao" := 45.0, "energia" := 40.0,
    "textil" := 35.0, "metalurgico" := 30.0, "moveis" := 35.0, "grafico" := 35.0, "reciclagem" := 35.0]

  /** `BENCHMARK_RECEITA_FUNC_SETOR.get(setor, 8000)`. */
  const ProductivityBenchmarks: map<string, real> := map[
    "comercio_varejo" := 8000.0, "comercio_atacado" := 15000.0, "servicos" := 6000.0, "industria" := 10000.0,
    "tecnologia" := 12000.0, "alimentacao" := 5000.0, "saude" := 8000.0, "educacao" := 5000.0,
    "construcao" := 10000.0, "agronegocio" := 12000.0, "transporte" := 10000.0, "hotelaria_turismo" := 6000.0,
    "imobiliario" := 10000.0, "financeiro" := 15000.0, "comunicacao" := 8000.0, "energia" := 15000.0,
    "textil" := 7000.0, "metalurgico" := 10000.0, "moveis" := 7000.0, "grafico" := 7000.0, "reciclagem" := 8000.0]

  function MarginBenchmark(setor: string): real {
    if setor in MarginBenchmarks then MarginBenchmarks[setor] else 40.0
  }

  function ProductivityBenchmark(setor: string): real {
    if setor in ProductivityBenchmarks then ProductivityBenchmarks[setor] else 8000.0
  }

  /** The 30-day actions, in the order the source tests them. */
  const Items30: seq<Planned> := [
    Planned(100, EliminarPrejuizo), Planned(95, AumentarFolego), Planned(90, DeficitCapitalGiro),
    Planned(88, PrecificacaoUrgente), Planned(85, RenegociarDividas), Planned(70, MelhorarMargem),
    Planned(65, ReforcarCaixa), Planned(60, InvestigarQueda), Planned(20, ReduzirDespesas),
    Planned(15, AcelerarRecebimento), Planned(10, ControleSemanal)]

  /** Their conditions; the weekly control is unconditional. */
  function Conds30(a: Stored): seq<bool> {
    var receita := Or0(a.receitaAtual);
    var margem := Or0(a.margemBruta);
    var capital := Or0(a.capitalMinimo);
    var peso := Or0(a.pesoDivida);
    var bm := MarginBenchmark(a.setor.GetOr(""));
    [Or0(a.resultadoMes) < 0.0, Or0Int(a.folegoCaixa) < 30, capital < 0.0, margem < bm * 0.5,
     peso > 50.0, bm * 0.5 <= margem < bm, capital > 0.0 && Or0(a.caixaBancos) < capital,
     Or0(a.tendenciaReceita) < -5.0, receita > 0.0, Or0(a.contasReceber) > 0.0, true]
  }

  /** The loss action is the only 30-day action above the runway action's 95. */
  lemma Items30Priorities()
    ensures Items30[0] == Planned(100, EliminarPrejuizo)
    ensures forall j :: 0 < j < |Items30| ==> Items30[j].acao != EliminarPrejuizo && Items30[j].prioridade <= 95
  {
  }

  /** The 30-day candidates: the weekly control always, the loss action exactly on a loss,
      and nothing else above the runway action's 95. */
  function Candidates30(a: Stored): (c: seq<Planned>)
    ensures |c| >= 1 && Planned(10, ControleSemanal) in c
    ensures Or0(a.resultadoMes) < 0.0 <==> Planned(100, EliminarPrejuizo) in c
    ensures forall y :: y in c && y.acao == EliminarPrejuizo ==> y == Planned(100, EliminarPrejuizo)
    ensures forall y :: y in c && y.acao != EliminarPrejuizo ==> y.prioridade <= 95
  {
    var conds := Conds30(a);
    Items30Priorities();
    SelectedOnce(conds, Items30, 0);
    assert conds[10] && Items30[10] == Planned(10, ControleSemanal);
    OnlyOneAbove(conds, Items30, 0, 95);
    Selected(conds, Items30)
  }

  /** `num_funcionarios or 1`. */
  function Headcount(a: Stored): int {
    if a.numFuncionarios.None? || a.numFuncionarios.value == 0 then 1 else a.numFuncionarios.value
  }

  const Items60: seq<Planned> := [
    Planned(70, TestarReajuste), Planned(65, AmpliarFolego), Planned(60, ReduzirCiclo),
    Planned(55, ReduzirEndividamento), Planned(50, AumentarResultado), Planned(45, AumentarProdutividade),
    Planned(15, ReservaEmergencia), Planned(10, AutomatizarCobranca)]

  /** The 60-day conditions; the emergency reserve is unconditional. */
  function Conds60(a: Stored): seq<bool> {
    var receita := Or0(a.receitaAtual);
    var resultado := Or0(a.resultadoMes);
    var folego := Or0Int(a.folegoCaixa);
    var peso := Or0(a.pesoDivida);
    var setor := a.setor.GetOr("");
    var funcionarios := Headcount(a);
    var receitaFunc := if funcionarios > 0 then receita / funcionarios as real else 0.0;
    [Or0(a.margemBruta) < MarginBenchmark(setor), 30 <= folego < 60,
     a.cicloFinanceiro.Some? && a.cicloFinanceiro.value > 45, 30.0 <= peso <= 50.0,
     resultado > 0.0 && receita > 0.0 && resultado / receita * 100.0 < 10.0,
     receitaFunc < ProductivityBenchmark(setor) && funcionarios > 1, true, Or0(a.contasReceber) > 0.0]
  }

  /** The 60-day candidates; the emergency reserve is always among them. */
  function Candidates60(a: Stored): (c: seq<Planned>)
    ensures |c| >= 1 && Planned(15, ReservaEmergencia) in c
  {
    var conds := Conds60(a);
    assert conds[6] && Items60[6] == Planned(15, ReservaEmergencia);
    Selected(conds, Items60)
  }

  /** The one score-driven 90-day action: grow, consolidate or get out of the critical zone. */
  function ScoreAction(score: real): (p: Planned)
    ensures score >= 70.0 <==> p == Planned(70, InvestirCrescimento)
    ensures 50.0 <= score < 70.0 <==> p == Planned(70, ElevarScore)
    ensures score < 50.0 <==> p == Planned(80, SairZonaCritica)
  {
    if score >= 70.0 then Planned(70, InvestirCrescimento)
    else if score >= 50.0 then Planned(70, ElevarScore) else Planned(80, SairZonaCritica)
  }

  /** The 90-day actions: the three score bands, two conditional actions and three fallbacks. */
  const Items90: seq<Planned> := [
    Planned(70, InvestirCrescimento), Planned(70, ElevarScore), Planned(80, SairZonaCritica),
    Planned(50, Reinvestir), Planned(65, DiversificarReceita),
    Planned(15, AcompanharIndicadores), Planned(10, RevisarPrecificacao), Planned(5, DefinirMetas)]

  function Conds90(a: Stored): seq<bool> {
    var score := Or0(a.scoreSaude);
    var margem := Or0(a.margemBruta);
    var resultado := Or0(a.resultadoMes);
    [score >= 70.0, 50.0 <= score < 70.0, score < 50.0,
     margem >= MarginBenchmark(a.setor.GetOr("")) && resultado > 0.0, Or0(a.tendenciaReceita) < -5.0,
     true, true, true]
  }

  /** Only the critical-zone action rises above 70 among the 90-day actions. */
  lemma Items90Priorities()
    ensures forall j :: 0 <= j < |Items90| && j != 2 ==> Items90[j].acao != SairZonaCritica && Items90[j].prioridade <= 70
    ensures Items90[2] == Planned(80, SairZonaCritica)
  {
  }

  /** The 90-day candidates: at least four, the score band's action among them, and the
      critical-zone action the only one above 70. */
  function Candidates90(a: Stored): (c: seq<Planned>)
    ensures |c| >= 4
    ensures ScoreAction(Or0(a.scoreSaude)) in c
    ensures forall y :: y in c && y.acao == SairZonaCritica ==> y == Planned(80, SairZonaCritica)
    ensures forall y :: y in c && y.acao != SairZonaCritica ==> y.prioridade <= 70
  {
    var conds := Conds90(a);
    var score := Or0(a.scoreSaude);
    var k := if score >= 70.0 then 0 else if score >= 50.0 then 1 else 2;
    assert conds[k] && Items90[k] == ScoreAction(score);
    AtLeastOneMore(conds, Items90, k, 5);
    Items90Priorities();
    OnlyOneAbove(conds, Items90, 2, 70);
    Selected(conds, Items90)
  }

  datatype Plan = Plan(plano30: seq<Planned>, plano60: seq<Planned>, plano90: seq<Planned>)

  /** Each period's candidates sorted by priority, top four kept. */
  function PlanOf(c30: seq<Planned>, c60: seq<Planned>, c90: seq<Planned>): (p: Plan)
    requires |c30| >= 1 && |c60| >= 1 && |c90| >= 4
    ensures 1 <= |p.plano30| <= 4 && 1 <= |p.plano60| <= 4 && |p.plano90| == 4
    ensures SortedDesc(p.plano30) && SortedDesc(p.plano60) && SortedDesc(p.plano90)
    ensures multiset(p.plano30) <= multiset(c30)
    ensures multiset(p.plano60) <= multiset(c60)
    ensures multiset(p.plano90) <= multiset(c90)
  {
    Plan(Top4(c30), Top4(c60), Top4(c90))
  }

  /** `gerar_plano_acao`: each period's candidates sorted by priority, top four kept. */
  function GerarPlanoAcao(a: Stored): Plan {
    PlanOf(Candidates30(a), Candidates60(a), Candidates90(a))
  }

  /** An action that outranks every other candidate heads the plan. */
  lemma {:induction false} UniqueMaximumLeads(c: seq<Planned>, x: Planned)
    requires x in c
    requires forall y :: y in c && y != x ==> y.prioridade < x.prioridade
    ensures |Top4(c)| > 0 && Top4(c)[0] == x
  {
    var sorted := SortDesc(c);
    assert x in multiset(sorted);
    var k :| 0 <= k < |sorted| && sorted[k] == x;
    assert sorted[0] in multiset(c);
    assert Top4(c)[0] == sorted[0];
  }

  /** A monthly loss puts its action first in the 30-day plan. */
  lemma LossLeadsThirtyDays(a: Stored)
    requires Or0(a.resultadoMes) < 0.0
    ensures GerarPlanoAcao(a).plano30[0] == Planned(100, EliminarPrejuizo)
  {
    var c := Candidates30(a);
    assert GerarPlanoAcao(a).plano30 == Top4(c);
    UniqueMaximumLeads(c, Planned(100, EliminarPrejuizo));
  }

  /** A score under 50 puts leaving the critical zone first in the 90-day plan. */
  lemma CriticalScoreLeadsNinetyDays(a: Stored)
    requires Or0(a.scoreSaude) < 50.0
    ensures GerarPlanoAcao(a).plano90[0] == Planned(80, SairZonaCritica)
  {
    var c := Candidates90(a);
    assert GerarPlanoAcao(a).plano90 == Top4(c);
    UniqueMaximumLeads(c, Planned(80, SairZonaCritica));
  }

  // ---------- Indicator blocks ----------

  /** An indicator's shown value: a number, or "N/A". */
  datatype Shown = Number(v: real) | NotApplicable

  datatype IndicatorCard = IndicatorCard(id: string, valor: Shown, status: Status)

  datatype IndicatorBlock = IndicatorBlock(id: string, indicadores: seq<IndicatorCard>)

  function CapitalStatus(capital: real, caixa: real): (s: Status)
    ensures s == Critico <==> capital < 0.0
    ensures s == Saudavel <==> capital >= 0.0 && caixa >= capital
  {
    if capital < 0.0 then Critico else if caixa >= capital then Saudavel else Atencao
  }

  function CycleCard(ciclo: Option<int>): (c: IndicatorCard)
    ensures ciclo.None? ==> c.valor == NotApplicable && c.status == Saudavel
    ensures ciclo.Some? && ciclo.value <= 0 ==> c.valor == Number(Abs(ciclo.value as real)) && c.status == Saudavel
    ensures ciclo.Some? && ciclo.value > 0 ==>
              (c.valor == Number(ciclo.value as real) && c.status == GetStatus(Some(ciclo.value as real), "ciclo_financeiro"))
  {
    if ciclo.None? then IndicatorCard("ciclo_financeiro", NotApplicable, Saudavel)
    else if ciclo.value < 0 then IndicatorCard("ciclo_financeiro", Number(-ciclo.value as real), Saudavel)
    else if ciclo.value == 0 then IndicatorCard("ciclo_financeiro", Number(0.0), Saudavel)
    else IndicatorCard("ciclo_financeiro", Number(ciclo.value as real), GetStatus(Some(ciclo.value as real), "ciclo_financeiro"))
  }

  function BreakEvenCard(pe: Option<real>, receita: real): (c: IndicatorCard)
    ensures pe.None? ==> c.valor == NotApplicable && c.status == Critico
    ensures pe.Some? && receita > 0.0 ==> (c.status == Saudavel <==> pe.value < receita)
    ensures pe.Some? && receita > 0.0 ==> (c.status == Critico <==> pe.value >= receita)
    ensures pe.Some? && receita <= 0.0 ==> c.status == Atencao
  {
    if pe.None? then IndicatorCard("ponto_equilibrio", NotApplicable, Critico)
    else if receita > 0.0 && pe.value < receita then IndicatorCard("ponto_equilibrio", Number(pe.value), Saudavel)
    else if receita > 0.0 then IndicatorCard("ponto_equilibrio", Number(pe.value), Critico)
    else IndicatorCard("ponto_equilibrio", Number(pe.value), Atencao)
  }

  /** `gerar_blocos_indicadores`: efficiency, cash and structure blocks of 3, 3 and 2. */
  function GerarBlocos(a: Stored): (bs: seq<IndicatorBlock>)
    ensures |bs| == 3
    ensures |bs[0].indicadores| == 3 && |bs[1].indicadores| == 3 && |bs[2].indicadores| == 2
    ensures bs[0].id == "eficiencia" && bs[1].id == "caixa" && bs[2].id == "estrutura"
    ensures bs[0].indicadores[0].valor == Number(Or0(a.margemBruta))
            && bs[0].indicadores[0].status == GetStatus(Some(Or0(a.margemBruta)), "margem_bruta")
    ensures bs[0].indicadores[1].valor == Number(Or0(a.resultadoMes))
            && bs[0].indicadores[1].status == GetStatus(Some(Or0(a.resultadoMes)), "resultado_mes")
    ensures bs[0].indicadores[2] == BreakEvenCard(a.pontoEquilibrio, Or0(a.receitaAtual))
    ensures bs[1].indicadores[0].valor == Number(Or0Int(a.folegoCaixa) as real)
            && bs[1].indicadores[0].status == GetStatus(Some(Or0Int(a.folegoCaixa) as real), "folego_caixa")
    ensures bs[1].indicadores[1].status == CapitalStatus(Or0(a.capitalMinimo), Or0(a.caixaBancos))
    ensures Or0(a.capitalMinimo) < 0.0 <==> bs[1].indicadores[1].status == Critico
    ensures bs[1].indicadores[2] == CycleCard(a.cicloFinanceiro)
    ensures bs[2].indicadores[0].status == Saudavel
    ensures bs[2].indicadores[1].valor == Number(Or0(a.pesoDivida))
            && bs[2].indicadores[1].status == GetStatus(Some(Or0(a.pesoDivida)), "peso_divida")
  {
    var margem := Or0(a.margemBruta);
    var resultado := Or0(a.resultadoMes);
    var folego := Or0Int(a.folegoCaixa);
    var capital := Or0(a.capitalMinimo);
    var peso := Or0(a.pesoDivida);
    [IndicatorBlock("eficiencia", [
       IndicatorCard("margem_bruta", Number(margem), GetStatus(Some(margem), "margem_bruta")),
       IndicatorCard("resultado_mes", Number(resultado), GetStatus(Some(resultado), "resultado_mes")),
       BreakEvenCard(a.pontoEquilibrio, Or0(a.receitaAtual))]),
     IndicatorBlock("caixa", [
       IndicatorCard("folego_caixa", Number(folego as real), GetStatus(Some(folego as real), "folego_caixa")),
       IndicatorCard("capital_minimo", Number(capital), CapitalStatus(capital, Or0(a.caixaBancos))),
       CycleCard(a.cicloFinanceiro)]),
     IndicatorBlock("estrutura", [
       IndicatorCard("receita_funcionario", Number(Or0(a.receitaFuncionario)), Saudavel),
       IndicatorCard("peso_divida", Number(peso), GetStatus(Some(peso), "peso_divida"))])]
  }

  /** The cards read the stored figures the way the dashboard grades them: the result card
      is critical exactly on a loss, the margin card healthy exactly from 40%, the runway
      card critical exactly under 30 days, and the break-even card critical exactly when the
      point is missing or not below the revenue. */
  lemma {:induction false} CardsFollowFigures(a: Stored)
    ensures GerarBlocos(a)[0].indicadores[1].status == Critico <==> Or0(a.resultadoMes) < 0.0
    ensures GerarBlocos(a)[0].indicadores[0].status == Saudavel <==> Or0(a.margemBruta) >= 40.0
    ensures GerarBlocos(a)[1].indicadores[0].status == Critico <==> Or0Int(a.folegoCaixa) < 30
    ensures Or0(a.receitaAtual) > 0.0 ==>
              (GerarBlocos(a)[0].indicadores[2].status == Critico <==> a.pontoEquilibrio.None? || a.pontoEquilibrio.value >= Or0(a.receitaAtual))
  {
    var bs := GerarBlocos(a);
    assert bs[0].indicadores[1].status == GetStatus(Some(Or0(a.resultadoMes)), "resultado_mes");
    assert bs[1].indicadores[0].status == GetStatus(Some(Or0Int(a.folegoCaixa) as real), "folego_caixa");
  }
}

=== FILE: dashboard_cards.dfy ===
/** The dashboard's payback card, history table and score modal. */
module DashboardCards {
  import opened Wrappers
  import opened Numeric
  import Dashboard
  import Indicadores

  // ---------- Payback card ----------

  /** `isIndisponivel`: no number of years to show. */
  predicate Indisponivel(p: Dashboard.PaybackView) {
    p.anos.None?
  }

  predicate IsCritico(p: Dashboard.PaybackView) {
    p.status == Dashboard.PaybackCritico
  }

  /** One quantity with its unit word. */
  datatype Parte = Parte(quantidade: int, unidade: string)

  /** The text `formatarTempo` shows. */
  datatype Tempo = TempoIndisponivel | NaoCalculado | Imediato | Prazo(partes: seq<Parte>)

  /** The singular word for exactly one, the plural otherwise. */
  function Unidade(n: int, singular: string, plural: string): string {
    if n == 1 then singular else plural
  }

  /** `payback.anos || 0` and `payback.meses || 0`. */
  function AnosOu0(p: Dashboard.PaybackView): int {
    p.anos.GetOr(0)
  }

  function MesesOu0(p: Dashboard.PaybackView): int {
    p.meses.GetOr(0)
  }

  /** `formatarTempo`. */
  function FormatarTempo(p: Dashboard.PaybackView): (t: Tempo)
    ensures Indisponivel(p) ==> t == (if IsCritico(p) then TempoIndisponivel else NaoCalculado)
    ensures !Indisponivel(p) ==> (t == Imediato <==> AnosOu0(p) == 0 && MesesOu0(p) == 0)
    ensures t.Prazo? ==> 1 <= |t.partes| <= 2 && forall k :: 0 <= k < |t.partes| ==> t.partes[k].quantidade != 0
    ensures t.Prazo? ==> forall k :: 0 <= k < |t.partes| ==>
      (t.partes[k].unidade in {"ano", "mês"} <==> t.partes[k].quantidade == 1)
  {
    if Indisponivel(p) then (if IsCritico(p) then TempoIndisponivel else NaoCalculado)
    else
      var anos := AnosOu0(p);
      var meses := MesesOu0(p);
      var a := Parte(anos, Unidade(anos, "ano", "anos"));
      var m := Parte(meses, Unidade(meses, "mês", "meses"));
      if anos == 0 && meses == 0 then Imediato
      else if anos == 0 then Prazo([m])
      else if meses == 0 then Prazo([a])
      else Prazo([a, m])
  }

  /** Reads the months back out of the parts: a year unit counts twelve. */
  function MesesLidos(partes: seq<Parte>): int {
    if partes == [] then 0
    else
      var f := if partes[0].unidade in {"ano", "anos"} then 12 else 1;
      f * partes[0].quantidade + MesesLidos(partes[1..])
  }

  /** The text spells out exactly the years and months of the payback. */
  lemma TempoReadsBack(p: Dashboard.PaybackView)
    requires !Indisponivel(p)
    ensures FormatarTempo(p).Prazo? ==> MesesLidos(FormatarTempo(p).partes) == 12 * AnosOu0(p) + MesesOu0(p)
    ensures FormatarTempo(p).Imediato? ==> 12 * AnosOu0(p) + MesesOu0(p) == 0
  {
    var t := FormatarTempo(p);
    if t.Prazo? {
      var ps := t.partes;
      if |ps| == 2 {
        assert ps[1..][1..] == [];
        assert MesesLidos(ps[1..]) == ps[1].quantidade + MesesLidos(ps[1..][1..]);
        assert MesesLidos(ps) == 12 * ps[0].quantidade + MesesLidos(ps[1..]);
      } else {
        assert ps[1..] == [];
      }
    }
  }

  /** The payback in years, months included. */
  function TempoTotal(p: Dashboard.PaybackView): real {
    AnosOu0(p) as real + MesesOu0(p) as real / 12.0
  }

  /** `calcularProgresso`: the share of a five-year goal, capped at 100. */
  function CalcularProgresso(p: Dashboard.PaybackView): (r: int)
    ensures Indisponivel(p) ==> r == 0
    ensures AnosOu0(p) >= 0 && MesesOu0(p) >= 0 ==> 0 <= r <= 100
    ensures !Indisponivel(p) && TempoTotal(p) >= 5.0 ==> r == 100
  {
    if Indisponivel(p) then 0
    else
      var pct := TempoTotal(p) / 5.0 * 100.0;
      assert AnosOu0(p) >= 0 && MesesOu0(p) >= 0 ==> Round(pct) >= 0 by {
        if AnosOu0(p) >= 0 && MesesOu0(p) >= 0 {
          RoundMonotone(0.0, pct);
          RoundOfInt(0);
        }
      }
      assert TempoTotal(p) >= 5.0 ==> Round(pct) >= 100 by {
        if TempoTotal(p) >= 5.0 {
          RoundMonotone(100.0, pct);
          RoundOfInt(100);
        }
      }
      if Round(pct) <= 100 then Round(pct) else 100
  }

  datatype BarColor = Cinza | Verde | Amarela | Laranja

  function GetBarColor(p: Dashboard.PaybackView): (c: BarColor)
    ensures c == Cinza <==> Indisponivel(p) || IsCritico(p)
    ensures c == Verde <==> !Indisponivel(p) && !IsCritico(p) && TempoTotal(p) <= 2.0
    ensures c == Amarela <==> !Indisponivel(p) && !IsCritico(p) && 2.0 < TempoTotal(p) <= 4.0
  {
    if Indisponivel(p) || IsCritico(p) then Cinza
    else if TempoTotal(p) <= 2.0 then Verde
    else if TempoTotal(p) <= 4.0 then Amarela
    else Laranja
  }

  /** `isPaybackExcelente`: already paid back, or exactly one year. */
  predicate IsPaybackExcelente(p: Dashboard.PaybackView) {
    !Indisponivel(p) && !IsCritico(p) && (p.anos == Some(0) || (p.anos == Some(1) && p.meses == Some(0)))
  }

  /** An excellent payback is drawn green and reads as "Imediato", months only, or "1 ano". */
  lemma ExcellentIsGreen(p: Dashboard.PaybackView)
    requires IsPaybackExcelente(p)
    requires MesesOu0(p) <= 11
    ensures GetBarColor(p) == Verde
    ensures FormatarTempo(p) == Imediato || FormatarTempo(p) == Prazo([Parte(MesesOu0(p), Unidade(MesesOu0(p), "mês", "meses"))])
            || FormatarTempo(p) == Prazo([Parte(1, "ano")])
  {
  }

  /** The dashboard's own payback is unavailable exactly when it is critical or has no valuation. */
  lemma CardAvailabilityMatchesRouter(valorMin: Option<real>, valorMax: Option<real>, lucroAnual: real)
    ensures var p := Dashboard.GerarPayback(valorMin, valorMax, lucroAnual);
      Indisponivel(p) <==> p.status in {Dashboard.PaybackCritico, Dashboard.PaybackIndisponivel}
  {
  }

  /** Every pair of sector multiples, and the default pair, averages at least 2. */
  lemma MeanMultipleAtLeastTwo(setor: string)
    ensures Indicadores.Multiples(setor).0 + Indicadores.Multiples(setor).1 >= 4.0
  {
  }

  /** For a valuation built from the sector multiples the mean multiple is at least 2, so
      the card's "excellent" state is never reached. */
  lemma ExcellenceUnreachableFromValuation(lucroAnual: real, setor: string)
    requires lucroAnual > 0.0
    ensures var m := Indicadores.Multiples(setor);
      !IsPaybackExcelente(Dashboard.GerarPayback(Some(lucroAnual * m.0), Some(lucroAnual * m.1), lucroAnual))
  {
    var m := Indicadores.Multiples(setor);
    MeanMultipleAtLeastTwo(setor);
    PaybackAtLeastTwoYears(lucroAnual, m.0, m.1);
  }

  /** Multiples averaging at least 2 give a payback of at least two whole years. */
  lemma PaybackAtLeastTwoYears(lucroAnual: real, a: real, b: real)
    requires lucroAnual > 0.0 && a > 0.0 && b > 0.0 && a + b >= 4.0
    ensures var p := Dashboard.GerarPayback(Some(lucroAnual * a), Some(lucroAnual * b), lucroAnual);
      p.anos.Some? && p.anos.value >= 2
  {
    var retorno := (lucroAnual * a + lucroAnual * b) / 2.0 / lucroAnual;
    assert retorno == (a + b) / 2.0;
    TruncBounds(retorno);
    assert Trunc(retorno) >= 2;
  }

  // ---------- History table ----------

  /** `getVariacao`: the change from the next (older) analysis; none for the oldest one. */
  function GetVariacao(scores: seq<real>, i: int): (r: Option<real>)
    requires 0 <= i < |scores|
    ensures r.None? <==> i == |scores| - 1
    ensures r.Some? ==> scores[i] == scores[i + 1] + r.value
  {
    if i >= |scores| - 1 then None else Some(scores[i] - scores[i + 1])
  }

  /** The sum of the changes shown from row `i` to the end. */
  function SomaVariacoes(scores: seq<real>, i: nat): real
    requires i < |scores|
    decreases |scores| - i
  {
    match GetVariacao(scores, i)
    case None => 0.0
    case Some(v) => v + SomaVariacoes(scores, i + 1)
  }

  /** The changes in the table add up to the newest score minus the oldest. */
  lemma {:induction false} VariacoesTelescope(scores: seq<real>, i: nat)
    requires i < |scores|
    ensures SomaVariacoes(scores, i) == scores[i] - scores[|scores| - 1]
    decreases |scores| - i
  {
    if i < |scores| - 1 {
      VariacoesTelescope(scores, i + 1);
    }
  }

  /** `getStatusLabel`: the three known statuses get their display name; any other string
      passes through. */
  function GetStatusLabel(status: string): (r: string)
    ensures status !in {"saudavel", "atencao", "critico"} ==> r == status
    ensures status in {"saudavel", "atencao", "critico"} ==> r != status && r in {"Saudável", "Atenção", "Crítico"}
  {
    if status == "saudavel" then "Saudável"
    else if status == "atencao" then "Atenção"
    else if status == "critico" then "Crítico"
    else status
  }

  /** The key a status is sent with. */
  function StatusKey(s: Dashboard.Status): string {
    match s
    case Saudavel => "saudavel"
    case Atencao => "atencao"
    case Critico => "critico"
  }

  /** Every status the back end sends has its own label. */
  lemma LabelsDistinguishStatuses(a: Dashboard.Status, b: Dashboard.Status)
    ensures GetStatusLabel(StatusKey(a)) != StatusKey(a)
    ensures a != b ==> GetStatusLabel(StatusKey(a)) != GetStatusLabel(StatusKey(b))
  {
  }

  datatype HistoricoView = Vazio | Tabela(linhas: seq<(real, Option<real>)>)

  /** The table: the empty state for no history, otherwise one row per analysis with its change. */
  function RenderHistorico(scores: seq<real>): (v: HistoricoView)
    ensures v == Vazio <==> |scores| == 0
    ensures v.Tabela? ==> (|v.linhas| == |scores| &&
      forall i :: 0 <= i < |scores| ==> v.linhas[i] == (scores[i], GetVariacao(scores, i)))
  {
    if |scores| == 0 then Vazio
    else Tabela(seq(|scores|, i requires 0 <= i < |scores| => (scores[i], GetVariacao(scores, i))))
  }

  // ---------- Score modal ----------

  /** `Math.max(...scores, 100)`. */
  function MaxScore(scores: seq<real>): (m: real)
    ensures m >= 100.0
    ensures forall i :: 0 <= i < |scores| ==> scores[i] <= m
    ensures m == 100.0 || exists i :: 0 <= i < |scores| && scores[i] == m
  {
    if scores == [] then 100.0
    else
      var rest := MaxScore(scores[1..]);
      if scores[0] >= rest then scores[0] else rest
  }

  /** `getBarHeight`: the share of the largest score, at least 10%. */
  function GetBarHeight(scores: seq<real>, valor: real): (h: real)
    ensures h >= 10.0
    ensures valor <= MaxScore(scores) ==> h <= 100.0
    ensures valor >= MaxScore(scores) / 10.0 ==> h == valor / MaxScore(scores) * 100.0
  {
    BarShare(valor, MaxScore(scores))
  }

  /** The bar of `valor` against the largest score `m`, in percent, never under 10. */
  function BarShare(valor: real, m: real): (h: real)
    requires m > 0.0
    ensures h >= 10.0
    ensures valor <= m ==> h <= 100.0
    ensures valor >= m / 10.0 ==> h == valor / m * 100.0
  {
    ShareOfLargest(valor, m);
    Max(valor / m * 100.0, 10.0)
  }

  lemma ShareOfLargest(valor: real, m: real)
    requires m > 0.0
    ensures (valor / m * 100.0) * m == valor * 100.0
    ensures valor <= m ==> valor / m * 100.0 <= 100.0
    ensures valor >= m / 10.0 ==> valor / m * 100.0 >= 10.0
  {
    var q := valor / m;
    assert q * m == valor;
    if valor <= m && q > 1.0 {
      ScaleLt(1.0, q, m);
      assert false;
    }
    if valor >= m / 10.0 && q < 0.1 {
      ScaleLt(q, 0.1, m);
      assert false;
    }
  }

  /** Every bar of the history fits the chart. */
  lemma BarsFitChart(scores: seq<real>)
    ensures forall i :: 0 <= i < |scores| ==> 10.0 <= GetBarHeight(scores, scores[i]) <= 100.0
  {
  }

  datatype ModalBar = Verde70 | Amarela50 | Vermelha50

  function GetScoreBarColor(valor: real): (c: ModalBar)
    ensures c == Verde70 <==> valor >= 70.0
    ensures c == Vermelha50 <==> valor < 50.0
  {
    if valor >= 70.0 then Verde70 else if valor >= 50.0 then Amarela50 else Vermelha50
  }

  /** The modal colours a score exactly as the back end grades it. */
  lemma ModalColourMatchesStatus(valor: real)
    ensures GetScoreBarColor(valor) == Verde70 <==> Dashboard.GetStatus(Some(valor), "score") == Dashboard.Saudavel
    ensures GetScoreBarColor(valor) == Amarela50 <==> Dashboard.GetStatus(Some(valor), "score") == Dashboard.Atencao
    ensures GetScoreBarColor(valor) == Vermelha50 <==> Dashboard.GetStatus(Some(valor), "score") == Dashboard.Critico
  {
    Dashboard.ScoreStatusBands(valor);
  }

  /** The modal renders nothing while closed, and one bar per history entry while open. */
  function RenderModal(isOpen: bool, scores: seq<real>): (bars: Option<seq<real>>)
    ensures bars.None? <==> !isOpen
    ensures bars.Some? ==> (|bars.value| == |scores| &&
      forall i :: 0 <= i < |scores| ==> 10.0 <= bars.value[i] <= 100.0)
  {
    if !isOpen then None
    else
      BarsFitChart(scores);
      Some(seq(|scores|, i requires 0 <= i < |scores| => GetBarHeight(scores, scores[i])))
  }
}

=== FILE: diagnostico.dfy ===
/** The diagnosis engine: problem identification by severity, the 30/60/90-day action
    plans, strengths and attention points. */
module Diagnostico {
  import opened Wrappers
  import Indicadores

  // ---------- Benchmarks ----------

  datatype Benchmark = Benchmark(margemBruta: real, folegoIdeal: int, cicloIdeal: int)

  /** `BENCHMARKS`: seven sector rows and a "default" row. */
  const Benchmarks: map<string, Benchmark> := map[
    "comercio_varejo" := Benchmark(30.0, 45, 15),
    "comercio_atacado" := Benchmark(25.0, 45, 20),
    "servicos" := Benchmark(50.0, 45, 10),
    "industria" := Benchmark(40.0, 60, 30),
    "tecnologia" := Benchmark(60.0, 60, 15),
    "alimentacao" := Benchmark(35.0, 30, 10),
    "saude" := Benchmark(45.0, 45, 20),
    "default" := Benchmark(35.0, 45, 25)]

  /** `get_benchmarks`: the sector's row, or the "default" row for any other sector. */
  function GetBenchmarks(setor: string): (b: Benchmark)
    ensures setor !in Benchmarks ==> b == Benchmark(35.0, 45, 25)
    ensures setor in Benchmarks ==> b == Benchmarks[setor]
    ensures 25.0 <= b.margemBruta <= 60.0 && 10 <= b.cicloIdeal <= 30
  {
    if setor in Benchmarks then Benchmarks[setor] else Benchmarks["default"]
  }

  // ---------- Problems ----------

  datatype Severity = Critica | Alta | Media

  function SeverityRank(s: Severity): int {
    match s
    case Critica => 0
    case Alta => 1
    case Media => 2
  }

  /** The eight problem families; each contributes at most one problem. */
  datatype Family = Resultado | Folego | Margem | PontoEquilibrio | Divida | Ciclo | Produtividade | Queda

  function FamilyRank(f: Family): int {
    match f
    case Resultado => 0
    case Folego => 1
    case Margem => 2
    case PontoEquilibrio => 3
    case Divida => 4
    case Ciclo => 5
    case Produtividade => 6
    case Queda => 7
  }

  /** The sixteen keys of the problem dictionary. */
  datatype Problem =
    | ResultadoNegativo
    | FolegoCritico | FolegoBaixo
    | MargemCritica | MargemBaixa | MargemMelhoravel
    | PeAcimaReceita | PeApertado
    | DividaAlta | DividaModerada
    | CicloLongo | CicloMelhoravel
    | ProdutividadeCritica | ProdutividadeBaixa
    | QuedaAcentuada | QuedaVendas

  function FamilyOf(p: Problem): Family {
    match p
    case ResultadoNegativo => Resultado
    case FolegoCritico | FolegoBaixo => Folego
    case MargemCritica | MargemBaixa | MargemMelhoravel => Margem
    case PeAcimaReceita | PeApertado => PontoEquilibrio
    case DividaAlta | DividaModerada => Divida
    case CicloLongo | CicloMelhoravel => Ciclo
    case ProdutividadeCritica | ProdutividadeBaixa => Produtividade
    case QuedaAcentuada | QuedaVendas => Queda
  }

  /** The `severidade` each key is stored with. */
  function SeverityOf(p: Problem): Severity {
    match p
    case ResultadoNegativo | FolegoCritico | MargemCritica | PeAcimaReceita | QuedaAcentuada => Critica
    case FolegoBaixo | MargemBaixa | PeApertado | DividaAlta | CicloLongo | ProdutividadeCritica | QuedaVendas => Alta
    case MargemMelhoravel | DividaModerada | CicloMelhoravel | ProdutividadeBaixa => Media
  }

  /** What the diagnosis reads: the sector, the current revenue and the indicators. */
  datatype Reading = Reading(setor: string, receita: real, ind: Indicadores.Indicators)

  function BreakEvenPercent(r: Reading): real
    requires r.receita > 0.0
  {
    r.ind.pontoEquilibrio / r.receita * 100.0
  }

  /** The condition under which each problem is reported, stated key by key. */
  predicate Triggered(p: Problem, r: Reading) {
    TriggeredBy(p, r, GetBenchmarks(r.setor))
  }

  /** The same condition, against a given sector benchmark `b`. */
  predicate TriggeredBy(p: Problem, r: Reading, b: Benchmark) {
    var i := r.ind;
    match p
    case ResultadoNegativo => i.resultadoMes < 0.0
    case FolegoCritico => i.folegoCaixa < 15
    case FolegoBaixo => 15 <= i.folegoCaixa < 30
    case MargemCritica => i.margemBruta < 15.0
    case MargemBaixa => 15.0 <= i.margemBruta < 25.0
    case MargemMelhoravel => 25.0 <= i.margemBruta < b.margemBruta
    case PeAcimaReceita => r.receita > 0.0 && BreakEvenPercent(r) > 100.0
    case PeApertado => r.receita > 0.0 && 85.0 < BreakEvenPercent(r) <= 100.0
    case DividaAlta => i.pesoDivida.Some? && i.pesoDivida.value > 50.0
    case DividaModerada => i.pesoDivida.Some? && 30.0 < i.pesoDivida.value <= 50.0
    case CicloLongo => i.cicloFinanceiro.Some? && i.cicloFinanceiro.value > b.cicloIdeal + 30
    case CicloMelhoravel => i.cicloFinanceiro.Some? && b.cicloIdeal < i.cicloFinanceiro.value <= b.cicloIdeal + 30
    case ProdutividadeCritica => i.receitaFuncionario.Some? && i.receitaFuncionario.value < 8000.0
    case ProdutividadeBaixa => i.receitaFuncionario.Some? && 8000.0 <= i.receitaFuncionario.value < 15000.0
    case QuedaAcentuada => i.tendencia.status == Indicadores.Caindo && i.tendencia.percent < -10.0
    case QuedaVendas => i.tendencia.status == Indicadores.Caindo && i.tendencia.percent >= -10.0
  }

  /** Problems in family order, so at most one per family. */
  predicate FamilyOrdered(ps: seq<Problem>) {
    forall i, j :: 0 <= i < j < |ps| ==> FamilyRank(FamilyOf(ps[i])) < FamilyRank(FamilyOf(ps[j]))
  }

  /** Appends one family's (at most one) problem after the earlier families. */
  function Then(ps: seq<Problem>, block: seq<Problem>, f: Family): (r: seq<Problem>)
    requires FamilyOrdered(ps)
    requires forall p :: p in ps ==> FamilyRank(FamilyOf(p)) < FamilyRank(f)
    requires |block| <= 1 && forall p :: p in block ==> FamilyOf(p) == f
    ensures r == ps + block
    ensures FamilyOrdered(r)
    ensures forall p :: p in r ==> FamilyRank(FamilyOf(p)) <= FamilyRank(f)
  {
    assert forall i :: 0 <= i < |ps| ==> ps[i] in ps;
    ps + block
  }

  /** The problem one family reports, if any. */
  function FamilyBlock(f: Family, r: Reading, bench: Benchmark): (b: seq<Problem>)
    ensures |b| <= 1
    ensures forall p :: p in b ==> FamilyOf(p) == f
    ensures forall p :: FamilyOf(p) == f ==> (p in b <==> TriggeredBy(p, r, bench))
  {
    var i := r.ind;
    match f
    case Resultado => if i.resultadoMes < 0.0 then [ResultadoNegativo] else []
    case Folego =>
      if i.folegoCaixa < 15 then [FolegoCritico] else if i.folegoCaixa < 30 then [FolegoBaixo] else []
    case Margem =>
      if i.margemBruta < 15.0 then [MargemCritica] else if i.margemBruta < 25.0 then [MargemBaixa]
      else if i.margemBruta < bench.margemBruta then [MargemMelhoravel] else []
    case PontoEquilibrio =>
      if r.receita <= 0.0 then []
      else if BreakEvenPercent(r) > 100.0 then [PeAcimaReceita]
      else if BreakEvenPercent(r) > 85.0 then [PeApertado] else []
    case Divida =>
      if i.pesoDivida.None? then []
      else if i.pesoDivida.value > 50.0 then [DividaAlta]
      else if i.pesoDivida.value > 30.0 then [DividaModerada] else []
    case Ciclo =>
      if i.cicloFinanceiro.None? then []
      else if i.cicloFinanceiro.value > bench.cicloIdeal + 30 then [CicloLongo]
      else if i.cicloFinanceiro.value > bench.cicloIdeal then [CicloMelhoravel] else []
    case Produtividade =>
      if i.receitaFuncionario.None? then []
      else if i.receitaFuncionario.value < 8000.0 then [ProdutividadeCritica]
      else if i.receitaFuncionario.value < 15000.0 then [ProdutividadeBaixa] else []
    case Queda =>
      if i.tendencia.status != Indicadores.Caindo then []
      else if i.tendencia.percent < -10.0 then [QuedaAcentuada] else [QuedaVendas]
  }

  /** The blocks of the families up to rank n, concatenated in family order. */
  function Blocks(n: nat, r: Reading, bench: Benchmark): (ps: seq<Problem>)
    requires n <= 8
    ensures FamilyOrdered(ps)
    ensures forall p :: p in ps ==> FamilyRank(FamilyOf(p)) < n
    ensures forall p :: FamilyRank(FamilyOf(p)) < n ==> (p in ps <==> TriggeredBy(p, r, bench))
  {
    if n == 0 then []
    else
      var f := FamilyAt(n - 1);
      var prev := Blocks(n - 1, r, bench);
      var b := FamilyBlock(f, r, bench);
      Then(prev, b, f)
  }

  function FamilyAt(k: int): (f: Family)
    requires 0 <= k < 8
    ensures FamilyRank(f) == k
    ensures forall g :: FamilyRank(g) == k ==> g == f
  {
    [Resultado, Folego, Margem, PontoEquilibrio, Divida, Ciclo, Produtividade, Queda][k]
  }

  /** `identificar_problemas`: the reported problems in the dictionary's insertion order. */
  function IdentificarProblemas(r: Reading): (ps: seq<Problem>)
    ensures forall p :: p in ps <==> Triggered(p, r)
    ensures FamilyOrdered(ps)
    ensures |ps| <= 8
  {
    var ps := Blocks(8, r, GetBenchmarks(r.setor));
    FamilyOrderedBound(ps);
    ps
  }

  /** A family-ordered list has at most one problem per family, hence at most eight. */
  lemma {:induction false} FamilyOrderedBound(ps: seq<Problem>)
    requires FamilyOrdered(ps)
    ensures |ps| <= 8
    ensures |ps| > 0 ==> FamilyRank(FamilyOf(ps[0])) + |ps| <= 8
  {
    if |ps| > 0 {
      FamilyOrderedBound(ps[1..]);
      if |ps| > 1 {
        assert FamilyRank(FamilyOf(ps[0])) < FamilyRank(FamilyOf(ps[1]));
      }
    }
  }

  /** Two problems of the same family are never reported together. */
  lemma OneProblemPerFamily(r: Reading, p: Problem, q: Problem)
    requires p in IdentificarProblemas(r) && q in IdentificarProblemas(r)
    requires FamilyOf(p) == FamilyOf(q)
    ensures p == q
  {
    var ps := IdentificarProblemas(r);
    var i :| 0 <= i < |ps| && ps[i] == p;
    var j :| 0 <= j < |ps| && ps[j] == q;
    assert i == j;
  }

  function HasCritical(ps: seq<Problem>): bool {
    exists p :: p in ps && SeverityOf(p) == Critica
  }

  // ---------- Action plans ----------

  datatype Priority = PrioridadeAlta | PrioridadeMedia

  /** The actions of the three plans, by their titles. */
  datatype Action =
    // 30 days
    | AumentarCaixaUrgente | ConstruirReservaCaixa | ReverterPrejuizo | ReajustePrecos
    | AumentarMargem | ReduzirPontoEquilibrio | AumentarMargemSeguranca | DiagnosticarQueda
    | InvestigarQueda | RenegociarDividas | RevisarPessoal
    | ControleDiario | MapearCustos | RenegociarFornecedores | AprovarDespesas
    // 60 days
    | RotinaIndicadores | ReduzirCiclo | OtimizarCiclo | OtimizarMargem | PlanoDividas
    | ProdutividadeEquipe | RevisarDespesasFixas | RecuperarVendas | RentabilidadePorCanal
    // 90 days
    | ConsolidarBase | ReservaEmergencia | ReduzirDependencia | PlanoB
    | PlanoCrescimento | ReservaTresMeses | AvaliarInvestimento | CapacitarEquipe

  function PriorityOf(a: Action): Priority {
    match a
    case MapearCustos | RenegociarFornecedores | AprovarDespesas => PrioridadeMedia
    case OtimizarCiclo | OtimizarMargem | PlanoDividas | ProdutividadeEquipe => PrioridadeMedia
    case RevisarDespesasFixas | RentabilidadePorCanal => PrioridadeMedia
    case ReduzirDependencia | PlanoB | PlanoCrescimento | AvaliarInvestimento | CapacitarEquipe => PrioridadeMedia
    case _ => PrioridadeAlta
  }

  /** The problem-driven 30-day actions, before padding and truncation. */
  function Specific30(ps: seq<Problem>): (s: seq<Action>)
    ensures ControleDiario !in s
    ensures FolegoCritico in ps ==> s != [] && s[0] == AumentarCaixaUrgente
  {
    (if FolegoCritico in ps then [AumentarCaixaUrgente] else if FolegoBaixo in ps then [ConstruirReservaCaixa] else [])
    + (if ResultadoNegativo in ps then [ReverterPrejuizo] else [])
    + (if MargemCritica in ps then [ReajustePrecos] else if MargemBaixa in ps then [AumentarMargem] else [])
    + (if PeAcimaReceita in ps then [ReduzirPontoEquilibrio] else if PeApertado in ps then [AumentarMargemSeguranca] else [])
    + (if QuedaAcentuada in ps then [DiagnosticarQueda] else if QuedaVendas in ps then [InvestigarQueda] else [])
    + (if DividaAlta in ps then [RenegociarDividas] else [])
    + (if ProdutividadeCritica in ps then [RevisarPessoal] else [])
  }

  function AppendIf(c: bool, acoes: seq<Action>, a: Action): (r: seq<Action>)
    ensures |r| == (if c then |acoes| + 1 else |acoes|)
    ensures forall k :: 0 <= k < |acoes| ==> r[k] == acoes[k]
    ensures forall x :: x in r <==> x in acoes || (c && x == a)
  {
    if c then acoes + [a] else acoes
  }

  /** `gerar_acoes_30_dias`: the problem-driven actions, padded with the four generic ones
      and cut to four. */
  function Acoes30(ps: seq<Problem>): (acoes: seq<Action>)
    ensures |acoes| == 4
    ensures var s := Specific30(ps); |s| >= 4 ==> acoes == s[..4]
    ensures var s := Specific30(ps); |s| < 4 ==> acoes[..|s|] == s
    ensures ControleDiario in acoes <==> Specific30(ps) == []
    ensures FolegoCritico in ps ==> acoes[0] == AumentarCaixaUrgente
  {
    Padded30(Specific30(ps))
  }

  /** The generic 30-day padding: the daily cash control only when nothing specific was
      found, then the cost map, the supplier talks and the spending approval, up to four. */
  function Padded30(a0: seq<Action>): (r: seq<Action>)
    requires ControleDiario !in a0
    ensures |r| == 4
    ensures |a0| >= 4 ==> r == a0[..4]
    ensures |a0| < 4 ==> r[..|a0|] == a0
    ensures a0 != [] ==> r[0] == a0[0]
    ensures ControleDiario in r <==> a0 == []
  {
    var a1 := if |a0| == 0 then a0 + [ControleDiario] else a0;
    var a2 := if |a1| < 2 then a1 + [MapearCustos] else a1;
    var a3 := if |a2| < 3 then a2 + [RenegociarFornecedores] else a2;
    var a4 := if |a3| < 4 then a3 + [AprovarDespesas] else a3;
    if |a0| >= 4 then
      a4[..4]
    else
      assert a4 == a0 + a4[|a0|..];
      assert ControleDiario !in a4[|a0|..] || a0 == [];
      assert a0 == [] ==> a4[0] == ControleDiario;
      a4[..4]
  }

  /** `gerar_acoes_60_dias`: the indicator routine first, problem-driven actions, the fixed
      expenses review and the sales recovery, padded to at least three and cut to four. */
  function Acoes60(ps: seq<Problem>): (acoes: seq<Action>)
    ensures 3 <= |acoes| <= 4
    ensures acoes[0] == RotinaIndicadores
    ensures CicloLongo in ps ==> acoes[1] == ReduzirCiclo
  {
    var a := [RotinaIndicadores]
      + (if CicloLongo in ps then [ReduzirCiclo] else if CicloMelhoravel in ps then [OtimizarCiclo] else [])
      + (if MargemMelhoravel in ps then [OtimizarMargem] else [])
      + (if DividaModerada in ps then [PlanoDividas] else [])
      + (if ProdutividadeBaixa in ps then [ProdutividadeEquipe] else [])
      + [RevisarDespesasFixas]
      + (if QuedaVendas in ps || QuedaAcentuada in ps then [RecuperarVendas] else []);
    var b := AppendIf(|a| < 4, a, RentabilidadePorCanal);
    if |b| > 4 then b[..4] else b
  }

  /** The two fixed 90-day lists. */
  const Stabilisation: seq<Action> := [ConsolidarBase, ReservaEmergencia, ReduzirDependencia, PlanoB]
  const Growth: seq<Action> := [PlanoCrescimento, ReservaTresMeses, AvaliarInvestimento, CapacitarEquipe]

  /** `gerar_acoes_90_dias`: stabilisation when a problem is critical or the month's result
      is not positive, growth otherwise. */
  function Acoes90(ps: seq<Problem>, resultadoMes: real): (acoes: seq<Action>)
    ensures |acoes| == 4
    ensures acoes == Stabilisation <==> HasCritical(ps) || resultadoMes <= 0.0
    ensures acoes == Growth <==> !HasCritical(ps) && resultadoMes > 0.0
  {
    if HasCritical(ps) || !(resultadoMes > 0.0) then Stabilisation else Growth
  }

  /** A month that merely breaks even gets the stabilisation plan although it reports no
      critical problem for the result. */
  lemma BreakEvenMonthIsStabilised(r: Reading)
    requires r.ind.resultadoMes == 0.0
    ensures ResultadoNegativo !in IdentificarProblemas(r)
    ensures Acoes90(IdentificarProblemas(r), r.ind.resultadoMes) == Stabilisation
  {
  }

  /** A loss is always critical, so it always gets the stabilisation plan. */
  lemma LossIsCritical(r: Reading)
    requires r.ind.resultadoMes < 0.0
    ensures HasCritical(IdentificarProblemas(r))
  {
    assert ResultadoNegativo in IdentificarProblemas(r);
  }

  // ---------- Strengths ----------

  datatype Strength =
    | MargemExcelente | MargemSaudavel
    | RentabilidadeMuitoBoa | ResultadoPositivo | EmpresaLucrativa
    | ReservaExcelente | ReservaAdequada
    | SemDividas | EndividamentoBaixo
    | ReceitaCrescendo | ReceitaEstavel
    | CicloEficiente
    | AltaProdutividade

  /** The condition behind each strength, stated independently of the list's construction. */
  predicate StrengthHolds(s: Strength, r: Reading) {
    var i := r.ind;
    var pct := if r.receita > 0.0 then i.resultadoMes / r.receita * 100.0 else 0.0;
    match s
    case MargemExcelente => i.margemBruta >= 50.0
    case MargemSaudavel => 40.0 <= i.margemBruta < 50.0
    case RentabilidadeMuitoBoa => i.resultadoMes > 0.0 && pct >= 15.0
    case ResultadoPositivo => i.resultadoMes > 0.0 && 5.0 <= pct < 15.0
    case EmpresaLucrativa => i.resultadoMes > 0.0 && pct < 5.0
    case ReservaExcelente => i.folegoCaixa >= 90
    case ReservaAdequada => 60 <= i.folegoCaixa < 90
    case SemDividas => i.pesoDivida.None? || i.pesoDivida.value == 0.0
    case EndividamentoBaixo => i.pesoDivida.Some? && 0.0 != i.pesoDivida.value <= 20.0
    case ReceitaCrescendo => i.tendencia.status == Indicadores.Crescendo && i.tendencia.percent != 0.0
    case ReceitaEstavel => i.tendencia.status == Indicadores.Estavel
    case CicloEficiente => i.cicloFinanceiro.Some? && i.cicloFinanceiro.value <= 30
    case AltaProdutividade => i.receitaFuncionario.Some? && i.receitaFuncionario.value >= 25000.0
  }

  /** The seven groups of strengths, each contributing at most one. */
  function GroupOf(s: Strength): int {
    match s
    case MargemExcelente | MargemSaudavel => 0
    case RentabilidadeMuitoBoa | ResultadoPositivo | EmpresaLucrativa => 1
    case ReservaExcelente | ReservaAdequada => 2
    case SemDividas | EndividamentoBaixo => 3
    case ReceitaCrescendo | ReceitaEstavel => 4
    case CicloEficiente => 5
    case AltaProdutividade => 6
  }

  /** The strength one group contributes, if any. */
  function StrengthBlock(g: int, r: Reading): (b: seq<Strength>)
    requires 0 <= g < 7
    ensures |b| <= 1
    ensures forall s :: s in b ==> GroupOf(s) == g
    ensures forall s :: GroupOf(s) == g ==> (s in b <==> StrengthHolds(s, r))
  {
    var i := r.ind;
    var pct := if r.receita > 0.0 then i.resultadoMes / r.receita * 100.0 else 0.0;
    if g == 0 then
      (if i.margemBruta >= 50.0 then [MargemExcelente] else if i.margemBruta >= 40.0 then [MargemSaudavel] else [])
    else if g == 1 then
      (if !(i.resultadoMes > 0.0) then []
       else if pct >= 15.0 then [RentabilidadeMuitoBoa] else if pct >= 5.0 then [ResultadoPositivo] else [EmpresaLucrativa])
    else if g == 2 then
      (if i.folegoCaixa >= 90 then [ReservaExcelente] else if i.folegoCaixa >= 60 then [ReservaAdequada] else [])
    else if g == 3 then
      (if i.pesoDivida.None? || i.pesoDivida.value == 0.0 then [SemDividas]
       else if i.pesoDivida.value <= 20.0 then [EndividamentoBaixo] else [])
    else if g == 4 then
      (if i.tendencia.status == Indicadores.Crescendo && i.tendencia.percent != 0.0 then [ReceitaCrescendo]
       else if i.tendencia.status == Indicadores.Estavel then [ReceitaEstavel] else [])
    else if g == 5 then
      (if i.cicloFinanceiro.Some? && i.cicloFinanceiro.value <= 30 then [CicloEficiente] else [])
    else
      (if i.receitaFuncionario.Some? && i.receitaFuncionario.value >= 25000.0 then [AltaProdutividade] else [])
  }

  /** The strengths of the groups below n, in the order they are appended. */
  function StrengthBlocks(n: nat, r: Reading): (ss: seq<Strength>)
    requires n <= 7
    ensures forall s :: s in ss ==> GroupOf(s) < n
    ensures forall s :: GroupOf(s) < n ==> (s in ss <==> StrengthHolds(s, r))
  {
    if n == 0 then [] else StrengthBlocks(n - 1, r) + StrengthBlock(n - 1, r)
  }

  /** All strengths in the order they are appended, before the cut to four. */
  function AllStrengths(r: Reading): (ss: seq<Strength>)
    ensures forall s :: s in ss <==> StrengthHolds(s, r)
  {
    StrengthBlocks(7, r)
  }

  /** `gerar_pontos_fortes`: the first four strengths; each one listed really holds. */
  function PontosFortes(r: Reading): (ss: seq<Strength>)
    ensures |ss| <= 4
    ensures forall s :: s in ss ==> StrengthHolds(s, r)
    ensures |AllStrengths(r)| <= 4 ==> ss == AllStrengths(r)
  {
    var all := AllStrengths(r);
    if |all| > 4 then all[..4] else all
  }

  /** A company never hears the same thing as a strength and as a problem: runway, debt and
      result strengths exclude the problems of their families. */
  lemma StrengthsContradictNoProblem(r: Reading)
    ensures (StrengthHolds(ReservaExcelente, r) || StrengthHolds(ReservaAdequada, r))
            ==> FolegoCritico !in IdentificarProblemas(r) && FolegoBaixo !in IdentificarProblemas(r)
    ensures (StrengthHolds(SemDividas, r) || StrengthHolds(EndividamentoBaixo, r))
            ==> DividaAlta !in IdentificarProblemas(r) && DividaModerada !in IdentificarProblemas(r)
    ensures StrengthHolds(EmpresaLucrativa, r) ==> ResultadoNegativo !in IdentificarProblemas(r)
  {
    RunwayStrengthExcludes(r);
    DebtStrengthExcludes(r);
    ProfitStrengthExcludes(r);
  }

  lemma RunwayStrengthExcludes(r: Reading)
    ensures (StrengthHolds(ReservaExcelente, r) || StrengthHolds(ReservaAdequada, r))
            ==> FolegoCritico !in IdentificarProblemas(r) && FolegoBaixo !in IdentificarProblemas(r)
  {
    Reported(FolegoCritico, r);
    Reported(FolegoBaixo, r);
  }

  lemma DebtStrengthExcludes(r: Reading)
    ensures (StrengthHolds(SemDividas, r) || StrengthHolds(EndividamentoBaixo, r))
            ==> DividaAlta !in IdentificarProblemas(r) && DividaModerada !in IdentificarProblemas(r)
  {
    Reported(DividaAlta, r);
    Reported(DividaModerada, r);
  }

  lemma ProfitStrengthExcludes(r: Reading)
    ensures StrengthHolds(EmpresaLucrativa, r) ==> ResultadoNegativo !in IdentificarProblemas(r)
  {
    Reported(ResultadoNegativo, r);
  }

  /** One problem is listed exactly when its condition holds. */
  lemma Reported(p: Problem, r: Reading)
    ensures p in IdentificarProblemas(r) <==> Triggered(p, r)
  {
  }

  // ---------- Attention points ----------

  /** The problems of one severity, in their original order. */
  function OfSeverity(ps: seq<Problem>, s: Severity): (r: seq<Problem>)
    ensures |r| <= |ps|
    ensures forall p :: p in r <==> p in ps && SeverityOf(p) == s
  {
    if ps == [] then []
    else (if SeverityOf(ps[0]) == s then [ps[0]] else []) + OfSeverity(ps[1..], s)
  }

  /** The stable sort by severity rank: critical, then high, then medium. */
  function BySeverity(ps: seq<Problem>): (r: seq<Problem>)
    ensures |r| == |ps|
  {
    SeverityCounts(ps);
    OfSeverity(ps, Critica) + OfSeverity(ps, Alta) + OfSeverity(ps, Media)
  }

  lemma {:induction false} SeverityCounts(ps: seq<Problem>)
    ensures |OfSeverity(ps, Critica)| + |OfSeverity(ps, Alta)| + |OfSeverity(ps, Media)| == |ps|
  {
    if ps != [] {
      SeverityCounts(ps[1..]);
    }
  }

  /** Splitting by severity neither loses nor duplicates a problem. */
  lemma {:induction false} BySeverityPermutes(ps: seq<Problem>)
    ensures multiset(BySeverity(ps)) == multiset(ps)
  {
    if ps != [] {
      BySeverityPermutes(ps[1..]);
      assert ps == [ps[0]] + ps[1..];
    }
  }

  lemma BySeveritySorted(ps: seq<Problem>)
    ensures forall i, j :: 0 <= i < j < |BySeverity(ps)| ==>
      SeverityRank(SeverityOf(BySeverity(ps)[i])) <= SeverityRank(SeverityOf(BySeverity(ps)[j]))
  {
    var c, a, m := OfSeverity(ps, Critica), OfSeverity(ps, Alta), OfSeverity(ps, Media);
    assert forall k :: 0 <= k < |c| ==> c[k] in c;
    assert forall k :: 0 <= k < |a| ==> a[k] in a;
    assert forall k :: 0 <= k < |m| ==> m[k] in m;
  }

  datatype Marker = Sirene | Aviso | SemMarcador

  /** An attention point: the problem's title and the marker prefixed to its description. */
  datatype AttentionPoint = AttentionPoint(titulo: string, marcador: Marker, severidade: Severity)

  function Title(p: Problem): string {
    match p
    case ResultadoNegativo => "Resultado negativo"
    case FolegoCritico => "Reserva de caixa crítica"
    case FolegoBaixo => "Reserva de caixa baixa"
    case MargemCritica => "Margem bruta crítica"
    case MargemBaixa => "Margem bruta baixa"
    case MargemMelhoravel => "Margem pode melhorar"
    case PeAcimaReceita => "Ponto de equilíbrio acima da receita"
    case PeApertado => "Margem de segurança apertada"
    case DividaAlta => "Endividamento elevado"
    case DividaModerada => "Endividamento moderado"
    case CicloLongo => "Ciclo financeiro longo"
    case CicloMelhoravel => "Ciclo financeiro pode melhorar"
    case ProdutividadeCritica => "Produtividade muito baixa"
    case ProdutividadeBaixa => "Produtividade abaixo do ideal"
    case QuedaAcentuada => "Queda acentuada nas vendas"
    case QuedaVendas => "Vendas em queda"
  }

  function MarkerOf(s: Severity): Marker {
    match s
    case Critica => Sirene
    case Alta => Aviso
    case Media => SemMarcador
  }

  function ToPoint(p: Problem): AttentionPoint {
    AttentionPoint(Title(p), MarkerOf(SeverityOf(p)), SeverityOf(p))
  }

  function ToPoints(ps: seq<Problem>): (pts: seq<AttentionPoint>)
    ensures |pts| == |ps|
    ensures forall k :: 0 <= k < |ps| ==> pts[k] == ToPoint(ps[k])
  {
    if ps == [] then [] else [ToPoint(ps[0])] + ToPoints(ps[1..])
  }

  /** `gerar_pontos_atencao`: the problems sorted by severity, turned into points, first five. */
  function PontosAtencao(ps: seq<Problem>): (pts: seq<AttentionPoint>)
    ensures |pts| == if |ps| < 5 then |ps| else 5
    ensures forall k :: 0 <= k < |pts| ==> pts[k] == ToPoint(BySeverity(ps)[k])
  {
    var sorted := BySeverity(ps);
    var top := if |sorted| > 5 then sorted[..5] else sorted;
    ToPoints(top)
  }

  /** Critical points carry the siren and high ones the warning sign; no other point does. */
  lemma MarkersFollowSeverity(p: AttentionPoint, q: Problem)
    requires p == ToPoint(q)
    ensures p.marcador == Sirene <==> SeverityOf(q) == Critica
    ensures p.marcador == Aviso <==> SeverityOf(q) == Alta
    ensures p.titulo == Title(q)
  {
  }

  /** Points come out ordered by severity rank. */
  lemma PontosAtencaoSorted(ps: seq<Problem>, i: int, j: int)
    requires 0 <= i < j < |PontosAtencao(ps)|
    ensures SeverityRank(PontosAtencao(ps)[i].severidade) <= SeverityRank(PontosAtencao(ps)[j].severidade)
  {
    BySeveritySorted(ps);
  }

  /** A critical problem, when there is one, heads the attention points. */
  lemma {:induction false} CriticalComesFirst(ps: seq<Problem>)
    requires HasCritical(ps)
    ensures PontosAtencao(ps)[0].marcador == Sirene
  {
    var p :| p in ps && SeverityOf(p) == Critica;
    assert p in OfSeverity(ps, Critica);
    assert |OfSeverity(ps, Critica)| > 0;
    assert BySeverity(ps)[0] == OfSeverity(ps, Critica)[0];
    assert OfSeverity(ps, Critica)[0] in OfSeverity(ps, Critica);
  }

  /** `gerar_diagnostico`: the five lists of the diagnosis. */
  datatype Diagnosis = Diagnosis(
    pontosFortes: seq<Strength>,
    pontosAtencao: seq<AttentionPoint>,
    plano30: seq<Action>,
    plano60: seq<Action>,
    plano90: seq<Action>)

  function GerarDiagnostico(r: Reading): (d: Diagnosis)
    ensures |d.pontosFortes| <= 4 && |d.pontosAtencao| <= 5
    ensures |d.plano30| == 4 && 3 <= |d.plano60| <= 4 && |d.plano90| == 4
  {
    var ps := IdentificarProblemas(r);
    Diagnosis(PontosFortes(r), PontosAtencao(ps), Acoes30(ps), Acoes60(ps), Acoes90(ps, r.ind.resultadoMes))
  }

  /** A loss puts a siren on the first attention point and the plan on stabilisation. */
  lemma LossDiagnosis(r: Reading)
    requires r.ind.resultadoMes < 0.0
    ensures GerarDiagnostico(r).plano90 == Stabilisation
    ensures GerarDiagnostico(r).pontosAtencao[0].marcador == Sirene
  {
    LossIsCritical(r);
    CriticalComesFirst(IdentificarProblemas(r));
  }
}

=== FILE: frase_impacto.dfy ===
/** The single impact phrase shown on the paywall and the dashboard banner: the first of
    seven rules, in a fixed priority order, that applies to the company's figures. */
module FraseImpacto {
  import opened Wrappers
  import opened Numeric

  /** The inputs; each optional figure is `undefined` when the dashboard has none. */
  datatype Dados = Dados(
    empresaNome: string,
    scoreValor: real,
    margemBruta: Option<real>,
    resultadoMes: Option<real>,
    folegoEmDias: Option<real>,
    simuladorEstressePositivo: Option<bool>)

  /** The library copy, and the dashboard copy that also requires the cash runway and
      the margin to be non-negative. */
  datatype Variante = Biblioteca | Painel

  datatype Regra = RPerda | RFolego | RMargem | REstresse | RScoreBaixo | RSaudavel | RFallback

  /** The priority order: an earlier rule wins. */
  const Ordem: seq<Regra> := [RPerda, RFolego, RMargem, REstresse, RScoreBaixo, RSaudavel, RFallback]

  function Posicao(r: Regra): (k: nat)
    ensures k < |Ordem| && Ordem[k] == r
  {
    match r
    case RPerda => 0
    case RFolego => 1
    case RMargem => 2
    case REstresse => 3
    case RScoreBaixo => 4
    case RSaudavel => 5
    case RFallback => 6
  }

  /** Whether a rule's own condition holds, regardless of the rules before it. */
  predicate Aplica(v: Variante, r: Regra, d: Dados) {
    match r
    case RPerda => d.resultadoMes.Some? && d.resultadoMes.value < 0.0
    case RFolego => d.folegoEmDias.Some? && d.folegoEmDias.value < 30.0 && (v == Painel ==> d.folegoEmDias.value >= 0.0)
    case RMargem => d.margemBruta.Some? && d.margemBruta.value < 25.0 && (v == Painel ==> d.margemBruta.value >= 0.0)
    case REstresse => d.simuladorEstressePositivo == Some(false)
    case RScoreBaixo => d.scoreValor < 50.0
    case RSaudavel => d.scoreValor > 75.0
    case RFallback => true
  }

  /** The phrase chosen, with the figure it quotes. */
  datatype Impacto =
    | Perda(valor: real)
    | CaixaZera(dias: real)
    | MargemBaixa(ficam: int)
    | Vulneravel
    | ScoreBaixo(score: real)
    | Saudavel
    | Fallback(score: real)

  function RegraDe(i: Impacto): Regra {
    match i
    case Perda(_) => RPerda
    case CaixaZera(_) => RFolego
    case MargemBaixa(_) => RMargem
    case Vulneravel => REstresse
    case ScoreBaixo(_) => RScoreBaixo
    case Saudavel => RSaudavel
    case Fallback(_) => RFallback
  }

  datatype Frase = Frase(nome: string, impacto: Impacto)

  /** `calcularFraseImpacto`: the rule that fires applies, and no earlier rule does. */
  function CalcularFraseImpacto(v: Variante, d: Dados): (f: Frase)
    ensures f.nome == (if d.empresaNome == [] then "sua empresa" else d.empresaNome)
    ensures Aplica(v, RegraDe(f.impacto), d)
    ensures forall k :: 0 <= k < Posicao(RegraDe(f.impacto)) ==> !Aplica(v, Ordem[k], d)
    ensures f.impacto.Perda? ==> f.impacto.valor == -d.resultadoMes.value > 0.0
    ensures f.impacto.CaixaZera? ==>
      f.impacto.dias == (if v == Biblioteca then Round(d.folegoEmDias.value) as real else d.folegoEmDias.value)
    ensures f.impacto.MargemBaixa? ==> f.impacto.ficam == Round(d.margemBruta.value)
    ensures (f.impacto.ScoreBaixo? || f.impacto.Fallback?) ==> f.impacto.score == d.scoreValor
  {
    var nome := if d.empresaNome == [] then "sua empresa" else d.empresaNome;
    var impacto :=
      if Aplica(v, RPerda, d) then Perda(Abs(d.resultadoMes.value))
      else if Aplica(v, RFolego, d) then
        CaixaZera(if v == Biblioteca then Round(d.folegoEmDias.value) as real else d.folegoEmDias.value)
      else if Aplica(v, RMargem, d) then MargemBaixa(Round(d.margemBruta.value))
      else if Aplica(v, REstresse, d) then Vulneravel
      else if Aplica(v, RScoreBaixo, d) then ScoreBaixo(d.scoreValor)
      else if Aplica(v, RSaudavel, d) then Saudavel
      else Fallback(d.scoreValor);
    Frase(nome, impacto)
  }

  /** A loss beats every other rule, in both copies. */
  lemma LossTakesPrecedence(v: Variante, d: Dados)
    requires d.resultadoMes.Some? && d.resultadoMes.value < 0.0
    ensures CalcularFraseImpacto(v, d).impacto == Perda(-d.resultadoMes.value)
  {
  }

  /** The fallback is reached only for a score between 50 and 75. */
  lemma FallbackOnlyMidScore(v: Variante, d: Dados)
    ensures CalcularFraseImpacto(v, d).impacto.Fallback? ==> 50.0 <= d.scoreValor <= 75.0
  {
    var f := CalcularFraseImpacto(v, d);
    if f.impacto.Fallback? {
      assert !Aplica(v, Ordem[4], d);
      assert !Aplica(v, Ordem[5], d);
    }
  }

  /** On non-negative runway and margin the two copies pick the same rule; they differ
      only in that the library rounds the days it quotes. */
  lemma VariantsAgreeOnNonNegative(d: Dados)
    requires d.folegoEmDias.Some? ==> d.folegoEmDias.value >= 0.0
    requires d.margemBruta.Some? ==> d.margemBruta.value >= 0.0
    ensures RegraDe(CalcularFraseImpacto(Biblioteca, d).impacto) == RegraDe(CalcularFraseImpacto(Painel, d).impacto)
    ensures !CalcularFraseImpacto(Painel, d).impacto.CaixaZera? ==>
      CalcularFraseImpacto(Biblioteca, d) == CalcularFraseImpacto(Painel, d)
  {
  }

  /** A negative runway fires the runway rule in the library copy and is skipped by the
      dashboard copy. */
  lemma NegativeRunwaySkippedByDashboard()
    ensures var d := Dados("Loja", 60.0, None, None, Some(-3.0), None);
      CalcularFraseImpacto(Biblioteca, d).impacto == CaixaZera(-3.0) &&
      CalcularFraseImpacto(Painel, d).impacto == Fallback(60.0)
  {
    RoundOfInt(-3);
  }
}

=== FILE: indicadores.dfy ===
/** The indicator calculator of the analysis: eight indicators, the revenue trend,
    valuation by sector multiples, payback and the 0-100 health score. */
module Indicadores {
  import opened Wrappers
  import opened Numeric
  import Schemas

  // ---------- Sector multiples ----------

  /** `MULTIPLOS_SETOR`: the (min, max) profit multiples of each sector. */
  const SectorMultiples: map<string, (real, real)> := map[
    "comercio_varejo" := (1.5, 2.5), "comercio_atacado" := (1.5, 2.5),
    "servicos" := (2.0, 4.0), "industria" := (2.5, 4.5), "tecnologia" := (3.0, 6.0),
    "alimentacao" := (1.5, 3.0), "saude" := (2.5, 5.0), "educacao" := (2.0, 4.0),
    "construcao" := (1.5, 3.0), "agronegocio" := (2.0, 4.0), "transporte" := (1.5, 3.0),
    "hotelaria_turismo" := (2.0, 4.0), "imobiliario" := (2.0, 4.0), "financeiro" := (3.0, 5.0),
    "comunicacao" := (2.5, 4.5), "energia" := (3.0, 5.0), "textil" := (1.5, 3.0),
    "metalurgico" := (2.0, 3.5), "moveis" := (1.5, 3.0), "grafico" := (1.5, 3.0),
    "reciclagem" := (2.0, 4.0)]

  /** The multiples used for a sector: its table row, or 2.0/5.0 for a sector not listed. */
  function Multiples(setor: string): (m: (real, real))
    ensures setor !in SectorMultiples ==> m == (2.0, 5.0)
    ensures setor in SectorMultiples ==> m == SectorMultiples[setor]
    ensures 1.5 <= m.0 < m.1 <= 6.0
  {
    if setor in SectorMultiples then SectorMultiples[setor] else (2.0, 5.0)
  }

  /** Every sector of the schema has its own row, so the default is never used for a
      validated input. */
  lemma EverySectorHasMultiples()
    ensures forall s :: s in Schemas.Setores ==> s in SectorMultiples
  {
  }

  // ---------- Trend ----------

  datatype TrendStatus = Crescendo | Caindo | Estavel

  /** The revenue trend: the mean month-over-month variation in percent and its band. */
  datatype Trend = Trend(percent: real, status: TrendStatus)

  /** The band of a trend percentage. */
  function TrendStatusOf(p: real): (s: TrendStatus)
    ensures s == Crescendo <==> p > 5.0
    ensures s == Caindo <==> p < -5.0
    ensures s == Estavel <==> -5.0 <= p <= 5.0
  {
    if p > 5.0 then Crescendo else if p < -5.0 then Caindo else Estavel
  }

  /** The variation in percent from month `i - 1` to month `i`. */
  function Variation(rs: seq<real>, i: int): real
    requires 1 <= i < |rs| && rs[i - 1] > 0.0
  {
    (rs[i] - rs[i - 1]) / rs[i - 1] * 100.0
  }

  /** The sum and count of the variations over the pairs ending at 1..n whose earlier
      revenue is positive. */
  function VariationSum(rs: seq<real>, n: nat): real
    requires n < |rs|
  {
    if n == 0 then 0.0
    else VariationSum(rs, n - 1) + (if rs[n - 1] > 0.0 then Variation(rs, n) else 0.0)
  }

  function VariationCount(rs: seq<real>, n: nat): (c: nat)
    requires n < |rs|
    ensures c <= n
  {
    if n == 0 then 0 else VariationCount(rs, n - 1) + (if rs[n - 1] > 0.0 then 1 else 0)
  }

  /** The mean of the counted variations, or 0 when none is counted. */
  function MeanVariation(rs: seq<real>): real
    requires |rs| >= 1
  {
    var c := VariationCount(rs, |rs| - 1);
    if c > 0 then VariationSum(rs, |rs| - 1) / c as real else 0.0
  }

  /** `calcular_tendencia` over the three past months and the current one. */
  method CalcularTendencia(tresMesesAtras: real, doisMesesAtras: real, mesPassado: real, atual: real)
    returns (t: Trend)
    ensures t.percent == MeanVariation([tresMesesAtras, doisMesesAtras, mesPassado, atual])
    ensures t.status == TrendStatusOf(t.percent)
    ensures tresMesesAtras <= 0.0 && doisMesesAtras <= 0.0 && mesPassado <= 0.0 ==> t == Trend(0.0, Estavel)
  {
    var receitas := [tresMesesAtras, doisMesesAtras, mesPassado, atual];
    NoBaseNoVariation(receitas);
    var soma := 0.0;
    var quantidade := 0;
    var i := 1;
    while i < |receitas|
      invariant 1 <= i <= |receitas|
      invariant soma == VariationSum(receitas, i - 1)
      invariant quantidade == VariationCount(receitas, i - 1)
    {
      if receitas[i - 1] > 0.0 {
        soma := soma + (receitas[i] - receitas[i - 1]) / receitas[i - 1] * 100.0;
        quantidade := quantidade + 1;
      }
      i := i + 1;
    }
    var p := if quantidade > 0 then soma / quantidade as real else 0.0;
    var status := if p > 5.0 then Crescendo else if p < -5.0 then Caindo else Estavel;
    t := Trend(p, status);
  }

  /** Without a positive earlier month no variation is counted. */
  lemma {:induction false} NoBaseNoVariation(rs: seq<real>)
    requires |rs| == 4
    ensures rs[0] <= 0.0 && rs[1] <= 0.0 && rs[2] <= 0.0 ==> VariationCount(rs, 3) == 0
  {
    assert VariationCount(rs, 1) == (if rs[0] > 0.0 then 1 else 0);
    assert VariationCount(rs, 2) == VariationCount(rs, 1) + (if rs[1] > 0.0 then 1 else 0);
  }

  /** With every month positive, the trend is the plain mean of the three variations. */
  lemma AllPositiveTrend(r3: real, r2: real, r1: real, r0: real)
    requires r3 > 0.0 && r2 > 0.0 && r1 > 0.0
    ensures MeanVariation([r3, r2, r1, r0])
      == ((r2 - r3) / r3 * 100.0 + (r1 - r2) / r2 * 100.0 + (r0 - r1) / r1 * 100.0) / 3.0
  {
    var rs := [r3, r2, r1, r0];
    assert rs[0] == r3 && rs[1] == r2 && rs[2] == r1 && rs[3] == r0;
    assert VariationCount(rs, 1) == 1;
    assert VariationCount(rs, 2) == 2;
    assert VariationCount(rs, 3) == 3;
    assert VariationSum(rs, 1) == (r2 - r3) / r3 * 100.0;
    assert VariationSum(rs, 2) == (r2 - r3) / r3 * 100.0 + (r1 - r2) / r2 * 100.0;
    assert VariationSum(rs, 3) == (r2 - r3) / r3 * 100.0 + (r1 - r2) / r2 * 100.0 + (r0 - r1) / r1 * 100.0;
  }

  /** Flat positive revenue is a stable trend of 0%. */
  lemma FlatRevenueIsStable(r: real)
    requires r > 0.0
    ensures MeanVariation([r, r, r, r]) == 0.0
    ensures TrendStatusOf(MeanVariation([r, r, r, r])) == Estavel
  {
    AllPositiveTrend(r, r, r, r);
  }

  // ---------- Health score ----------

  function MarginPoints(margem: real): (p: int)
    ensures 0 <= p <= 20
  {
    if margem >= 40.0 then 20 else if margem >= 20.0 then 15 else if margem >= 0.0 then 10 else 0
  }

  function ResultPoints(resultado: real, receita: real): (p: int)
    ensures 0 <= p <= 20
  {
    if receita > 0.0 then
      if resultado / receita * 100.0 >= 10.0 then 20 else if resultado > 0.0 then 15 else 0
    else 0
  }

  function CashPoints(folego: int): (p: int)
    ensures 5 <= p <= 20
  {
    if folego >= 90 then 20 else if folego >= 60 then 15 else if folego >= 30 then 10 else 5
  }

  function BreakEvenPoints(pe: real, receita: real): (p: int)
    ensures 0 <= p <= 15
  {
    if receita > 0.0 then
      var pct := pe / receita * 100.0;
      if pct < 50.0 then 15 else if pct < 80.0 then 10 else if pct < 100.0 then 5 else 0
    else 0
  }

  function DebtPoints(peso: Option<real>): (p: int)
    ensures 0 <= p <= 10
    ensures peso.None? ==> p == 10
  {
    if peso.None? || peso.value < 20.0 then 10
    else if peso.value < 50.0 then 7 else if peso.value < 100.0 then 3 else 0
  }

  function TrendPoints(tendencia: real): (p: int)
    ensures 3 <= p <= 15
  {
    if tendencia >= 10.0 then 15 else if tendencia > 5.0 then 12 else if tendencia >= -5.0 then 8 else 3
  }

  /** `_calcular_score`: the six weighted criteria summed. */
  function Score(margem: real, resultado: real, folego: int, pe: real, receita: real,
                 peso: Option<real>, tendencia: real): (s: int)
    ensures 8 <= s <= 100
  {
    MarginPoints(margem) + ResultPoints(resultado, receita) + CashPoints(folego)
    + BreakEvenPoints(pe, receita) + DebtPoints(peso) + TrendPoints(tendencia)
  }

  /** A worst-case company scores exactly 8 and a best-case company exactly 100. */
  lemma ScoreExtremes()
    ensures Score(-10.0, -100.0, 0, 500.0, 100.0, Some(150.0), -20.0) == 8
    ensures Score(50.0, 20.0, 120, 10.0, 100.0, None, 12.0) == 100
  {
  }

  /** The score never drops when the margin, the cash runway or the trend rises. */
  lemma ScoreMonotone(margem: real, margem2: real, resultado: real, folego: int, folego2: int,
                      pe: real, receita: real, peso: Option<real>, tendencia: real, tendencia2: real)
    requires margem <= margem2 && folego <= folego2 && tendencia <= tendencia2
    ensures Score(margem, resultado, folego, pe, receita, peso, tendencia)
         <= Score(margem2, resultado, folego2, pe, receita, peso, tendencia2)
  {
  }

  /** A heavier debt never raises the score. */
  lemma ScoreDebtAntitone(margem: real, resultado: real, folego: int, pe: real, receita: real,
                          peso: real, peso2: real, tendencia: real)
    requires peso <= peso2
    ensures Score(margem, resultado, folego, pe, receita, Some(peso2), tendencia)
         <= Score(margem, resultado, folego, pe, receita, Some(peso), tendencia)
    ensures Score(margem, resultado, folego, pe, receita, Some(peso), tendencia)
         <= Score(margem, resultado, folego, pe, receita, None, tendencia)
  {
  }

  // ---------- Indicators ----------

  datatype PaybackBand = Excelente | Bom | NaMedia | LongoPrazo

  /** The payback block: return in years, split in whole years and months, the percentage
      of the five-year goal and the band of the interpretive phrase. */
  datatype Payback = Payback(retorno: real, anos: int, meses: int, percentualMeta: real, faixa: PaybackBand)

  /** `IndicadoresCalculados` with the 2-decimal rounding of the outputs left out. */
  datatype Indicators = Indicators(
    margemBruta: real,
    resultadoMes: real,
    folegoCaixa: int,
    pontoEquilibrio: real,
    cicloFinanceiro: Option<int>,
    capitalMinimo: real,
    receitaFuncionario: Option<real>,
    pesoDivida: Option<real>,
    valorEmpresaMin: Option<real>,
    valorEmpresaMax: Option<real>,
    multiplos: (real, real),
    payback: Option<Payback>,
    tendencia: Trend,
    scoreSaude: int)

  /** The amount behind a flag: its value when the flag is set, otherwise 0. */
  function FlaggedAmount(flag: bool, v: Option<real>): (a: real)
    requires flag ==> v.Some?
    ensures !flag ==> a == 0.0
    ensures flag ==> a == v.value
  {
    if flag then v.value else 0.0
  }

  /** Python truthiness on an optional number: 0 and None both read as absent. */
  function NonZero(x: Option<real>): (r: Option<real>)
    ensures r.Some? <==> x.Some? && x.value != 0.0
    ensures r.Some? ==> r == x
  {
    if x.Some? && x.value != 0.0 then x else None
  }

  function GrossMargin(receita: real, custo: real): real {
    if receita > 0.0 then (receita - custo) / receita * 100.0 else 0.0
  }

  /** Cash runway in days: cash over the daily expense, or over 1 when there are none. */
  function CashRunway(caixa: real, despesas: real): (d: int)
    requires caixa >= 0.0
    ensures d >= 0
    ensures despesas > 0.0 ==> d as real <= caixa / (despesas / 30.0) < d as real + 1.0
    ensures despesas <= 0.0 ==> d as real <= caixa < d as real + 1.0
  {
    var diaria := if despesas > 0.0 then despesas / 30.0 else 1.0;
    TruncBounds(caixa / diaria);
    Trunc(caixa / diaria)
  }

  function BreakEven(margem: real, despesas: real): real {
    var contribuicao := if margem > 0.0 then margem / 100.0 else 0.01;
    despesas / contribuicao
  }

  /** The financial cycle in days (receivables plus stock minus payables), truncated. */
  function Cycle(receita: real, custo: real, receber: real, estoque: real, pagar: real): int {
    var receitaDiaria := if receita > 0.0 then receita / 30.0 else 1.0;
    var custoDiario := if custo > 0.0 then custo / 30.0 else 1.0;
    Trunc(receber / receitaDiaria + estoque / custoDiario - pagar / custoDiario)
  }

  function BandOf(retorno: real): PaybackBand {
    if retorno <= 2.0 then Excelente else if retorno <= 3.5 then Bom
    else if retorno <= 5.0 then NaMedia else LongoPrazo
  }

  /** Payback from the mean valuation: years to recover the mean value out of the annual profit. */
  function PaybackOf(lucroAnual: real, valorMin: real, valorMax: real): (p: Payback)
    requires lucroAnual > 0.0 && valorMin > 0.0 && valorMax > 0.0
    ensures p.retorno > 0.0 && p.anos >= 0
    ensures 0 <= p.meses <= 11
    ensures p.anos as real <= p.retorno < p.anos as real + 1.0
    ensures 0.0 < p.percentualMeta <= 100.0
    ensures p.percentualMeta == 100.0 <==> p.retorno <= 5.0
  {
    var retorno := (valorMin + valorMax) / 2.0 / lucroAnual;
    var anos := Trunc(retorno);
    TruncBounds(retorno);
    var fracao := (retorno - anos as real) * 12.0;
    TruncBounds(fracao);
    var meses := Trunc(fracao);
    var meta := Min(5.0 / retorno * 100.0, 100.0);
    Payback(retorno, anos, meses, meta, BandOf(retorno))
  }

  /** Debt weight in percent of annual revenue, present only for a positive flagged debt. */
  function DebtWeight(temDividas: bool, dividas: real, receita: real): (p: Option<real>)
    ensures p.Some? <==> temDividas && dividas > 0.0
    ensures p.Some? && receita > 0.0 ==> p.value > 0.0
    ensures p.Some? && receita <= 0.0 ==> p.value == 0.0
  {
    if temDividas && dividas > 0.0 then
      var receitaAnual := receita * 12.0;
      Some(if receitaAnual > 0.0 then dividas / receitaAnual * 100.0 else 0.0)
    else None
  }

  /** The valuation range: profit times the sector multiples, only for a positive profit. */
  function Valuation(lucroAnual: real, multiplos: (real, real)): (v: (Option<real>, Option<real>))
    requires 0.0 < multiplos.0 < multiplos.1
    ensures v.0.Some? <==> lucroAnual > 0.0
    ensures v.1.Some? <==> lucroAnual > 0.0
    ensures v.0.Some? ==> 0.0 < v.0.value < v.1.value
  {
    if lucroAnual > 0.0 then (Some(lucroAnual * multiplos.0), Some(lucroAnual * multiplos.1))
    else (None, None)
  }

  /** The payback block, present exactly when both valuation bounds are and the profit is positive. */
  function PaybackBlock(lucroAnual: real, valor: (Option<real>, Option<real>)): (p: Option<Payback>)
    requires valor.0.Some? ==> valor.0.value > 0.0
    requires valor.1.Some? ==> valor.1.value > 0.0
    ensures p.Some? <==> valor.0.Some? && valor.1.Some? && lucroAnual > 0.0
    ensures p.Some? ==> p.value.retorno == (valor.0.value + valor.1.value) / 2.0 / lucroAnual
  {
    if valor.0.Some? && valor.1.Some? && lucroAnual > 0.0
    then Some(PaybackOf(lucroAnual, valor.0.value, valor.1.value)) else None
  }

  /** The financial cycle, present only for a positive flagged stock. */
  function CycleBlock(temEstoque: bool, estoque: real, receita: real, custo: real, receber: real, pagar: real)
    : (c: Option<int>)
    ensures c.Some? <==> temEstoque && estoque > 0.0
  {
    if temEstoque && estoque > 0.0 then Some(Cycle(receita, custo, receber, estoque, pagar)) else None
  }

  /** `calcular_indicadores` on an input whose flagged amounts are present. */
  method CalcularIndicadores(d: Schemas.AnaliseInput) returns (ind: Indicators)
    requires (d.temEstoque ==> d.estoque.Some?) && (d.temDividas ==> d.dividasTotais.Some?)
    requires d.caixaBancos >= 0.0
    ensures ind.cicloFinanceiro.Some? <==> d.temEstoque && d.estoque.value > 0.0
    ensures ind.capitalMinimo == d.contasReceber + FlaggedAmount(d.temEstoque, d.estoque) - d.contasPagar
    ensures ind.pesoDivida.Some? <==> d.temDividas && d.dividasTotais.value > 0.0 && d.receitaAtual > 0.0
    ensures ind.receitaFuncionario.Some? <==> d.numFuncionarios >= 1 && d.receitaAtual != 0.0
    ensures ind.resultadoMes == d.receitaAtual - d.custoVendas - d.despesasFixas
    ensures ind.folegoCaixa >= 0
    ensures ind.multiplos == Multiples(d.setor)
    ensures ind.valorEmpresaMin.Some? <==> ind.resultadoMes > 0.0
    ensures ind.valorEmpresaMin.Some? ==> ind.valorEmpresaMax.Some? && 0.0 < ind.valorEmpresaMin.value < ind.valorEmpresaMax.value
    ensures ind.payback.Some? <==> ind.resultadoMes > 0.0
    ensures ind.payback.Some? ==> ind.payback.value.retorno == (ind.multiplos.0 + ind.multiplos.1) / 2.0
    ensures 8 <= ind.scoreSaude <= 100
    ensures ind.tendencia.status == TrendStatusOf(ind.tendencia.percent)
  {
    var receita := d.receitaAtual;
    var estoque := FlaggedAmount(d.temEstoque, d.estoque);
    var dividas := FlaggedAmount(d.temDividas, d.dividasTotais);

    var margem := GrossMargin(receita, d.custoVendas);
    var resultado := receita - d.custoVendas - d.despesasFixas;
    var folego := CashRunway(d.caixaBancos, d.despesasFixas);
    var pe := BreakEven(margem, d.despesasFixas);
    var ciclo := CycleBlock(d.temEstoque, estoque, receita, d.custoVendas, d.contasReceber, d.contasPagar);
    var porFuncionario: Option<real> := if d.numFuncionarios >= 1
      then Some(receita / d.numFuncionarios as real) else None;
    var peso := DebtWeight(d.temDividas, dividas, receita);

    var lucroAnual := resultado * 12.0;
    var multiplos := Multiples(d.setor);
    var valor := Valuation(lucroAnual, multiplos);
    var payback := PaybackBlock(lucroAnual, valor);
    if lucroAnual > 0.0 {
      PaybackIsMeanMultiple(lucroAnual, multiplos);
    }

    var tendencia := CalcularTendencia(d.historico.tresMesesAtras, d.historico.doisMesesAtras,
                                       d.historico.mesPassado, receita);
    var score := Score(margem, resultado, folego, pe, receita, peso, tendencia.percent);
    ind := Indicators(margem, resultado, folego, pe, ciclo, d.contasReceber + estoque - d.contasPagar,
                      NonZero(porFuncionario), NonZero(peso), valor.0, valor.1, multiplos, payback,
                      tendencia, score);
  }

  /** The payback depends on the sector alone: the mean of its two multiples, whatever the profit. */
  lemma PaybackIsMeanMultiple(lucroAnual: real, multiplos: (real, real))
    requires lucroAnual > 0.0 && 0.0 < multiplos.0 < multiplos.1
    ensures PaybackBlock(lucroAnual, Valuation(lucroAnual, multiplos)).Some?
    ensures PaybackBlock(lucroAnual, Valuation(lucroAnual, multiplos)).value.retorno
         == (multiplos.0 + multiplos.1) / 2.0
  {
    var v := Valuation(lucroAnual, multiplos);
    var media := (multiplos.0 + multiplos.1) / 2.0;
    assert (v.0.value + v.1.value) / 2.0 == lucroAnual * media;
    assert lucroAnual * media / lucroAnual == media;
  }

  /** Retail's multiples (1.5x-2.5x) give a 2-year payback in the top band. */
  lemma RetailPayback(lucroAnual: real)
    requires lucroAnual > 0.0
    ensures PaybackOf(lucroAnual, lucroAnual * 1.5, lucroAnual * 2.5) == Payback(2.0, 2, 0, 100.0, Excelente)
  {
    var r := (lucroAnual * 1.5 + lucroAnual * 2.5) / 2.0 / lucroAnual;
    assert (lucroAnual * 1.5 + lucroAnual * 2.5) / 2.0 == 2.0 * lucroAnual;
    assert r == 2.0;
    assert Trunc(2.0) == 2;
    assert Trunc(0.0) == 0;
    assert Min(5.0 / 2.0 * 100.0, 100.0) == 100.0;
  }
}

=== FILE: money_input.dfy ===
/** The digits-to-cents money parser shared by the currency inputs of both wizards. */
module MoneyInput {
  import opened Wrappers

  predicate IsDigit(c: char) {
    '0' <= c <= '9'
  }

  predicate AllDigits(s: string) {
    forall i :: 0 <= i < |s| ==> IsDigit(s[i])
  }

  function DigitValue(c: char): (d: nat)
    requires IsDigit(c)
    ensures d < 10
  {
    c as int - '0' as int
  }

  function DigitChar(d: nat): (c: char)
    requires d < 10
    ensures IsDigit(c) && DigitValue(c) == d
  {
    ('0' as int + d) as char
  }

  /** The input with every non-digit removed: `value.replace(/\D/g, "")`. */
  function Digits(s: string): (r: string)
    ensures AllDigits(r)
    ensures |r| <= |s|
  {
    if s == [] then []
    else Digits(s[..|s| - 1]) + (if IsDigit(s[|s| - 1]) then [s[|s| - 1]] else [])
  }

  /** The number a string of decimal digits denotes, most significant digit first. */
  function DecimalValue(s: string): nat
    requires AllDigits(s)
  {
    if s == [] then 0 else 10 * DecimalValue(s[..|s| - 1]) + DigitValue(s[|s| - 1])
  }

  /** `parseInt` on a string of digits: no number (NaN) for the empty string. */
  function ParseInt(raw: string): (r: Option<nat>)
    requires AllDigits(raw)
    ensures r.None? <==> raw == []
  {
    if raw == [] then None else Some(DecimalValue(raw))
  }

  /** `parseInt(raw) / 100 || 0`: the amount in reais typed as cents; NaN falls back to 0. */
  function Amount(entrada: string): (v: real)
    ensures v >= 0.0
    ensures Digits(entrada) == [] ==> v == 0.0
    ensures (v * 100.0).Floor as real == v * 100.0
  {
    match ParseInt(Digits(entrada))
    case None => 0.0
    case Some(n) => n as real / 100.0
  }

  /** What the text box shows: a pt-BR formatted amount, or the empty string. */
  datatype Display = Empty | Formatted(amount: real)

  /** `valor > 0 ? valor.toLocaleString(...) : ""`; the locale formatting itself is abstract. */
  function DisplayOf(valor: real): (d: Display)
    ensures d.Empty? <==> valor <= 0.0
    ensures d.Formatted? ==> d.amount == valor
  {
    if valor > 0.0 then Formatted(valor) else Empty
  }

  /** The decimal numeral of n, most significant digit first, without leading zeros. */
  function Decimal(n: nat): (s: string)
    ensures AllDigits(s) && s != []
  {
    if n < 10 then [DigitChar(n)] else Decimal(n / 10) + [DigitChar(n % 10)]
  }

  /** The outcome of one keystroke in a currency input. */
  datatype Change = Change(valor: real, display: Display)

  /** `InputMonetario.handleChange` / `PassoCapital.handleChange`: parse, then redisplay. */
  function HandleChange(entrada: string): (c: Change)
    ensures c.valor >= 0.0
    ensures c.display.Empty? <==> c.valor == 0.0
  {
    var numero := Amount(entrada);
    Change(numero, DisplayOf(numero))
  }

  lemma {:induction false} DigitsOfDigits(s: string)
    requires AllDigits(s)
    ensures Digits(s) == s
  {
    if s != [] {
      DigitsOfDigits(s[..|s| - 1]);
      assert s == s[..|s| - 1] + [s[|s| - 1]];
    }
  }

  lemma {:induction false} DigitsAppend(s: string, t: string)
    ensures Digits(s + t) == Digits(s) + Digits(t)
    decreases |t|
  {
    if t == [] {
      assert s + t == s;
    } else {
      var t' := t[..|t| - 1];
      assert (s + t)[..|s + t| - 1] == s + t';
      assert (s + t)[|s + t| - 1] == t[|t| - 1];
      DigitsAppend(s, t');
    }
  }

  lemma {:induction false} DecimalValueOfDecimal(n: nat)
    ensures DecimalValue(Decimal(n)) == n
  {
    if n >= 10 {
      var s := Decimal(n);
      assert s[..|s| - 1] == Decimal(n / 10);
      DecimalValueOfDecimal(n / 10);
    }
  }

  /** Round trip: typing the cents n as a numeral makes the input hold n/100 reais. */
  lemma {:induction false} AmountOfDecimal(n: nat)
    ensures Amount(Decimal(n)) == n as real / 100.0
  {
    DigitsOfDigits(Decimal(n));
    DecimalValueOfDecimal(n);
  }

  /** A typed non-digit character (a dot, a comma, "R$") never changes the amount. */
  lemma {:induction false} AmountIgnoresNonDigit(entrada: string, c: char)
    requires !IsDigit(c)
    ensures Amount(entrada + [c]) == Amount(entrada)
    ensures Amount([c] + entrada) == Amount(entrada)
  {
    DigitsAppend(entrada, [c]);
    DigitsAppend([c], entrada);
    assert Digits([c]) == [] by {
      assert [c][..0] == [];
    }
    assert Digits(entrada) + [] == Digits(entrada);
    assert [] + Digits(entrada) == Digits(entrada);
  }

  /** Typing one more digit shifts the cents left and adds that digit. */
  lemma {:induction false} AmountAppendDigit(entrada: string, c: char)
    requires IsDigit(c)
    ensures Amount(entrada + [c]) * 100.0 == Amount(entrada) * 1000.0 + DigitValue(c) as real
  {
    DigitsAppend(entrada, [c]);
    assert Digits([c]) == [c] by {
      assert [c][..0] == [];
    }
    var d := Digits(entrada) + [c];
    assert d[..|d| - 1] == Digits(entrada);
    assert DecimalValue(d) == 10 * DecimalValue(Digits(entrada)) + DigitValue(c);
    if Digits(entrada) == [] {
      assert Amount(entrada) == 0.0;
    } else {
      assert Amount(entrada) == DecimalValue(Digits(entrada)) as real / 100.0;
    }
    assert Amount(entrada + [c]) == DecimalValue(d) as real / 100.0;
  }
}

=== FILE: numeric.dfy ===
/** The numeric primitives of the two runtimes, stated over exact reals. */
module Numeric {

  /** JavaScript's `Math.round`: the nearest integer, halves rounded towards +infinity. */
  function Round(x: real): int {
    (x + 0.5).Floor
  }

  /** Python's `int()` on a float: truncation towards zero. */
  function Trunc(x: real): int {
    if x >= 0.0 then x.Floor else -((-x).Floor)
  }

  function Abs(x: real): real {
    if x < 0.0 then -x else x
  }

  function Min(a: real, b: real): real {
    if a <= b then a else b
  }

  function Max(a: real, b: real): real {
    if a >= b then a else b
  }

  lemma RoundBounds(x: real)
    ensures x - 0.5 < Round(x) as real <= x + 0.5
  {
  }

  lemma RoundMonotone(x: real, y: real)
    requires x <= y
    ensures Round(x) <= Round(y)
  {
  }

  lemma RoundOfInt(n: int)
    ensures Round(n as real) == n
  {
  }

  /** Shifting the argument by an integer shifts the rounded value by the same integer. */
  lemma RoundShift(x: real, n: int)
    ensures Round(x + n as real) == Round(x) + n
  {
  }

  /** Python's built-in `round(x)`: the nearest integer, halves rounded to the even neighbour. */
  function RoundHalfEven(x: real): int {
    var f := x.Floor;
    var d := x - f as real;
    if d < 0.5 then f else if d > 0.5 then f + 1 else if f % 2 == 0 then f else f + 1
  }

  /** Python's `round` and JavaScript's `Math.round` disagree only on halves with an even floor. */
  lemma RoundingsAgreeOffHalves(x: real)
    ensures x - x.Floor as real != 0.5 ==> RoundHalfEven(x) == Round(x)
    ensures x - x.Floor as real == 0.5 && x.Floor % 2 == 0 ==> RoundHalfEven(x) == Round(x) - 1
  {
  }

  /** Python's `round` reaches an even threshold n from n - 0.5 on, and an odd one only
      past n - 0.5 (the half rounds down to the even n - 1). */
  lemma RoundHalfEvenThreshold(x: real, n: int)
    ensures n % 2 == 0 ==> (RoundHalfEven(x) >= n <==> x >= n as real - 0.5)
    ensures n % 2 == 1 ==> (RoundHalfEven(x) >= n <==> x > n as real - 0.5)
  {
  }

  /** Scaling by a non-negative factor keeps an order; by a positive one, a strict order. */
  lemma ScaleLe(a: real, b: real, k: real)
    requires a <= b && k >= 0.0
    ensures a * k <= b * k
  {
  }

  lemma ScaleLt(a: real, b: real, k: real)
    requires a < b && k > 0.0
    ensures a * k < b * k
  {
  }

  /** A share of a positive whole lies between 0 and 1. */
  lemma UnitShare(v: real, m: real)
    requires m > 0.0 && 0.0 <= v <= m
    ensures 0.0 <= v / m <= 1.0
  {
    var q := v / m;
    assert q * m == v;
    if q > 1.0 {
      ScaleLt(1.0, q, m);
      assert false;
    }
    if q < 0.0 {
      ScaleLt(q, 0.0, m);
      assert false;
    }
  }

  /** A quotient of a positive divisor is at least 1 when the dividend is at least the divisor. */
  lemma RatioAtLeastOne(a: real, b: real)
    requires b > 0.0 && a >= b
    ensures a / b >= 1.0
  {
    var q := a / b;
    assert q * b == a;
    if q < 1.0 {
      ScaleLt(q, 1.0, b);
      assert false;
    }
  }

  /** An amount over a monthly burn read per day, `c / (d / 30)`, times the burn is 30 times
      the amount. */
  lemma PerDay(c: real, d: real)
    requires d > 0.0
    ensures c / (d / 30.0) * d == 30.0 * c
  {
    var y := d / 30.0;
    var x := c / y;
    assert x * y == c;
    assert d == 30.0 * y;
    assert x * d == 30.0 * (x * y);
  }

  lemma TruncBounds(x: real)
    requires x >= 0.0
    ensures 0 <= Trunc(x) && Trunc(x) as real <= x < Trunc(x) as real + 1.0
  {
  }
}

=== FILE: pre_abertura_service.dfy ===
/** The pre-opening analysis: recommended capital, the capital and revenue comparisons,
    the three alert evaluators with the one-per-category selection, and the 30-day checklist. */
module PreAberturaService {
  import opened Wrappers
  import opened Numeric
  import Calendar
  import Schemas
  import PreAberturaWizard

  // ---------- Sector benchmarks ----------

  /** Capital base, monthly revenue reference, gross-margin range and its midpoint. */
  datatype SectorBenchmark = SectorBenchmark(capitalBase: real, faturamentoRef: real, margemFaixa: string, margemPontoMedio: int)

  const SectorBenchmarks: map<string, SectorBenchmark> := map[
    "comercio_varejo" := SectorBenchmark(25000.0, 15000.0, "25-35%", 30),
    "comercio_atacado" := SectorBenchmark(40000.0, 30000.0, "15-25%", 20),
    "servicos" := SectorBenchmark(15000.0, 10000.0, "45-55%", 50),
    "industria" := SectorBenchmark(50000.0, 25000.0, "20-30%", 25),
    "tecnologia" := SectorBenchmark(20000.0, 12000.0, "55-65%", 60),
    "alimentacao" := SectorBenchmark(30000.0, 18000.0, "30-40%", 35),
    "saude" := SectorBenchmark(25000.0, 15000.0, "40-50%", 45),
    "educacao" := SectorBenchmark(18000.0, 10000.0, "45-55%", 50),
    "construcao" := SectorBenchmark(45000.0, 25000.0, "20-30%", 25),
    "agronegocio" := SectorBenchmark(35000.0, 20000.0, "25-35%", 30),
    "transporte" := SectorBenchmark(30000.0, 18000.0, "30-40%", 35),
    "hotelaria_turismo" := SectorBenchmark(35000.0, 20000.0, "35-45%", 40),
    "imobiliario" := SectorBenchmark(20000.0, 12000.0, "40-50%", 45),
    "financeiro" := SectorBenchmark(25000.0, 15000.0, "50-60%", 55),
    "comunicacao" := SectorBenchmark(15000.0, 10000.0, "50-60%", 55),
    "energia" := SectorBenchmark(40000.0, 22000.0, "30-40%", 35),
    "textil" := SectorBenchmark(30000.0, 18000.0, "30-40%", 35),
    "metalurgico" := SectorBenchmark(45000.0, 25000.0, "20-30%", 25),
    "moveis" := SectorBenchmark(35000.0, 20000.0, "30-40%", 35),
    "grafico" := SectorBenchmark(25000.0, 12000.0, "35-45%", 40),
    "reciclagem" := SectorBenchmark(30000.0, 15000.0, "35-45%", 40)]

  /** Every validated sector has its own benchmark, so the fallbacks below never apply to
      an accepted request. */
  lemma EverySectorBenchmarked()
    ensures forall s :: s in Schemas.Setores ==> s in SectorBenchmarks
  {
  }

  /** The sector's capital base and margin range, 25 000 and "30-40%" when absent. */
  function CapitalBase(setor: string): (b: real)
    ensures b >= 15000.0
    ensures setor !in SectorBenchmarks ==> b == 25000.0
  {
    if setor in SectorBenchmarks then SectorBenchmarks[setor].capitalBase else 25000.0
  }

  function MarginRange(setor: string): string {
    if setor in SectorBenchmarks then SectorBenchmarks[setor].margemFaixa else "30-40%"
  }

  /** The sector's revenue reference, 15 000 when absent. */
  function RevenueReference(setor: string): (f: real)
    ensures f >= 10000.0
  {
    if setor in SectorBenchmarks then SectorBenchmarks[setor].faturamentoRef else 15000.0
  }

  /** The midpoint of the sector's margin range, 40 when absent. */
  function MarginMidpoint(setor: string): int {
    if setor in SectorBenchmarks then SectorBenchmarks[setor].margemPontoMedio else 40
  }

  const LightServiceSectors: set<string> := {"servicos", "comunicacao", "educacao", "tecnologia"}
  const LabourIntensiveSectors: set<string> := {"alimentacao", "hotelaria_turismo", "saude"}

  /** `get_custo_funcionario`: 6 000 for light services, 10 000 for labour-intensive
      sectors, 8 000 for the rest. */
  function CustoFuncionario(setor: string): (c: real)
    ensures setor in LightServiceSectors ==> c == 6000.0
    ensures setor in LabourIntensiveSectors ==> c == 10000.0
    ensures setor !in LightServiceSectors + LabourIntensiveSectors ==> c == 8000.0
  {
    if setor in LightServiceSectors then 6000.0
    else if setor in LabourIntensiveSectors then 10000.0
    else 8000.0
  }

  const QuantidadePorFaixa: map<string, real> := map["1-2" := 1.5, "3-5" := 4.0, "6-10" := 8.0, "10+" := 12.0]

  /** The head counts of the service agree with the form's employee bands. */
  lemma BandQuantitiesAgree()
    ensures QuantidadePorFaixa == PreAberturaWizard.BandHeadCount
    ensures QuantidadePorFaixa.Keys == Schemas.Faixas
  {
  }

  /** `get_quantidade_funcionarios`: 0 for no band or an unknown band. */
  function QuantidadeFuncionarios(faixa: Option<string>): (q: real)
    ensures faixa.None? ==> q == 0.0
    ensures faixa.Some? && faixa.value in QuantidadePorFaixa ==> q == QuantidadePorFaixa[faixa.value]
    ensures 0.0 <= q <= 12.0
  {
    match faixa
    case None => 0.0
    case Some(f) => if f in QuantidadePorFaixa then QuantidadePorFaixa[f] else 0.0
  }

  // ---------- Recommended capital ----------

  /** `CalculosPreAbertura`: the components of the recommended capital. */
  datatype Calculos = Calculos(
    capitalBaseSetor: real,
    custoPorFuncionario: real,
    quantidadeFuncionarios: real,
    adicionalFuncionarios: real,
    adicionalEstoque: real,
    adicionalPressa: real,
    adicionalTechProduto: real,
    margemSetor: string)

  /** Python truthiness of the optional stock answer. */
  predicate HasStock(d: Schemas.PreAberturaInput) {
    d.temEstoque == Some(true)
  }

  predicate IsTechProduct(d: Schemas.PreAberturaInput) {
    d.setor == "tecnologia" && d.tipoNegocio == "produto"
  }

  /** `calcular_meses_ate_abertura` with today's month passed in. */
  function MesesAteAbertura(d: Schemas.PreAberturaInput, hoje: Calendar.MonthYear): (m: int)
    requires 1 <= d.mesAbertura <= 12 && Calendar.ValidMonth(hoje)
    ensures m >= 0
  {
    Calendar.MonthsUntilOpening(Calendar.MonthYear(d.mesAbertura, d.anoAbertura), hoje)
  }

  /** `calcular_capital_recomendado`: the sector base, plus employees, then +20% for stock,
      then +15% when opening within three months, then +75% of the base for a technology
      product. */
  function CalcularCapitalRecomendado(d: Schemas.PreAberturaInput, hoje: Calendar.MonthYear): (c: Calculos)
    requires 1 <= d.mesAbertura <= 12 && Calendar.ValidMonth(hoje)
    ensures c.capitalBaseSetor == CapitalBase(d.setor)
    ensures !d.temFuncionarios ==> c.quantidadeFuncionarios == 0.0 && c.adicionalFuncionarios == 0.0
    ensures c.custoPorFuncionario == CustoFuncionario(d.setor)
    ensures c.quantidadeFuncionarios == (if d.temFuncionarios then QuantidadeFuncionarios(d.faixaFuncionarios) else 0.0)
    ensures c.adicionalFuncionarios == c.quantidadeFuncionarios * c.custoPorFuncionario
    ensures c.adicionalEstoque == (if d.tipoNegocio == "produto" && HasStock(d) then 0.2 * (c.capitalBaseSetor + c.adicionalFuncionarios) else 0.0)
    ensures c.adicionalPressa == (if MesesAteAbertura(d, hoje) < 3 then 0.15 * (c.capitalBaseSetor + c.adicionalFuncionarios + c.adicionalEstoque) else 0.0)
    ensures c.adicionalEstoque > 0.0 <==> d.tipoNegocio == "produto" && HasStock(d)
    ensures c.adicionalPressa > 0.0 <==> MesesAteAbertura(d, hoje) < 3
    ensures c.adicionalTechProduto == (if IsTechProduct(d) then 0.75 * c.capitalBaseSetor else 0.0)
    ensures c.adicionalFuncionarios >= 0.0 && c.adicionalEstoque >= 0.0 && c.adicionalPressa >= 0.0 && c.adicionalTechProduto >= 0.0
  {
    var base := CapitalBase(d.setor);
    var custo := CustoFuncionario(d.setor);
    var qtd := if d.temFuncionarios then QuantidadeFuncionarios(d.faixaFuncionarios) else 0.0;
    var adicionalFunc := qtd * custo;
    ScaleLe(0.0, qtd, custo);
    assert adicionalFunc >= 0.0;
    var subtotal := base + adicionalFunc;
    var estoque := if d.tipoNegocio == "produto" && HasStock(d) then subtotal * 0.20 else 0.0;
    var subtotal2 := subtotal + estoque;
    var pressa := if MesesAteAbertura(d, hoje) < 3 then subtotal2 * 0.15 else 0.0;
    var tech := if IsTechProduct(d) then base * 0.75 else 0.0;
    Calculos(base, custo, qtd, adicionalFunc, estoque, pressa, tech, MarginRange(d.setor))
  }

  /** The recommended capital: the sum of the five components. */
  function Recommended(c: Calculos): real {
    c.capitalBaseSetor + c.adicionalFuncionarios + c.adicionalEstoque + c.adicionalPressa + c.adicionalTechProduto
  }

  /** The recommendation never falls below the sector's base, and each add-on only raises it. */
  lemma RecommendedAtLeastBase(d: Schemas.PreAberturaInput, hoje: Calendar.MonthYear)
    requires 1 <= d.mesAbertura <= 12 && Calendar.ValidMonth(hoje)
    ensures Recommended(CalcularCapitalRecomendado(d, hoje)) >= CapitalBase(d.setor) >= 15000.0
    ensures IsTechProduct(d) ==> Recommended(CalcularCapitalRecomendado(d, hoje)) >= 1.75 * CapitalBase(d.setor)
  {
  }

  /** The docstring's reading of the formula: the stock and rush add-ons compound as factors
      1.20 and 1.15 on the base plus the employees, and the technology add-on is added
      on top. */
  lemma RecommendedCompounds(d: Schemas.PreAberturaInput, hoje: Calendar.MonthYear)
    requires 1 <= d.mesAbertura <= 12 && Calendar.ValidMonth(hoje)
    ensures var c := CalcularCapitalRecomendado(d, hoje);
      var estoque := if d.tipoNegocio == "produto" && HasStock(d) then 1.2 else 1.0;
      var pressa := if MesesAteAbertura(d, hoje) < 3 then 1.15 else 1.0;
      Recommended(c) == estoque * pressa * (c.capitalBaseSetor + c.adicionalFuncionarios) + c.adicionalTechProduto
  {
    var c := CalcularCapitalRecomendado(d, hoje);
    var sub := c.capitalBaseSetor + c.adicionalFuncionarios;
    if d.tipoNegocio == "produto" && HasStock(d) {
      assert c.adicionalEstoque == 0.2 * sub;
      if MesesAteAbertura(d, hoje) < 3 {
        assert c.adicionalPressa == 0.15 * (1.2 * sub);
        assert 1.2 * 1.15 * sub == 1.2 * sub + 0.15 * (1.2 * sub);
      }
    } else if MesesAteAbertura(d, hoje) < 3 {
      assert c.adicionalPressa == 0.15 * sub;
    }
  }

  /** A service business with no employees opening in three months or more needs exactly
      the sector base. */
  lemma LeanServiceNeedsBase(d: Schemas.PreAberturaInput, hoje: Calendar.MonthYear)
    requires 1 <= d.mesAbertura <= 12 && Calendar.ValidMonth(hoje)
    requires d.tipoNegocio == "servico" && !d.temFuncionarios && MesesAteAbertura(d, hoje) >= 3
    ensures Recommended(CalcularCapitalRecomendado(d, hoje)) == CapitalBase(d.setor)
  {
  }

  // ---------- Comparisons ----------

  datatype CapitalStatus = Acima | Adequado | Abaixo | MuitoAbaixo

  datatype ComparativoCapital = ComparativoCapital(capitalInformado: real, capitalRecomendado: real, diferencaPercentual: real, status: CapitalStatus)

  /** The capital bands of a percentage difference. */
  function CapitalStatusOf(diferenca: real): (s: CapitalStatus)
    ensures s == Acima <==> diferenca >= 0.0
    ensures s == Adequado <==> -20.0 <= diferenca < 0.0
    ensures s == Abaixo <==> -50.0 <= diferenca < -20.0
    ensures s == MuitoAbaixo <==> diferenca < -50.0
  {
    if diferenca >= 0.0 then Acima else if diferenca >= -20.0 then Adequado
    else if diferenca >= -50.0 then Abaixo else MuitoAbaixo
  }

  /** The exact percentage difference of the available capital against the recommendation,
      zero when there is nothing to compare with. */
  function CapitalDifference(informado: real, c: Calculos): (d: real)
    ensures Recommended(c) > 0.0 ==> d * Recommended(c) == (informado - Recommended(c)) * 100.0
    ensures Recommended(c) <= 0.0 ==> d == 0.0
  {
    var rec := Recommended(c);
    if rec > 0.0 then (informado - rec) / rec * 100.0 else 0.0
  }

  /** `calcular_comparativo_capital`: the band of the available capital against the
      recommendation, taken from the exact difference, while the difference is reported
      rounded to one decimal place. */
  function CompararCapital(informado: real, c: Calculos): (r: ComparativoCapital)
    ensures r.capitalInformado == informado && r.capitalRecomendado == Recommended(c)
    ensures Recommended(c) <= 0.0 ==> r.status == Acima && r.diferencaPercentual == 0.0
    ensures Recommended(c) > 0.0 ==> r.status == CapitalStatusOf((informado - Recommended(c)) / Recommended(c) * 100.0)
    ensures Recommended(c) > 0.0 ==> r.diferencaPercentual == RoundTenths((informado - Recommended(c)) / Recommended(c) * 100.0)
  {
    var diferenca := CapitalDifference(informado, c);
    ComparativoCapital(informado, Recommended(c), RoundTenths(diferenca), CapitalStatusOf(diferenca))
  }

  /** The reported capital difference is the exact one rounded: for 10 000 against a
      recommendation of 30 000 it is -66.7, while the band is read from -66.66…. */
  lemma CapitalDifferenceRounded()
    ensures CompararCapital(10000.0, Calculos(30000.0, 0.0, 0.0, 0.0, 0.0, 0.0, 0.0, "")).diferencaPercentual == -66.7
    ensures CompararCapital(10000.0, Calculos(30000.0, 0.0, 0.0, 0.0, 0.0, 0.0, 0.0, "")).status == MuitoAbaixo
  {
    var c := Calculos(30000.0, 0.0, 0.0, 0.0, 0.0, 0.0, 0.0, "");
    assert Recommended(c) == 30000.0;
    assert (10000.0 - 30000.0) / 30000.0 * 100.0 * 10.0 == -2000.0 / 3.0;
    RoundHalfEvenThreshold(-2000.0 / 3.0, -667);
    RoundHalfEvenThreshold(-2000.0 / 3.0, -666);
    assert RoundHalfEven(-2000.0 / 3.0) == -667;
  }

  /** The capital bands restated on the amounts: at least the recommendation, at least 80%,
      at least 50%, or under half of it. */
  lemma CapitalBandsOnAmounts(informado: real, c: Calculos)
    requires Recommended(c) > 0.0
    ensures CompararCapital(informado, c).status == Acima <==> informado >= Recommended(c)
    ensures CompararCapital(informado, c).status == Adequado <==> 0.8 * Recommended(c) <= informado < Recommended(c)
    ensures CompararCapital(informado, c).status == Abaixo <==> 0.5 * Recommended(c) <= informado < 0.8 * Recommended(c)
    ensures CompararCapital(informado, c).status == MuitoAbaixo <==> informado < 0.5 * Recommended(c)
  {
    var rec := Recommended(c);
    var d := CapitalDifference(informado, c);
    assert d * rec == (informado - rec) * 100.0;
    PercentBand(d, rec, informado, 0.0);
    PercentBand(d, rec, informado, -20.0);
    PercentBand(d, rec, informado, -50.0);
  }

  /** Multiplying out a percentage comparison against a positive reference. */
  lemma PercentBand(d: real, ref: real, valor: real, t: real)
    requires ref > 0.0 && d * ref == (valor - ref) * 100.0
    ensures d >= t <==> valor >= ref + t / 100.0 * ref
    ensures d > t <==> valor > ref + t / 100.0 * ref
  {
    assert d == (valor - ref) * 100.0 / ref;
    if d >= t { assert d * ref >= t * ref; }
    if valor >= ref + t / 100.0 * ref { assert d * ref >= t * ref; }
    if d > t { assert d * ref > t * ref; }
    if valor > ref + t / 100.0 * ref { assert d * ref > t * ref; }
  }

  datatype RevenueStatus = FatMuitoAcima | FatAcima | FatAbaixo | FatMuitoAbaixo

  /** The comparison as returned: the difference is rounded to one decimal place, the
      status is taken from the unrounded difference. */
  datatype ComparativoFaturamento = ComparativoFaturamento(faturamentoEsperado: real, faturamentoReferencia: real, diferencaPercentual: real, status: RevenueStatus)

  /** Python's `round(x, 1)`, half to even on the tenths. */
  function RoundTenths(x: real): real {
    RoundHalfEven(x * 10.0) as real / 10.0
  }

  function RevenueStatusOf(diferenca: real): (s: RevenueStatus)
    ensures s == FatMuitoAcima <==> diferenca > 50.0
    ensures s == FatAcima <==> 0.0 <= diferenca <= 50.0
    ensures s == FatAbaixo <==> -50.0 <= diferenca < 0.0
    ensures s == FatMuitoAbaixo <==> diferenca < -50.0
  {
    if diferenca > 50.0 then FatMuitoAcima else if diferenca >= 0.0 then FatAcima
    else if diferenca >= -50.0 then FatAbaixo else FatMuitoAbaixo
  }

  /** `calcular_comparativo_faturamento`. */
  function CompararFaturamento(esperado: real, setor: string): (r: ComparativoFaturamento)
    ensures r.faturamentoReferencia == RevenueReference(setor)
    ensures r.status == RevenueStatusOf((esperado - RevenueReference(setor)) / RevenueReference(setor) * 100.0)
    ensures r.diferencaPercentual == RoundTenths((esperado - RevenueReference(setor)) / RevenueReference(setor) * 100.0)
  {
    var ref := RevenueReference(setor);
    var diferenca := if ref > 0.0 then (esperado - ref) / ref * 100.0 else 0.0;
    ComparativoFaturamento(esperado, ref, RoundTenths(diferenca), RevenueStatusOf(diferenca))
  }

  /** The revenue bands on the amounts: above 150% of the reference, at least the reference,
      at least half of it, under half. */
  lemma RevenueBandsOnAmounts(esperado: real, setor: string)
    ensures CompararFaturamento(esperado, setor).status == FatMuitoAcima <==> esperado > 1.5 * RevenueReference(setor)
    ensures CompararFaturamento(esperado, setor).status == FatAcima <==> RevenueReference(setor) <= esperado <= 1.5 * RevenueReference(setor)
    ensures CompararFaturamento(esperado, setor).status == FatMuitoAbaixo <==> esperado < 0.5 * RevenueReference(setor)
    ensures CompararFaturamento(esperado, setor).status != FatAbaixo ==> CompararFaturamento(esperado, setor).status != FatAcima || esperado >= RevenueReference(setor)
  {
    var ref := RevenueReference(setor);
    var d := (esperado - ref) / ref * 100.0;
    assert d * ref == (esperado - ref) * 100.0;
    PercentBand(d, ref, esperado, 50.0);
    PercentBand(d, ref, esperado, 0.0);
    PercentBand(d, ref, esperado, -50.0);
  }

  // ---------- Alerts ----------

  datatype Category = Financeiro | Operacional | Estrutural

  datatype AlertSeverity = Alerta | Atencao | Positivo

  datatype AlertId =
    | F1 | F2 | F3 | F4 | F5 | F6 | F7
    | O1 | O2 | O3Agravado | O3 | O3Soft | O4 | O5 | O6 | O7
    | E1 | E2 | E3 | E4 | E5 | E6

  function CategoryOf(a: AlertId): Category {
    match a
    case F1 | F2 | F3 | F4 | F5 | F6 | F7 => Financeiro
    case O1 | O2 | O3Agravado | O3 | O3Soft | O4 | O5 | O6 | O7 => Operacional
    case _ => Estrutural
  }

  function SeverityOf(a: AlertId): AlertSeverity {
    match a
    case F1 | O2 | O3Agravado => Alerta
    case E4 | E5 | E6 => Positivo
    case _ => Atencao
  }

  /** Capital below the reference band: "abaixo" or "muito_abaixo". */
  predicate Short(cap: ComparativoCapital) {
    cap.status in {Abaixo, MuitoAbaixo}
  }

  predicate StockProduct(d: Schemas.PreAberturaInput) {
    d.tipoNegocio == "produto" && HasStock(d)
  }

  /** The conditions the three evaluators test, each read once from the request, the two
      comparisons, the months to opening and the sector's margin midpoint. */
  datatype Facts = Facts(
    capital: CapitalStatus,
    prolaboreSim: bool,
    prolaboreNaoSei: bool,
    faturamentoMuitoAbaixo: bool,
    faturamentoOtimista: bool,
    semClientes: bool,
    comFuncionarios: bool,
    equipeGrande: bool,
    produtoComEstoque: bool,
    produtoSemEstoque: bool,
    margemPontoMedio: int,
    setorIntensivoEmMaoDeObra: bool,
    prazoCurto: bool,
    clientesGarantidos: bool,
    servicoSemFuncionarios: bool,
    alimentacao: bool,
    tecnologiaProduto: bool,
    setorIntensivoEmCapital: bool)

  /** How the evaluators read their inputs. */
  function FactsOf(d: Schemas.PreAberturaInput, cap: ComparativoCapital, fat: ComparativoFaturamento, meses: int): (f: Facts)
    ensures f.capital == cap.status
  {
    Facts(
      cap.status,
      d.prolabore == "sim",
      d.prolabore == "nao_sei",
      fat.status == FatMuitoAbaixo,
      fat.diferencaPercentual > 50.0,
      d.clientesGarantidos == "nao",
      d.temFuncionarios,
      d.faixaFuncionarios in {Some("6-10"), Some("10+")},
      StockProduct(d),
      d.tipoNegocio == "produto" && !HasStock(d),
      MarginMidpoint(d.setor),
      d.setor in {"alimentacao", "hotelaria_turismo"},
      meses < 3,
      d.clientesGarantidos in {"sim", "parcialmente"},
      d.tipoNegocio == "servico" && !d.temFuncionarios,
      d.setor == "alimentacao",
      IsTechProduct(d),
      d.setor in {"construcao", "industria"})
  }

  predicate ShortCapital(f: Facts) {
    f.capital == Abaixo || f.capital == MuitoAbaixo
  }

  /** A structural alert other than the fallback fires. */
  predicate AnyStructural(f: Facts) {
    f.clientesGarantidos || (f.servicoSemFuncionarios && !ShortCapital(f)) || f.alimentacao
    || f.tecnologiaProduto || (f.setorIntensivoEmCapital && ShortCapital(f))
  }

  /** When each alert fires, each `if` of the evaluators read on its own (an `elif` brings
      the negation of the branches before it). */
  predicate Triggered(a: AlertId, f: Facts) {
    match a
    case F1 => f.capital == MuitoAbaixo
    case F2 => f.capital == Abaixo
    case F3 => f.prolaboreSim && ShortCapital(f)
    case F4 => f.prolaboreNaoSei
    case F5 => f.faturamentoMuitoAbaixo
    case F6 => f.faturamentoOtimista
    case F7 => f.semClientes && ShortCapital(f)
    case O1 => f.comFuncionarios
    case O2 => f.equipeGrande
    case O3Agravado => f.produtoComEstoque && f.margemPontoMedio <= 35 && ShortCapital(f)
    case O3 => f.produtoComEstoque && f.margemPontoMedio < 35 && !ShortCapital(f)
    case O3Soft => f.produtoComEstoque && f.margemPontoMedio == 35 && !ShortCapital(f)
    case O4 => f.produtoComEstoque && ShortCapital(f) && f.margemPontoMedio > 35
    case O5 => f.produtoSemEstoque
    case O6 => f.setorIntensivoEmMaoDeObra && !f.comFuncionarios
    case O7 => f.prazoCurto && ShortCapital(f)
    case E4 => f.clientesGarantidos
    case E5 => f.servicoSemFuncionarios && !ShortCapital(f)
    case E1 => f.alimentacao
    case E2 => f.tecnologiaProduto
    case E3 => f.setorIntensivoEmCapital && ShortCapital(f)
    case E6 => !AnyStructural(f)
  }

  /** The order in which each evaluator checks its alerts. */
  const FinancialOrder: seq<AlertId> := [F1, F2, F3, F4, F5, F6, F7]
  const OperationalOrder: seq<AlertId> := [O1, O2, O3Agravado, O3, O3Soft, O4, O5, O6, O7]
  const PositiveStructuralOrder: seq<AlertId> := [E4, E5]
  const NegativeStructuralOrder: seq<AlertId> := [E1, E2, E3]

  /** The alerts of `order` that fire, in that order. */
  function Fired(order: seq<AlertId>, f: Facts): (r: seq<AlertId>)
    ensures |r| <= |order|
    ensures forall a :: a in r <==> a in order && Triggered(a, f)
  {
    if order == [] then []
    else (if Triggered(order[0], f) then [order[0]] else []) + Fired(order[1..], f)
  }

  /** `_avaliar_alertas_financeiros`. */
  function AlertasFinanceiros(f: Facts): (r: seq<AlertId>)
    ensures forall a :: a in r <==> CategoryOf(a) == Financeiro && Triggered(a, f)
  {
    Fired(FinancialOrder, f)
  }

  /** `_avaliar_alertas_operacionais`. */
  function AlertasOperacionais(f: Facts): (r: seq<AlertId>)
    ensures forall a :: a in r <==> CategoryOf(a) == Operacional && Triggered(a, f)
  {
    Fired(OperationalOrder, f)
  }

  /** `_avaliar_alertas_estruturais`: the positives E4 and E5 first, then E1, E2 and E3 (the
      stable sort on positivity), or the positive fallback E6 when none fired. */
  function AlertasEstruturais(f: Facts): (r: seq<AlertId>)
    ensures forall a :: a in r <==> CategoryOf(a) == Estrutural && Triggered(a, f)
  {
    if AnyStructural(f) then
      Fired(PositiveStructuralOrder, f) + Fired(NegativeStructuralOrder, f)
    else [E6]
  }

  /** The structural list is never empty, thanks to the fallback, and lists every positive
      alert before every other one. */
  lemma StructuralShape(f: Facts)
    ensures |AlertasEstruturais(f)| > 0
    ensures forall i, j :: 0 <= i < j < |AlertasEstruturais(f)| && SeverityOf(AlertasEstruturais(f)[j]) == Positivo
              ==> SeverityOf(AlertasEstruturais(f)[i]) == Positivo
  {
    if AnyStructural(f) {
      SomeStructuralFires(f);
      PositivesFirst(Fired(PositiveStructuralOrder, f), Fired(NegativeStructuralOrder, f));
    }
  }

  /** When a structural condition holds, one of the five structural alerts is listed. */
  lemma SomeStructuralFires(f: Facts)
    requires AnyStructural(f)
    ensures AlertasEstruturais(f) != []
  {
    var p, n := PositiveStructuralOrder, NegativeStructuralOrder;
    if f.clientesGarantidos {
      FiredHead(p, f);
    } else if f.servicoSemFuncionarios && !ShortCapital(f) {
      FiredNonEmpty(p, f, 1);
    } else if f.alimentacao {
      FiredHead(n, f);
    } else if f.tecnologiaProduto {
      FiredNonEmpty(n, f, 1);
    } else {
      FiredNonEmpty(n, f, 2);
    }
    assert AlertasEstruturais(f) == Fired(p, f) + Fired(n, f);
  }

  /** An order with an alert that fires lists something. */
  lemma FiredNonEmpty(order: seq<AlertId>, f: Facts, k: nat)
    requires k < |order| && Triggered(order[k], f)
    ensures Fired(order, f) != []
  {
    assert order[k] in order;
  }

  /** Positive alerts followed by non-positive ones keep the positives in front. */
  lemma PositivesFirst(pos: seq<AlertId>, neg: seq<AlertId>)
    requires forall a :: a in pos ==> a in PositiveStructuralOrder
    requires forall a :: a in neg ==> a in NegativeStructuralOrder
    ensures forall i, j :: 0 <= i < j < |pos + neg| && SeverityOf((pos + neg)[j]) == Positivo ==> SeverityOf((pos + neg)[i]) == Positivo
  {
    var r := pos + neg;
    forall k | 0 <= k < |pos| ensures SeverityOf(r[k]) == Positivo {
      assert r[k] == pos[k] && pos[k] in pos;
    }
    forall k | |pos| <= k < |r| ensures SeverityOf(r[k]) != Positivo {
      assert r[k] == neg[k - |pos|] && neg[k - |pos|] in neg;
    }
  }

  /** The exclusions the evaluators promise: F1 or F2, at most one O3 variant, O4 only
      without the aggravated O3. */
  lemma AlertExclusions(f: Facts)
    ensures !(F1 in AlertasFinanceiros(f) && F2 in AlertasFinanceiros(f))
    ensures !(O3Agravado in AlertasOperacionais(f) && O3 in AlertasOperacionais(f))
    ensures !(O3Agravado in AlertasOperacionais(f) && O3Soft in AlertasOperacionais(f))
    ensures !(O3 in AlertasOperacionais(f) && O3Soft in AlertasOperacionais(f))
    ensures !(O4 in AlertasOperacionais(f) && O3Agravado in AlertasOperacionais(f))
  {
    CapitalAlertsExclusive(f);
    StockAlertsExclusive(f);
  }

  lemma CapitalAlertsExclusive(f: Facts)
    ensures !(F1 in AlertasFinanceiros(f) && F2 in AlertasFinanceiros(f))
  {
  }

  /** The four stock alerts split on the margin midpoint and on short capital. */
  lemma StockAlertsExclusive(f: Facts)
    ensures !(O3Agravado in AlertasOperacionais(f) && O3 in AlertasOperacionais(f))
    ensures !(O3Agravado in AlertasOperacionais(f) && O3Soft in AlertasOperacionais(f))
    ensures !(O3 in AlertasOperacionais(f) && O3Soft in AlertasOperacionais(f))
    ensures !(O4 in AlertasOperacionais(f) && O3Agravado in AlertasOperacionais(f))
  {
    OperationalFires(O3Agravado, f);
    OperationalFires(O3, f);
    OperationalFires(O3Soft, f);
    OperationalFires(O4, f);
  }

  lemma OperationalFires(a: AlertId, f: Facts)
    ensures a in AlertasOperacionais(f) ==> Triggered(a, f)
  {
  }

  /** The first element of a list, if any. */
  function Head(s: seq<AlertId>): (r: seq<AlertId>)
    ensures |r| <= 1 && |r| <= |s| && r == s[..|r|]
    ensures s != [] <==> |r| == 1
  {
    if s == [] then [] else [s[0]]
  }

  /** `selecionar_alertas`: the head of each category's list, in category order. */
  function SelecionarAlertas(fin: seq<AlertId>, ops: seq<AlertId>, est: seq<AlertId>): (r: seq<AlertId>)
    ensures |r| <= 3
    ensures |r| == |Head(fin)| + |Head(ops)| + |Head(est)|
    ensures fin != [] ==> r[0] == fin[0]
    ensures est != [] ==> r[|r| - 1] == est[0]
    ensures forall a :: a in r <==> a in Head(fin) || a in Head(ops) || a in Head(est)
  {
    Head(fin) + Head(ops) + Head(est)
  }

  /** Heads of a financial, an operational and a non-empty structural list: one alert
      per category, the structural one last. */
  lemma SelectionShape(fin: seq<AlertId>, ops: seq<AlertId>, est: seq<AlertId>)
    requires forall a :: a in fin ==> CategoryOf(a) == Financeiro
    requires forall a :: a in ops ==> CategoryOf(a) == Operacional
    requires forall a :: a in est ==> CategoryOf(a) == Estrutural
    requires est != []
    ensures 1 <= |SelecionarAlertas(fin, ops, est)|
    ensures CategoryOf(SelecionarAlertas(fin, ops, est)[|SelecionarAlertas(fin, ops, est)| - 1]) == Estrutural
    ensures forall i, j :: 0 <= i < j < |SelecionarAlertas(fin, ops, est)| ==>
              CategoryOf(SelecionarAlertas(fin, ops, est)[i]) != CategoryOf(SelecionarAlertas(fin, ops, est)[j])
  {
    var r := SelecionarAlertas(fin, ops, est);
    assert est[0] in est;
    if fin != [] { assert fin[0] in fin; }
    if ops != [] { assert ops[0] in ops; }
    assert forall k :: 0 <= k < |r| ==> r[k] in Head(fin) + Head(ops) + Head(est);
  }

  /** The alerts of a request: one per category, the structural one always present and
      last, never two of a category, each one fired. */
  function Alertas(f: Facts): (r: seq<AlertId>)
    ensures 1 <= |r| <= 3
    ensures CategoryOf(r[|r| - 1]) == Estrutural
    ensures forall i, j :: 0 <= i < j < |r| ==> CategoryOf(r[i]) != CategoryOf(r[j])
    ensures forall a :: a in r ==> Triggered(a, f)
  {
    var fin := AlertasFinanceiros(f);
    var ops := AlertasOperacionais(f);
    var est := AlertasEstruturais(f);
    StructuralShape(f);
    SelectionShape(fin, ops, est);
    SelecionarAlertas(fin, ops, est)
  }

  /** Demand validated by clients makes the positive E4 the structural alert. */
  lemma GuaranteedClientsShowE4(f: Facts)
    requires f.clientesGarantidos
    ensures E4 in Alertas(f)
  {
    StructuralHeadE4(f);
    var r := Alertas(f);
    assert r[|r| - 1] == AlertasEstruturais(f)[0];
  }

  lemma StructuralHeadE4(f: Facts)
    requires f.clientesGarantidos
    ensures AlertasEstruturais(f) != [] && AlertasEstruturais(f)[0] == E4
  {
    FiredHead(PositiveStructuralOrder, f);
    var p := Fired(PositiveStructuralOrder, f);
    assert AlertasEstruturais(f) == p + Fired(NegativeStructuralOrder, f);
  }

  /** An order whose first alert fires lists it first. */
  lemma FiredHead(order: seq<AlertId>, f: Facts)
    requires order != [] && Triggered(order[0], f)
    ensures Fired(order, f) != [] && Fired(order, f)[0] == order[0]
  {
  }

  /** Short capital always leads the selection with F1 or F2. */
  lemma ShortCapitalLeads(f: Facts)
    requires ShortCapital(f)
    ensures Alertas(f)[0] == (if f.capital == MuitoAbaixo then F1 else F2)
  {
    var fin := AlertasFinanceiros(f);
    assert fin == Fired(FinancialOrder, f);
    assert FinancialOrder[0] == F1 && FinancialOrder[1..][0] == F2;
  }

  // ---------- Checklist ----------

  datatype ChecklistItem = ChecklistItem(texto: string, condicional: bool, condicao: Option<string>)

  const BaseChecklist: seq<ChecklistItem> := [
    ChecklistItem("Definir estrutura jurídica (MEI, ME, LTDA)", false, None),
    ChecklistItem("Pesquisar exigências da prefeitura local", false, None),
    ChecklistItem("Abrir conta bancária PJ", false, None),
    ChecklistItem("Contratar contador ou empresa de contabilidade", false, None)]

  const StockItem := ChecklistItem("Pesquisar fornecedores e negociar prazos", true, Some("tem_estoque"))
  const ClientsItem := ChecklistItem("Validar primeiros clientes antes de investir pesado", true, Some("sem_clientes"))
  const StaffItem := ChecklistItem("Planejar contratação e documentação trabalhista", true, Some("tem_funcionarios"))

  /** The conditional items, in the order stock, clients, staff. */
  function ConditionalItems(d: Schemas.PreAberturaInput): (c: seq<ChecklistItem>)
    ensures |c| <= 3
    ensures forall k :: 0 <= k < |c| ==> c[k].condicional
    ensures StockItem in c <==> StockProduct(d)
    ensures ClientsItem in c <==> d.clientesGarantidos == "nao"
    ensures StaffItem in c <==> d.temFuncionarios
  {
    (if StockProduct(d) then [StockItem] else [])
      + (if d.clientesGarantidos == "nao" then [ClientsItem] else [])
      + (if d.temFuncionarios then [StaffItem] else [])
  }

  /** `gerar_checklist`: four fixed items, then each conditional item when its condition holds. */
  function GerarChecklist(d: Schemas.PreAberturaInput): (c: seq<ChecklistItem>)
    ensures 4 <= |c| <= 7 && c[..4] == BaseChecklist
    ensures forall k :: 0 <= k < |c| ==> (c[k].condicional <==> k >= 4)
    ensures StockItem in c <==> StockProduct(d)
    ensures ClientsItem in c <==> d.clientesGarantidos == "nao"
    ensures StaffItem in c <==> d.temFuncionarios
  {
    var opt := ConditionalItems(d);
    assert forall k :: 0 <= k < 4 ==> !BaseChecklist[k].condicional;
    assert StockItem !in BaseChecklist && ClientsItem !in BaseChecklist && StaffItem !in BaseChecklist;
    BaseChecklist + opt
  }

  // ---------- The whole analysis ----------

  datatype Resultado = Resultado(
    setorLabel: string,
    previsaoAbertura: Calendar.Label,
    comparativoCapital: ComparativoCapital,
    comparativoFaturamento: ComparativoFaturamento,
    alertas: seq<AlertId>,
    checklist: seq<ChecklistItem>,
    mensagemContexto: Option<string>,
    calculos: Calculos)

  /** The context message a technology product receives. */
  const TechMessage := "Tecnologia como produto costuma exigir mais tempo sem receita. Por isso, sua reserva recomendada é maior."

  /** `processar_analise_pre_abertura` with today's month passed in. */
  function ProcessarAnalise(d: Schemas.PreAberturaInput, setorLabel: string, hoje: Calendar.MonthYear): (r: Resultado)
    requires 1 <= d.mesAbertura <= 12 && Calendar.ValidMonth(hoje)
    ensures r.calculos == CalcularCapitalRecomendado(d, hoje)
    ensures r.comparativoCapital.capitalRecomendado == Recommended(r.calculos) >= CapitalBase(d.setor)
    ensures r.comparativoCapital.status == CapitalStatusOf(CapitalDifference(d.capitalDisponivel, r.calculos))
    ensures r.comparativoCapital.diferencaPercentual == RoundTenths(CapitalDifference(d.capitalDisponivel, r.calculos))
    ensures r.comparativoFaturamento == CompararFaturamento(d.faturamentoEsperado, d.setor)
    ensures r.checklist == GerarChecklist(d)
    ensures r.alertas == Alertas(FactsOf(d, r.comparativoCapital, r.comparativoFaturamento, MesesAteAbertura(d, hoje)))
    ensures r.previsaoAbertura == Calendar.Label(Calendar.MonthName(d.mesAbertura), d.anoAbertura)
    ensures Schemas.ResponseAlertsBound(r.alertas) && |r.alertas| >= 1
    ensures r.mensagemContexto.Some? <==> IsTechProduct(d)
    ensures r.previsaoAbertura.nomeMes != ""
    ensures 4 <= |r.checklist| <= 7
  {
    var calculos := CalcularCapitalRecomendado(d, hoje);
    RecommendedAtLeastBase(d, hoje);
    var cap := CompararCapital(d.capitalDisponivel, calculos);
    var fat := CompararFaturamento(d.faturamentoEsperado, d.setor);
    Resultado(setorLabel, Calendar.Label(Calendar.MonthName(d.mesAbertura), d.anoAbertura), cap, fat,
      Alertas(FactsOf(d, cap, fat, MesesAteAbertura(d, hoje))), GerarChecklist(d),
      if IsTechProduct(d) then Some(TechMessage) else None,
      calculos)
  }

  /** The optimism alert reads the rounded difference while the status reads the exact one,
      so a difference just above 50% is "muito_acima" with no F6 alert. */
  lemma OptimismAlertReadsRoundedDifference()
    ensures CompararFaturamento(22507.5, "comercio_varejo").status == FatMuitoAcima
    ensures CompararFaturamento(22507.5, "comercio_varejo").diferencaPercentual == 50.0
  {
    assert RevenueReference("comercio_varejo") == 15000.0;
    assert (22507.5 - 15000.0) / 15000.0 * 100.0 == 50.05;
    RoundHalfEvenThreshold(500.5, 501);
    assert RoundHalfEven(500.5) == 500;
  }
}

=== FILE: pre_abertura_wizard.dfy ===
/** The ten-step pre-opening intake (`usePreAbertura`): a draft record, the current
    step and an error map, with pure transitions for editing, validating, moving
    between steps, measuring progress and building the request payload. */
module PreAberturaWizard {
  import opened Wrappers
  import opened Numeric
  import Calendar
  import MoneyInput

  /** The draft answers, `DadosPreAbertura`. A `boolean | null` answer is an `Option<bool>`. */
  datatype Draft = Draft(
    tipoNegocio: string,
    temEstoque: Option<bool>,
    setor: string,
    estado: string,
    cidade: string,
    mesAbertura: int,
    anoAbertura: int,
    capitalDisponivel: real,
    prolabore: string,
    temFuncionarios: Option<bool>,
    faixaFuncionarios: string,
    faturamentoEsperado: real,
    clientesGarantidos: string,
    email: string)

  /** The keys of `DadosPreAbertura`, which are also the keys of the error map. */
  datatype Field =
    | TipoNegocio | TemEstoque | Setor | Estado | Cidade | MesAbertura | AnoAbertura
    | CapitalDisponivel | Prolabore | TemFuncionarios | FaixaFuncionarios
    | FaturamentoEsperado | ClientesGarantidos | Email

  /** A value that can be stored in a field. */
  datatype Value = Text(s: string) | Choice(b: Option<bool>) | Amount(x: real) | Whole(n: int)

  /** The value has the type TypeScript demands of that field (`DadosPreAbertura[K]`). */
  predicate Fits(f: Field, v: Value) {
    match f
    case TemEstoque | TemFuncionarios => v.Choice?
    case MesAbertura | AnoAbertura => v.Whole?
    case CapitalDisponivel | FaturamentoEsperado => v.Amount?
    case _ => v.Text?
  }

  function Get(d: Draft, f: Field): (v: Value)
    ensures Fits(f, v)
  {
    match f
    case TipoNegocio => Text(d.tipoNegocio)
    case TemEstoque => Choice(d.temEstoque)
    case Setor => Text(d.setor)
    case Estado => Text(d.estado)
    case Cidade => Text(d.cidade)
    case MesAbertura => Whole(d.mesAbertura)
    case AnoAbertura => Whole(d.anoAbertura)
    case CapitalDisponivel => Amount(d.capitalDisponivel)
    case Prolabore => Text(d.prolabore)
    case TemFuncionarios => Choice(d.temFuncionarios)
    case FaixaFuncionarios => Text(d.faixaFuncionarios)
    case FaturamentoEsperado => Amount(d.faturamentoEsperado)
    case ClientesGarantidos => Text(d.clientesGarantidos)
    case Email => Text(d.email)
  }

  /** `{ ...prev, [campo]: valor }`. */
  function Set(d: Draft, f: Field, v: Value): (r: Draft)
    requires Fits(f, v)
    ensures Get(r, f) == v
    ensures forall g :: g != f ==> Get(r, g) == Get(d, g)
  {
    match f
    case TipoNegocio => d.(tipoNegocio := v.s)
    case TemEstoque => d.(temEstoque := v.b)
    case Setor => d.(setor := v.s)
    case Estado => d.(estado := v.s)
    case Cidade => d.(cidade := v.s)
    case MesAbertura => d.(mesAbertura := v.n)
    case AnoAbertura => d.(anoAbertura := v.n)
    case CapitalDisponivel => d.(capitalDisponivel := v.x)
    case Prolabore => d.(prolabore := v.s)
    case TemFuncionarios => d.(temFuncionarios := v.b)
    case FaixaFuncionarios => d.(faixaFuncionarios := v.s)
    case FaturamentoEsperado => d.(faturamentoEsperado := v.x)
    case ClientesGarantidos => d.(clientesGarantidos := v.s)
    case Email => d.(email := v.s)
  }

  /** `PassoPreAbertura`. */
  type Step = p: int | 1 <= p <= 10 witness 1

  /** The hook's state. An error cleared by an edit is removed from the map, which is
      what every reader of `erros[campo]` observes. */
  datatype Wizard = Wizard(dados: Draft, passo: Step, erros: map<Field, string>, carregando: bool)

  /** `atualizarDados(campo, valor)`: store the value; clear that field's error if one is shown. */
  function UpdateField(w: Wizard, f: Field, v: Value): (r: Wizard)
    requires Fits(f, v)
    ensures Get(r.dados, f) == v
    ensures forall g :: g != f ==> Get(r.dados, g) == Get(w.dados, g)
    ensures f !in r.erros || r.erros[f] == ""
    ensures forall g :: g != f ==> (g in r.erros <==> g in w.erros) && (g in r.erros ==> r.erros[g] == w.erros[g])
    ensures r.passo == w.passo && r.carregando == w.carregando
  {
    var erros := if f in w.erros && w.erros[f] != "" then w.erros - {f} else w.erros;
    w.(dados := Set(w.dados, f, v), erros := erros)
  }

  /** `devePularEstoque`: a service business has no stock step. */
  predicate SkipsStock(d: Draft) {
    d.tipoNegocio == "servico"
  }

  /** `getProximoPasso`. */
  function NextStep(d: Draft, p: Step): (r: Option<Step>)
    ensures r.None? <==> p == 10
    ensures r.Some? ==> r.value > p
  {
    var proximo := if p == 1 && SkipsStock(d) then 3 else p + 1;
    if proximo > 10 then None else Some(proximo)
  }

  /** `getPassoAnterior`. */
  function PreviousStep(d: Draft, p: Step): (r: Option<Step>)
    ensures r.None? <==> p == 1
    ensures r.Some? ==> r.value < p
  {
    var anterior := if p == 3 && SkipsStock(d) then 1 else p - 1;
    if anterior < 1 then None else Some(anterior)
  }

  /** The step graph: a service skips step 2 both ways; everything else moves by one. */
  lemma StepGraph(d: Draft, p: Step)
    ensures p == 1 ==> NextStep(d, p) == Some(if SkipsStock(d) then 3 else 2)
    ensures 2 <= p <= 9 ==> NextStep(d, p) == Some(p + 1)
    ensures p == 3 && SkipsStock(d) ==> PreviousStep(d, p) == Some(1)
    ensures 2 <= p && !(p == 3 && SkipsStock(d)) ==> PreviousStep(d, p) == Some(p - 1)
  {
  }

  /** Going back then forward returns to the same step, except from step 2 of a service,
      a step the forward graph of a service never enters. */
  lemma {:induction false} BackThenForward(d: Draft, p: Step)
    requires p >= 2 && !(p == 2 && SkipsStock(d))
    ensures PreviousStep(d, p).Some?
    ensures NextStep(d, PreviousStep(d, p).value) == Some(p)
  {
    if p == 3 && SkipsStock(d) {
      assert PreviousStep(d, p) == Some(1);
    } else {
      assert PreviousStep(d, p) == Some(p - 1);
    }
  }

  /** Going forward then back returns to the same step, except from step 2 of a service. */
  lemma {:induction false} ForwardThenBack(d: Draft, p: Step)
    requires p <= 9 && !(p == 2 && SkipsStock(d))
    ensures NextStep(d, p).Some?
    ensures PreviousStep(d, NextStep(d, p).value) == Some(p)
  {
    if p == 1 && SkipsStock(d) {
      assert NextStep(d, p) == Some(3);
    } else {
      assert NextStep(d, p) == Some(p + 1);
    }
  }

  /** The fields whose errors step p may report. */
  function StepFields(p: Step): set<Field> {
    match p
    case 1 => {TipoNegocio}
    case 2 => {TemEstoque}
    case 3 => {Setor}
    case 4 => {Estado}
    case 5 => {}
    case 6 => {CapitalDisponivel}
    case 7 => {Prolabore}
    case 8 => {TemFuncionarios, FaixaFuncionarios}
    case 9 => {FaturamentoEsperado}
    case 10 => {ClientesGarantidos}
  }

  /** The answers of step p are complete; `!x` on a number is `x == 0` (NaN is not modelled). */
  predicate StepComplete(d: Draft, p: Step) {
    && (p == 1 ==> d.tipoNegocio != "")
    && (p == 2 ==> !(d.tipoNegocio == "produto" && d.temEstoque.None?))
    && (p == 3 ==> d.setor != "")
    && (p == 4 ==> d.estado != "")
    && (p == 6 ==> d.capitalDisponivel > 0.0)
    && (p == 7 ==> d.prolabore != "")
    && (p == 8 ==> d.temFuncionarios.Some? && (d.temFuncionarios == Some(true) ==> d.faixaFuncionarios != ""))
    && (p == 9 ==> d.faturamentoEsperado > 0.0)
    && (p == 10 ==> d.clientesGarantidos != "")
  }

  /** `ResultadoValidacao`. */
  datatype Validation = Validation(valido: bool, erros: map<Field, string>)

  /** The messages `validarPasso` shows. */
  const MsgTipoNegocio := "Selecione o tipo de negócio"
  const MsgTemEstoque := "Informe se terá estoque"
  const MsgSetor := "Selecione o setor"
  const MsgEstado := "Selecione o estado"
  const MsgCapital := "Informe o capital disponível"
  const MsgOpcao := "Selecione uma opção"
  const MsgTemFuncionarios := "Informe se terá funcionários"
  const MsgFaixa := "Selecione a faixa de funcionários"
  const MsgFaturamento := "Informe o faturamento esperado"

  /** `validarPasso(passo)`. */
  function ValidateStep(d: Draft, p: Step): (r: Validation)
    ensures r.valido <==> r.erros == map[]
    ensures r.valido <==> StepComplete(d, p)
    ensures r.erros.Keys <= StepFields(p)
    ensures forall f :: f in r.erros ==> r.erros[f] != ""
    ensures FaixaFuncionarios in r.erros ==> d.temFuncionarios == Some(true)
    ensures TemEstoque in r.erros ==> d.tipoNegocio == "produto"
  {
    var erros: map<Field, string> :=
      match p
      case 1 => if d.tipoNegocio == "" then map[TipoNegocio := MsgTipoNegocio] else map[]
      case 2 => if d.tipoNegocio == "produto" && d.temEstoque.None? then map[TemEstoque := MsgTemEstoque] else map[]
      case 3 => if d.setor == "" then map[Setor := MsgSetor] else map[]
      case 4 => if d.estado == "" then map[Estado := MsgEstado] else map[]
      case 5 => map[]
      case 6 => if d.capitalDisponivel <= 0.0 then map[CapitalDisponivel := MsgCapital] else map[]
      case 7 => if d.prolabore == "" then map[Prolabore := MsgOpcao] else map[]
      case 8 =>
        var e1: map<Field, string> := if d.temFuncionarios.None? then map[TemFuncionarios := MsgTemFuncionarios] else map[];
        if d.temFuncionarios == Some(true) && d.faixaFuncionarios == "" then e1[FaixaFuncionarios := MsgFaixa] else e1
      case 9 => if d.faturamentoEsperado <= 0.0 then map[FaturamentoEsperado := MsgFaturamento] else map[]
      case 10 => if d.clientesGarantidos == "" then map[ClientesGarantidos := MsgOpcao] else map[];
    Validation(|erros| == 0, erros)
  }

  /** Step 5 (opening date) is pre-filled and always valid. */
  lemma OpeningStepAlwaysValid(d: Draft)
    ensures ValidateStep(d, 5) == Validation(true, map[])
  {
  }

  /** The outcome of a navigation call: the new state and the boolean the hook returns. */
  datatype Move = Move(w: Wizard, ok: bool)

  /** `avancar`. */
  function Advance(w: Wizard): (m: Move)
    ensures m.w.erros == ValidateStep(w.dados, w.passo).erros
    ensures m.ok <==> StepComplete(w.dados, w.passo)
    ensures !m.ok ==> m.w.passo == w.passo
    ensures m.ok && w.passo < 10 ==> Some(m.w.passo) == NextStep(w.dados, w.passo)
    ensures w.passo == 10 ==> m.w.passo == 10
    ensures m.w.dados == w.dados && m.w.carregando == w.carregando
  {
    var validacao := ValidateStep(w.dados, w.passo);
    var w1 := w.(erros := validacao.erros);
    if !validacao.valido then Move(w1, false)
    else match NextStep(w.dados, w.passo)
      case Some(proximo) => Move(w1.(passo := proximo), true)
      case None => Move(w1, true)
  }

  /** `voltar`. */
  function Back(w: Wizard): (m: Move)
    ensures w.passo == 1 <==> !m.ok
    ensures !m.ok ==> m.w == w
    ensures m.ok ==> Some(m.w.passo) == PreviousStep(w.dados, w.passo) && m.w.erros == map[]
    ensures m.w.dados == w.dados && m.w.carregando == w.carregando
  {
    match PreviousStep(w.dados, w.passo)
    case Some(anterior) => Move(w.(passo := anterior, erros := map[]), true)
    case None => Move(w, false)
  }

  /** `irParaPasso`. */
  function GoToStep(w: Wizard, p: Step): (r: Wizard)
    ensures r.passo == p && r.erros == map[] && r.dados == w.dados
  {
    w.(passo := p, erros := map[])
  }

  /** Advancing past a complete step and then going back lands on the same step with a
      clean error map, outside step 2 of a service. */
  lemma {:induction false} AdvanceThenBack(w: Wizard)
    requires StepComplete(w.dados, w.passo) && w.passo < 10
    requires !(w.passo == 2 && SkipsStock(w.dados))
    ensures Back(Advance(w).w) == Move(w.(erros := map[]), true)
  {
    ForwardThenBack(w.dados, w.passo);
    var v := ValidateStep(w.dados, w.passo);
    assert v.erros == map[];
  }

  /** `calcularProgresso`: the percentage of the steps this business goes through. */
  function Progress(d: Draft, p: Step): int {
    var total := if SkipsStock(d) then 9 else 10;
    var efetivo := if SkipsStock(d) && p > 2 then p - 1 else p;
    Round((efetivo as real / total as real) * 100.0)
  }

  /** Progress is a percentage and is 100 exactly at the last step. */
  lemma {:induction false} ProgressBounds(d: Draft, p: Step)
    ensures 0 <= Progress(d, p) <= 100
    ensures Progress(d, p) == 100 <==> p == 10
    ensures !SkipsStock(d) ==> Progress(d, p) == 10 * p
  {
    var total := if SkipsStock(d) then 9 else 10;
    var efetivo := if SkipsStock(d) && p > 2 then p - 1 else p;
    var x := (efetivo as real / total as real) * 100.0;
    assert 0.0 <= x <= 100.0;
    RoundMonotone(0.0, x);
    RoundMonotone(x, 100.0);
    RoundOfInt(0);
    RoundOfInt(100);
    if p == 10 {
      assert x == 100.0;
    } else {
      assert efetivo <= total - 1;
      assert x <= 100.0 - 100.0 / total as real;
      RoundBounds(x);
    }
    if !SkipsStock(d) {
      assert x == (10 * p) as real;
      RoundOfInt(10 * p);
    }
  }

  /** A forward move never lowers the progress bar, and raises it on every move a
      business actually makes (a service never stands on step 2 by moving forward). */
  lemma {:induction false} ProgressIncreases(d: Draft, p: Step)
    requires p < 10
    ensures Progress(d, NextStep(d, p).value) >= Progress(d, p)
    ensures !(p == 2 && SkipsStock(d)) ==> Progress(d, NextStep(d, p).value) > Progress(d, p)
  {
    var q := NextStep(d, p).value;
    var total := if SkipsStock(d) then 9 else 10;
    var e1 := if SkipsStock(d) && p > 2 then p - 1 else p;
    var e2 := if SkipsStock(d) && q > 2 then q - 1 else q;
    var x1 := (e1 as real / total as real) * 100.0;
    var x2 := (e2 as real / total as real) * 100.0;
    assert e2 >= e1;
    RoundMonotone(x1, x2);
    if !(p == 2 && SkipsStock(d)) {
      assert e2 >= e1 + 1;
      assert x2 >= x1 + 1.0;
      RoundMonotone(x1 + 1.0, x2);
      RoundShift(x1, 1);
    }
  }

  /** `isUltimoPasso`. */
  predicate IsLastStep(w: Wizard) {
    w.passo == 10
  }

  /** The body sent to the pre-opening endpoint; a `null` is `None`. */
  datatype Payload = Payload(
    tipoNegocio: string,
    temEstoque: Option<bool>,
    setor: string,
    estado: string,
    cidade: Option<string>,
    mesAbertura: int,
    anoAbertura: int,
    capitalDisponivel: real,
    prolabore: string,
    temFuncionarios: Option<bool>,
    faixaFuncionarios: Option<string>,
    faturamentoEsperado: real,
    clientesGarantidos: string,
    email: Option<string>)

  /** The payload literal built in `enviarAnalise`. */
  function BuildPayload(d: Draft): (p: Payload)
    ensures p.temEstoque.Some? ==> d.tipoNegocio == "produto" && p.temEstoque == d.temEstoque
    ensures d.tipoNegocio == "produto" ==> p.temEstoque == d.temEstoque
    ensures p.faixaFuncionarios.Some? <==> d.temFuncionarios == Some(true)
    ensures p.faixaFuncionarios.Some? ==> p.faixaFuncionarios.value == d.faixaFuncionarios
    ensures p.cidade.None? <==> d.cidade == ""
    ensures p.email.None? <==> d.email == ""
    ensures p.cidade.Some? ==> p.cidade.value == d.cidade
    ensures p.email.Some? ==> p.email.value == d.email
    ensures p.temFuncionarios == d.temFuncionarios
    ensures p.tipoNegocio == d.tipoNegocio && p.setor == d.setor && p.estado == d.estado
    ensures p.mesAbertura == d.mesAbertura && p.anoAbertura == d.anoAbertura
    ensures p.capitalDisponivel == d.capitalDisponivel && p.faturamentoEsperado == d.faturamentoEsperado
    ensures p.prolabore == d.prolabore && p.clientesGarantidos == d.clientesGarantidos
  {
    Payload(
      d.tipoNegocio,
      if d.tipoNegocio == "produto" then d.temEstoque else None,
      d.setor,
      d.estado,
      if d.cidade != "" then Some(d.cidade) else None,
      d.mesAbertura,
      d.anoAbertura,
      d.capitalDisponivel,
      d.prolabore,
      d.temFuncionarios,
      if d.temFuncionarios == Some(true) then Some(d.faixaFuncionarios) else None,
      d.faturamentoEsperado,
      d.clientesGarantidos,
      if d.email != "" then Some(d.email) else None)
  }

  /** The outcome of `enviarAnalise`: the state after the `finally`, the request made
      (if any) and the boolean returned. `respostaOk` says whether the server answered
      with a parsable 2xx response; the network itself is not modelled. */
  datatype Submission = Submission(w: Wizard, request: Option<Payload>, ok: bool)

  /** `enviarAnalise`: validate the current step only, then send the payload. */
  function Submit(w: Wizard, respostaOk: bool): (s: Submission)
    ensures s.request.Some? <==> StepComplete(w.dados, w.passo)
    ensures s.request.Some? ==> s.request.value == BuildPayload(w.dados)
    ensures s.ok ==> s.request.Some? && respostaOk
    ensures s.request.Some? ==> s.ok == respostaOk && !s.w.carregando
    ensures s.request.None? ==> s.w.carregando == w.carregando
    ensures s.w.erros == ValidateStep(w.dados, w.passo).erros
    ensures s.w.dados == w.dados && s.w.passo == w.passo
  {
    var validacao := ValidateStep(w.dados, w.passo);
    var w1 := w.(erros := validacao.erros);
    if !validacao.valido then Submission(w1, None, false)
    else Submission(w1.(carregando := false), Some(BuildPayload(w.dados)), respostaOk)
  }

  /** Every step of the draft is complete. */
  predicate AllStepsComplete(d: Draft) {
    forall p: Step :: StepComplete(d, p)
  }

  /** A draft complete on every step yields a payload with an answer for stock whenever
      the business is a product one, and a head-count band whenever it has employees. */
  lemma {:induction false} CompleteDraftPayload(d: Draft)
    requires AllStepsComplete(d)
    ensures d.tipoNegocio == "produto" ==> BuildPayload(d).temEstoque.Some?
    ensures BuildPayload(d).temFuncionarios == Some(true) ==> BuildPayload(d).faixaFuncionarios.Some?
    ensures BuildPayload(d).temFuncionarios.Some?
  {
    assert StepComplete(d, 2);
    assert StepComplete(d, 8);
  }

  /** Submitting re-checks only the current step: a product draft whose stock question
      was skipped (by jumping with `irParaPasso`) is still sent, without a stock answer. */
  lemma SubmitChecksOnlyCurrentStep()
    ensures exists w: Wizard, ok: bool ::
      Submit(w, ok).request.Some? && w.dados.tipoNegocio == "produto" && Submit(w, ok).request.value.temEstoque.None?
  {
    var d := Draft("produto", None, "varejo", "SP", "", 1, 2026, 1000.0, "sim", Some(false), "", 500.0, "sim", "");
    var w := Wizard(d, 10, map[], false);
    assert StepComplete(d, 10);
    assert Submit(w, true).request.value.temEstoque.None?;
  }

  /** Nothing in `enviarAnalise` looks at `carregando`: a second submission while the
      first is in flight sends again; only the disabled button prevents it. */
  lemma SubmitIgnoresLoading(w: Wizard, ok: bool)
    requires StepComplete(w.dados, w.passo)
    ensures Submit(w.(carregando := true), ok).request == Some(BuildPayload(w.dados))
  {
  }

  /** `DADOS_INICIAIS`, with today's month passed in (`Date.getMonth()`, 0-11). */
  function InitialDraft(mesJs: int, anoHoje: int): (d: Draft)
    requires 0 <= mesJs <= 11
    ensures d.temEstoque.None? && d.temFuncionarios.None? && d.faixaFuncionarios == ""
    ensures d.capitalDisponivel == 0.0 && d.faturamentoEsperado == 0.0
    ensures Calendar.ValidMonth(Calendar.MonthYear(d.mesAbertura, d.anoAbertura))
    ensures Calendar.Index(Calendar.MonthYear(d.mesAbertura, d.anoAbertura)) == Calendar.Index(Calendar.MonthYear(mesJs + 1, anoHoje)) + 1
    ensures !StepComplete(d, 1) && !StepComplete(d, 6) && !StepComplete(d, 8)
  {
    var proximo := Calendar.NextMonth(mesJs, anoHoje);
    Draft("", None, "", "", "", proximo.mes, proximo.ano, 0.0, "", None, "", 0.0, "", "")
  }

  /** `resetar`: the initial draft at step 1 with no errors. */
  function Reset(w: Wizard, mesJs: int, anoHoje: int): (r: Wizard)
    requires 0 <= mesJs <= 11
    ensures r.passo == 1 && r.erros == map[] && r.dados == InitialDraft(mesJs, anoHoje)
    ensures !Advance(r).ok
  {
    Wizard(InitialDraft(mesJs, anoHoje), 1, map[], w.carregando)
  }

  /** `PASSOS_INFO`: the identifier of each step's screen. */
  const StepIds: map<int, string> := map[
    1 := "tipo_negocio", 2 := "estoque", 3 := "setor", 4 := "localizacao", 5 := "abertura",
    6 := "capital", 7 := "prolabore", 8 := "funcionarios", 9 := "faturamento", 10 := "clientes"]

  /** `PASSOS_INFO` describes exactly the steps 1..10. */
  lemma StepIdsCoverSteps()
    ensures forall p: int :: p in StepIds <==> 1 <= p <= 10
  {
  }

  /** `FAIXAS_FUNCIONARIOS`: the head count assumed for each band. */
  const BandHeadCount: map<string, real> := map["1-2" := 1.5, "3-5" := 4.0, "6-10" := 8.0, "10+" := 12.0]

  // ---------- Step components ----------

  /** `PassoFuncionarios.handleSelectTemFuncionarios`: answering "no" clears the band. */
  function SelectHasEmployees(w: Wizard, valor: bool): (r: Wizard)
    ensures r.dados.temFuncionarios == Some(valor)
    ensures !valor ==> r.dados.faixaFuncionarios == ""
    ensures valor ==> r.dados.faixaFuncionarios == w.dados.faixaFuncionarios
    ensures forall g :: g != TemFuncionarios && g != FaixaFuncionarios ==> Get(r.dados, g) == Get(w.dados, g)
    ensures r.passo == w.passo
  {
    var w1 := UpdateField(w, TemFuncionarios, Choice(Some(valor)));
    if !valor then UpdateField(w1, FaixaFuncionarios, Text("")) else w1
  }

  /** The "Próximo" button of the employees step is disabled. */
  predicate EmployeesSubmitDisabled(d: Draft) {
    d.temFuncionarios.None? || (d.temFuncionarios == Some(true) && d.faixaFuncionarios == "")
  }

  /** The band buttons (and the band error) are rendered. */
  predicate BandsShown(d: Draft) {
    d.temFuncionarios == Some(true)
  }

  /** The button guard is the hook's own step-8 rule, and a band error can only be
      reported while the band buttons are on screen. */
  lemma {:induction false} EmployeesButtonMatchesValidation(d: Draft)
    ensures EmployeesSubmitDisabled(d) <==> !ValidateStep(d, 8).valido
    ensures FaixaFuncionarios in ValidateStep(d, 8).erros ==> BandsShown(d)
    ensures !EmployeesSubmitDisabled(SelectHasEmployees(Wizard(d, 8, map[], false), false).dados)
  {
    var v := ValidateStep(d, 8);
    assert v.valido <==> StepComplete(d, 8);
  }

  /** `PassoClientes`: "Enviar" is disabled with no answer or while a request is in flight. */
  predicate ClientsSubmitDisabled(w: Wizard) {
    w.dados.clientesGarantidos == "" || w.carregando
  }

  /** `PassoClientes`: "Voltar" is disabled while a request is in flight. */
  predicate ClientsBackDisabled(w: Wizard) {
    w.carregando
  }

  /** `PassoClientes.handleSubmit`: submits through `enviarAnalise`, which never moves on. */
  function ClientsSubmit(w: Wizard, respostaOk: bool): (s: Submission)
    ensures s.w.passo == w.passo
    ensures s.request.Some? <==> StepComplete(w.dados, w.passo)
  {
    Submit(w, respostaOk)
  }

  /** At step 10 the enabled "Enviar" button always sends a request. */
  lemma {:induction false} ClientsButtonEnabledSends(w: Wizard, respostaOk: bool)
    requires w.passo == 10 && !ClientsSubmitDisabled(w)
    ensures ClientsSubmit(w, respostaOk).request == Some(BuildPayload(w.dados))
  {
    assert StepComplete(w.dados, 10);
  }

  /** The optional e-mail field only edits the draft; no step validates it. */
  lemma {:induction false} EmailNeverValidated(w: Wizard, email: string, p: Step)
    ensures ValidateStep(UpdateField(w, Email, Text(email)).dados, p) == ValidateStep(w.dados, p)
  {
    var d' := UpdateField(w, Email, Text(email)).dados;
    assert d' == w.dados.(email := email) by {
      assert Get(d', Email) == Text(email);
    }
  }

  /** `PassoCapital.handleChange`: parse the digits as cents, redisplay, store. */
  function CapitalChange(w: Wizard, entrada: string): (r: (Wizard, MoneyInput.Display))
    ensures r.0.dados.capitalDisponivel == MoneyInput.Amount(entrada) && r.0.dados.capitalDisponivel >= 0.0
    ensures r.1.Empty? <==> r.0.dados.capitalDisponivel == 0.0
    ensures forall g :: g != CapitalDisponivel ==> Get(r.0.dados, g) == Get(w.dados, g)
  {
    var c := MoneyInput.HandleChange(entrada);
    (UpdateField(w, CapitalDisponivel, Amount(c.valor)), c.display)
  }

  /** `PassoCapital`'s effect on `capital_disponivel`: recompute the display whenever the
      stored value changes, keep it otherwise. */
  function CapitalDisplaySync(antes: real, depois: real, exibicao: MoneyInput.Display): (d: MoneyInput.Display)
    ensures antes != depois ==> (d.Empty? <==> depois <= 0.0)
    ensures antes == depois ==> d == exibicao
  {
    if antes != depois then MoneyInput.DisplayOf(depois) else exibicao
  }

  /** The effect that follows a keystroke shows what the keystroke itself showed. */
  lemma {:induction false} CapitalKeystrokeThenSync(w: Wizard, entrada: string)
    ensures var (w1, exib) := CapitalChange(w, entrada);
            CapitalDisplaySync(w.dados.capitalDisponivel, w1.dados.capitalDisponivel, exib) == exib
  {
  }
}

=== FILE: reengajamento_job.dfy ===
/** The job that invites an owner back 30 days after an analysis. Analyses created 29 to
    31 days ago that have not had the invitation are mailed in table order, skipping an
    address already mailed in the same run. The clock is the parameter `agora` (seconds,
    UTC); the mailer's answer for each row is an oracle indexed by the row's position. */
module ReengajamentoJob {
  import opened Wrappers
  import Uuid

  const Dia: int := 86400

  /** The fields of an analysis the job reads and writes. */
  datatype Analise = Analise(id: Uuid.Uuid, nomeEmpresa: string, email: string, createdAt: int, email30dEnviadoEm: Option<int>)

  /** The query: created in the two-day window around 30 days ago, invitation not recorded. */
  predicate Candidata(a: Analise, agora: int) {
    agora - 31 * Dia <= a.createdAt <= agora - 29 * Dia && a.email30dEnviadoEm.None?
  }

  /** The mailer's answer for the row at position `k`; no answer counts as a failure. */
  function Entregue(envios: seq<bool>, k: int): bool {
    0 <= k < |envios| && envios[k]
  }

  /** The addresses mailed successfully among the first `n` rows: the run's
      `emails_processados`. */
  function Processados(t: seq<Analise>, agora: int, envios: seq<bool>, n: nat): set<string>
    requires n <= |t|
  {
    if n == 0 then {}
    else
      var p := Processados(t, agora, envios, n - 1);
      var a := t[n - 1];
      if Candidata(a, agora) && a.email !in p && Entregue(envios, n - 1) then p + {a.email} else p
  }

  /** What the run does with each row. */
  datatype Acao = ForaDaConsulta | Ignorada | Enviada | Falhou

  function AcaoEm(t: seq<Analise>, agora: int, envios: seq<bool>, k: nat): Acao
    requires k < |t|
  {
    if !Candidata(t[k], agora) then ForaDaConsulta
    else if t[k].email in Processados(t, agora, envios, k) then Ignorada
    else if Entregue(envios, k) then Enviada
    else Falhou
  }

  /** A delivered invitation is recorded on its analysis. */
  function Marcada(a: Analise, agora: int): Analise {
    a.(email30dEnviadoEm := Some(agora))
  }

  /** A row after the run, as written: recorded only when mailed successfully. */
  function Linha(t: seq<Analise>, agora: int, envios: seq<bool>, k: nat): Analise
    requires k < |t|
  {
    if AcaoEm(t, agora, envios, k) == Enviada then Marcada(t[k], agora) else t[k]
  }

  /** The table after a run, as written: only analyses mailed successfully are recorded. */
  function AposExecucao(t: seq<Analise>, agora: int, envios: seq<bool>): (r: seq<Analise>)
    ensures |r| == |t|
    ensures forall k :: 0 <= k < |t| ==> r[k] == (if AcaoEm(t, agora, envios, k) == Enviada then Marcada(t[k], agora) else t[k])
  {
    seq(|t|, k requires 0 <= k < |t| => if AcaoEm(t, agora, envios, k) == Enviada then Marcada(t[k], agora) else t[k])
  }

  /** Rows among the first `n` that the run treats with action `acao`. */
  function Conta(t: seq<Analise>, agora: int, envios: seq<bool>, acao: Acao, n: nat): nat
    requires n <= |t|
  {
    if n == 0 then 0 else Conta(t, agora, envios, acao, n - 1) + (if AcaoEm(t, agora, envios, n - 1) == acao then 1 else 0)
  }

  /** Rows among the first `n` that the query returns. */
  function Candidatas(t: seq<Analise>, agora: int, n: nat): nat
    requires n <= |t|
  {
    if n == 0 then 0 else Candidatas(t, agora, n - 1) + (if Candidata(t[n - 1], agora) then 1 else 0)
  }

  datatype Stats = Stats(enviados: nat, falhas: nat, ignorados: nat)

  /** `processar_reengajamento_30_dias`. */
  method ProcessarReengajamento(t: seq<Analise>, agora: int, envios: seq<bool>) returns (t2: seq<Analise>, stats: Stats)
    ensures t2 == AposExecucao(t, agora, envios)
    ensures stats.enviados == Conta(t, agora, envios, Enviada, |t|)
    ensures stats.falhas == Conta(t, agora, envios, Falhou, |t|)
    ensures stats.ignorados == Conta(t, agora, envios, Ignorada, |t|)
    ensures stats.enviados + stats.falhas + stats.ignorados == Candidatas(t, agora, |t|)
    ensures stats.enviados == |Processados(t, agora, envios, |t|)|
  {
    t2 := [];
    var processados: set<string> := {};
    var enviados, falhas, ignorados := 0, 0, 0;
    var i := 0;
    while i < |t|
      invariant 0 <= i <= |t| && |t2| == i
      invariant processados == Processados(t, agora, envios, i)
      invariant forall k :: 0 <= k < i ==> t2[k] == Linha(t, agora, envios, k)
      invariant enviados == Conta(t, agora, envios, Enviada, i) && falhas == Conta(t, agora, envios, Falhou, i)
      invariant ignorados == Conta(t, agora, envios, Ignorada, i)
    {
      var a := t[i];
      ghost var acao := AcaoEm(t, agora, envios, i);
      if Candidata(a, agora) {
        if a.email in processados {
          assert acao == Ignorada;
          ignorados := ignorados + 1;
          t2 := t2 + [a];
        } else if Entregue(envios, i) {
          assert acao == Enviada;
          enviados := enviados + 1;
          processados := processados + {a.email};
          t2 := t2 + [Marcada(a, agora)];
        } else {
          assert acao == Falhou;
          falhas := falhas + 1;
          t2 := t2 + [a];
        }
      } else {
        assert acao == ForaDaConsulta;
        t2 := t2 + [a];
      }
      i := i + 1;
    }
    assert t2 == AposExecucao(t, agora, envios);
    stats := Stats(enviados, falhas, ignorados);
    CountsCoverCandidates(t, agora, envios, |t|);
    DeliveriesAreAddresses(t, agora, envios, |t|);
  }

  /** Every row the query returns is sent, failed or skipped. */
  lemma {:induction false} CountsCoverCandidates(t: seq<Analise>, agora: int, envios: seq<bool>, n: nat)
    requires n <= |t|
    ensures Conta(t, agora, envios, Enviada, n) + Conta(t, agora, envios, Falhou, n) + Conta(t, agora, envios, Ignorada, n) ==
      Candidatas(t, agora, n)
  {
    if n > 0 {
      CountsCoverCandidates(t, agora, envios, n - 1);
    }
  }

  /** Each delivery adds a new address to the processed set. */
  lemma {:induction false} DeliveriesAreAddresses(t: seq<Analise>, agora: int, envios: seq<bool>, n: nat)
    requires n <= |t|
    ensures Conta(t, agora, envios, Enviada, n) == |Processados(t, agora, envios, n)|
  {
    if n > 0 {
      DeliveriesAreAddresses(t, agora, envios, n - 1);
    }
  }

  /** The processed addresses only grow along the table. */
  lemma {:induction false} ProcessadosGrow(t: seq<Analise>, agora: int, envios: seq<bool>, i: nat, j: nat)
    requires i <= j <= |t|
    ensures Processados(t, agora, envios, i) <= Processados(t, agora, envios, j)
  {
    if i < j {
      ProcessadosGrow(t, agora, envios, i, j - 1);
    }
  }

  /** The delivery that put an address into the processed set. */
  lemma {:induction false} DeliveryOf(t: seq<Analise>, agora: int, envios: seq<bool>, n: nat, x: string) returns (j: nat)
    requires n <= |t| && x in Processados(t, agora, envios, n)
    ensures j < n && AcaoEm(t, agora, envios, j) == Enviada && t[j].email == x
  {
    var p := Processados(t, agora, envios, n - 1);
    if x in p {
      j := DeliveryOf(t, agora, envios, n - 1, x);
    } else {
      j := n - 1;
    }
  }

  /** A delivered address stays in the processed set for the rest of the run. */
  lemma DeliveredIsProcessed(t: seq<Analise>, agora: int, envios: seq<bool>, j: nat, n: nat)
    requires j < n <= |t| && AcaoEm(t, agora, envios, j) == Enviada
    ensures t[j].email in Processados(t, agora, envios, n)
  {
    assert t[j].email in Processados(t, agora, envios, j + 1);
    ProcessadosGrow(t, agora, envios, j + 1, n);
  }

  /** An address is in the processed set exactly when an earlier analysis with that address
      was mailed successfully: a failed attempt does not block the next analysis. */
  lemma ProcessadosAreDeliveries(t: seq<Analise>, agora: int, envios: seq<bool>, n: nat, x: string)
    requires n <= |t|
    ensures x in Processados(t, agora, envios, n) <==>
      exists j :: 0 <= j < n && AcaoEm(t, agora, envios, j) == Enviada && t[j].email == x
  {
    if x in Processados(t, agora, envios, n) {
      var j := DeliveryOf(t, agora, envios, n, x);
    }
    forall j | 0 <= j < n && AcaoEm(t, agora, envios, j) == Enviada && t[j].email == x
      ensures x in Processados(t, agora, envios, n)
    {
      DeliveredIsProcessed(t, agora, envios, j, n);
    }
  }

  /** At most one invitation is delivered per address in a run. */
  lemma OneDeliveryPerAddress(t: seq<Analise>, agora: int, envios: seq<bool>, j: nat, k: nat)
    requires j < k < |t|
    requires AcaoEm(t, agora, envios, j) == Enviada && AcaoEm(t, agora, envios, k) == Enviada
    ensures t[j].email != t[k].email
  {
    DeliveredIsProcessed(t, agora, envios, j, k);
  }

  /** A skipped analysis always shares its address with an earlier delivered one. */
  lemma SkippedHasEarlierDelivery(t: seq<Analise>, agora: int, envios: seq<bool>, k: nat)
    requires k < |t| && AcaoEm(t, agora, envios, k) == Ignorada
    ensures exists j :: 0 <= j < k && AcaoEm(t, agora, envios, j) == Enviada && t[j].email == t[k].email
  {
    ProcessadosAreDeliveries(t, agora, envios, k, t[k].email);
  }

  /** As written, an analysis skipped as a duplicate is left unrecorded, so the next run,
      half an hour later and still inside the window, mails the same address again. */
  lemma DuplicateMailedNextRun()
    ensures var x := Analise(Uuid.Uuid([]), "Loja", "ana@loja.com", 0, None);
      var y := Analise(Uuid.Uuid([1]), "Loja", "ana@loja.com", 0, None);
      var t := [x, y];
      var agora := 30 * Dia;
      AcaoEm(t, agora, [true, true], 0) == Enviada && AcaoEm(t, agora, [true, true], 1) == Ignorada &&
      AcaoEm(AposExecucao(t, agora, [true, true]), agora + 1800, [true, true], 1) == Enviada
  {
    var x := Analise(Uuid.Uuid([]), "Loja", "ana@loja.com", 0, None);
    var y := Analise(Uuid.Uuid([1]), "Loja", "ana@loja.com", 0, None);
    var t := [x, y];
    var agora := 30 * Dia;
    assert Processados(t, agora, [true, true], 1) == {"ana@loja.com"};
    var t1 := AposExecucao(t, agora, [true, true]);
    assert t1[0] == Marcada(x, agora) && t1[1] == y;
    assert Processados(t1, agora + 1800, [true, true], 1) == {};
  }

  /** The table after a run with the evident intent of one invitation per address: every
      analysis the query returned whose address was mailed is recorded, the skipped ones
      and the earlier failed ones included. The e-mails sent are the same. */
  function AposExecucaoCorrigida(t: seq<Analise>, agora: int, envios: seq<bool>): (r: seq<Analise>)
    ensures |r| == |t|
    ensures forall k :: 0 <= k < |t| ==>
      r[k] == (if Candidata(t[k], agora) && t[k].email in Processados(t, agora, envios, |t|) then Marcada(t[k], agora) else t[k])
  {
    var p := Processados(t, agora, envios, |t|);
    seq(|t|, k requires 0 <= k < |t| => if Candidata(t[k], agora) && t[k].email in p then Marcada(t[k], agora) else t[k])
  }

  /** The correction records every delivered analysis as written does, and in addition
      only analyses whose address was mailed in the run. */
  lemma CorrectionExtendsRecording(t: seq<Analise>, agora: int, envios: seq<bool>, k: nat)
    requires k < |t|
    ensures AcaoEm(t, agora, envios, k) == Enviada ==> AposExecucaoCorrigida(t, agora, envios)[k] == AposExecucao(t, agora, envios)[k]
    ensures AposExecucaoCorrigida(t, agora, envios)[k] != AposExecucao(t, agora, envios)[k] ==>
      AcaoEm(t, agora, envios, k) in {Ignorada, Falhou} &&
      exists j :: 0 <= j < |t| && AcaoEm(t, agora, envios, j) == Enviada && t[j].email == t[k].email
  {
    if AcaoEm(t, agora, envios, k) == Enviada {
      DeliveredIsProcessed(t, agora, envios, k, |t|);
    }
    ProcessadosAreDeliveries(t, agora, envios, |t|, t[k].email);
  }

  /** With the correction, once an address is mailed, no analysis of that address the run
      saw is mailed again by any later run. */
  lemma CorrectedNoRepeat(t: seq<Analise>, agora: int, envios: seq<bool>, depois: int, envios2: seq<bool>, k: nat)
    requires k < |t| && Candidata(t[k], agora) && t[k].email in Processados(t, agora, envios, |t|)
    ensures AcaoEm(AposExecucaoCorrigida(t, agora, envios), depois, envios2, k) == ForaDaConsulta
  {
  }

  // ---------- Manual sending ----------

  /** The row with the given id, as the query's `.first()` finds it. */
  function FindAnalise(t: seq<Analise>, id: Uuid.Uuid): (r: Option<nat>)
    ensures r.Some? ==> r.value < |t| && t[r.value].id == id
    ensures r.None? <==> forall k :: 0 <= k < |t| ==> t[k].id != id
  {
    if t == [] then None
    else if t[0].id == id then Some(0)
    else
      match FindAnalise(t[1..], id)
      case None => None
      case Some(k) => Some(k + 1)
  }

  /** `enviar_email_30d_manual`: for a well-formed id of an existing analysis the invitation
      is sent whatever its date or earlier invitation, and recorded when delivered; the
      answer is whether it was delivered. Otherwise false and nothing changes. */
  function EnviarEmail30dManual(t: seq<Analise>, analiseId: string, agora: int, entregue: bool): (r: (seq<Analise>, bool))
    ensures r.1 <==> Uuid.Parse(analiseId).Some? && FindAnalise(t, Uuid.Parse(analiseId).value).Some? && entregue
    ensures !r.1 ==> r.0 == t
    ensures r.1 ==>
      var k := FindAnalise(t, Uuid.Parse(analiseId).value).value;
      r.0 == t[k := Marcada(t[k], agora)] && !Candidata(r.0[k], agora)
  {
    match Uuid.Parse(analiseId)
    case None => (t, false)
    case Some(id) =>
      match FindAnalise(t, id)
      case None => (t, false)
      case Some(k) => if entregue then (t[k := Marcada(t[k], agora)], true) else (t, false)
  }
}

=== FILE: resultado_cards.dfy ===
/** Two cards of the pre-opening result page: the 30-day checklist the owner ticks off,
    and the bar chart comparing the owner's figure with the sector reference. */
module ResultadoCards {
  import opened Numeric
  import PreAberturaService

  // ---------- Checklist card ----------

  /** The positions of a list of `n` items. */
  function Indices(n: nat): (r: set<int>)
    ensures forall k :: k in r ==> 0 <= k < n
  {
    if n == 0 then {} else Indices(n - 1) + {n - 1}
  }

  lemma {:induction false} IndicesComplete(n: nat, k: int)
    requires 0 <= k < n
    ensures k in Indices(n)
  {
    if k < n - 1 {
      IndicesComplete(n - 1, k);
    }
  }

  lemma {:induction false} IndicesSize(n: nat)
    ensures |Indices(n)| == n
  {
    if n > 0 {
      var s := Indices(n - 1);
      IndicesSize(n - 1);
      assert n - 1 !in s;
      assert |s + {n - 1}| == |s| + 1;
    }
  }

  /** `toggleItem`: the clicked item flips, no other item changes. */
  function ToggleItem(marcados: set<int>, i: int): (r: set<int>)
    ensures i in r <==> i !in marcados
    ensures forall j :: j != i ==> (j in r <==> j in marcados)
  {
    if i in marcados then marcados - {i} else marcados + {i}
  }

  /** Clicking the same item twice restores the ticked set. */
  lemma ToggleTwice(marcados: set<int>, i: int)
    ensures ToggleItem(ToggleItem(marcados, i), i) == marcados
  {
  }

  /** Clicking an item of the list keeps the ticked set within the list. */
  lemma ToggleStaysWithinList(marcados: set<int>, n: nat, i: int)
    requires marcados <= Indices(n) && 0 <= i < n
    ensures ToggleItem(marcados, i) <= Indices(n)
  {
    IndicesComplete(n, i);
  }

  /** The counter and the bar. */
  datatype Resumo = Resumo(concluidos: int, total: int, progresso: real)

  /** The counter shows the ticked items over the items; the bar the same share in percent. */
  function Resumir(marcados: set<int>, total: nat): (r: Resumo)
    ensures r.concluidos == |marcados| && r.total == total
    ensures total == 0 ==> r.progresso == 0.0
    ensures marcados <= Indices(total) ==> 0.0 <= r.progresso <= 100.0
    ensures total > 0 ==> r.progresso * total as real == |marcados| as real * 100.0
  {
    if total == 0 then Resumo(|marcados|, total, 0.0)
    else
      ShareOfMax(|marcados| as real, total as real);
      assert marcados <= Indices(total) ==> |marcados| <= total by {
        if marcados <= Indices(total) {
          IndicesSize(total);
          SubsetSize(marcados, Indices(total));
        }
      }
      Resumo(|marcados|, total, |marcados| as real / total as real * 100.0)
  }

  lemma SubsetSize(a: set<int>, b: set<int>)
    requires a <= b
    ensures |a| <= |b|
  {
    assert b == a + (b - a);
  }

  /** Ticking an unticked item raises the bar. */
  lemma TickingRaisesProgress(marcados: set<int>, total: nat, i: int)
    requires total > 0 && i !in marcados
    ensures Resumir(ToggleItem(marcados, i), total).progresso > Resumir(marcados, total).progresso
  {
    var a := Resumir(marcados, total).progresso;
    var b := Resumir(ToggleItem(marcados, i), total).progresso;
    assert |ToggleItem(marcados, i)| == |marcados| + 1;
    assert b * total as real == a * total as real + 100.0;
    if b <= a {
      ScaleLe(b, a, total as real);
      assert false;
    }
  }

  // ---------- Comparison chart ----------

  /** The two bar widths: each value as a share of the larger one. */
  datatype Larguras = Larguras(usuario: real, referencia: real)

  function CalcularLarguras(valorUsuario: real, valorReferencia: real): (l: Larguras)
    ensures Max(valorUsuario, valorReferencia) <= 0.0 ==> l == Larguras(0.0, 0.0)
    ensures Max(valorUsuario, valorReferencia) > 0.0 && valorUsuario >= valorReferencia ==> l.usuario == 100.0
    ensures Max(valorUsuario, valorReferencia) > 0.0 && valorReferencia >= valorUsuario ==> l.referencia == 100.0
    ensures valorUsuario >= 0.0 && valorReferencia >= 0.0 ==>
      0.0 <= l.usuario <= 100.0 && 0.0 <= l.referencia <= 100.0
    ensures l.usuario * valorReferencia == l.referencia * valorUsuario
  {
    var maxValor := Max(valorUsuario, valorReferencia);
    if maxValor > 0.0 then
      ShareOfMax(valorUsuario, maxValor);
      ShareOfMax(valorReferencia, maxValor);
      Larguras(valorUsuario / maxValor * 100.0, valorReferencia / maxValor * 100.0)
    else Larguras(0.0, 0.0)
  }

  lemma ShareOfMax(v: real, m: real)
    requires m > 0.0
    ensures v / m * 100.0 * m == v * 100.0
    ensures v == m ==> v / m * 100.0 == 100.0
    ensures 0.0 <= v <= m ==> 0.0 <= v / m * 100.0 <= 100.0
  {
    var q := v / m;
    assert q * m == v;
    if 0.0 <= v <= m && q > 1.0 {
      ScaleLt(1.0, q, m);
      assert false;
    }
    if 0.0 <= v <= m && q < 0.0 {
      ScaleLt(q, 0.0, m);
      assert false;
    }
  }

  datatype Cor = Verde | Amarela | Vermelha

  /** The badge text; the percentage shown is the magnitude of the difference. */
  datatype Texto = AcimaDaReferencia(pct: real) | DentroDaReferencia | AbaixoDaReferencia(pct: real)

  /** `getStatusInfo` and the user's bar colour, as written: "acima" and "adequado" are
      green, "abaixo" yellow, every other status red and read as below the reference. */
  function StatusInfo(status: string, diferenca: real): (r: (Cor, Texto))
    ensures r.0 == Verde <==> status in {"acima", "adequado"}
    ensures r.0 == Amarela <==> status == "abaixo"
    ensures r.1.AbaixoDaReferencia? <==> status !in {"acima", "adequado"}
    ensures r.1.DentroDaReferencia? <==> status in {"acima", "adequado"} && diferenca < 0.0
    ensures !r.1.DentroDaReferencia? ==> r.1.pct == Abs(diferenca) >= 0.0
  {
    if status == "acima" || status == "adequado" then
      (Verde, if diferenca >= 0.0 then AcimaDaReferencia(Abs(diferenca)) else DentroDaReferencia)
    else if status == "abaixo" then (Amarela, AbaixoDaReferencia(Abs(diferenca)))
    else (Vermelha, AbaixoDaReferencia(Abs(diferenca)))
  }

  /** The keys the service sends for each status. */
  function CapitalKey(s: PreAberturaService.CapitalStatus): string {
    match s
    case Acima => "acima"
    case Adequado => "adequado"
    case Abaixo => "abaixo"
    case MuitoAbaixo => "muito_abaixo"
  }

  function RevenueKey(s: PreAberturaService.RevenueStatus): string {
    match s
    case FatMuitoAcima => "muito_acima"
    case FatAcima => "acima"
    case FatAbaixo => "abaixo"
    case FatMuitoAbaixo => "muito_abaixo"
  }

  /** A revenue estimate more than 50% above the sector's is drawn red and labelled as
      below the reference. */
  lemma VeryHighRevenueShownAsBelow(esperado: real, setor: string)
    requires esperado > 1.5 * PreAberturaService.RevenueReference(setor)
    ensures var c := PreAberturaService.CompararFaturamento(esperado, setor);
      StatusInfo(RevenueKey(c.status), c.diferencaPercentual).0 == Vermelha &&
      StatusInfo(RevenueKey(c.status), c.diferencaPercentual).1.AbaixoDaReferencia?
  {
    PreAberturaService.RevenueBandsOnAmounts(esperado, setor);
  }

  /** The chart with "muito_acima" read as above the reference, like "acima". */
  function StatusInfoCorrigido(status: string, diferenca: real): (r: (Cor, Texto))
    ensures r.0 == Verde <==> status in {"muito_acima", "acima", "adequado"}
    ensures r.0 == Amarela <==> status == "abaixo"
    ensures r.1.AbaixoDaReferencia? <==> status !in {"muito_acima", "acima", "adequado"}
    ensures status != "muito_acima" ==> r == StatusInfo(status, diferenca)
  {
    if status == "muito_acima" then StatusInfo("acima", diferenca) else StatusInfo(status, diferenca)
  }

  /** With the correction, the revenue chart is green and never says "below" exactly when
      the estimate reaches the sector reference. */
  lemma CorrectedRevenueChartFollowsAmounts(esperado: real, setor: string)
    ensures var c := PreAberturaService.CompararFaturamento(esperado, setor);
      var info := StatusInfoCorrigido(RevenueKey(c.status), c.diferencaPercentual);
      (info.0 == Verde <==> esperado >= PreAberturaService.RevenueReference(setor)) &&
      (info.1.AbaixoDaReferencia? <==> esperado < PreAberturaService.RevenueReference(setor))
  {
    PreAberturaService.RevenueBandsOnAmounts(esperado, setor);
  }

  /** The capital chart is green and never says "below" exactly when the capital reaches
      80% of the recommendation. */
  lemma CapitalChartFollowsAmounts(informado: real, c: PreAberturaService.Calculos)
    requires PreAberturaService.Recommended(c) > 0.0
    ensures var cmp := PreAberturaService.CompararCapital(informado, c);
      var info := StatusInfoCorrigido(CapitalKey(cmp.status), cmp.diferencaPercentual);
      (info.0 == Verde <==> informado >= 0.8 * PreAberturaService.Recommended(c)) &&
      (info.1.AbaixoDaReferencia? <==> informado < 0.8 * PreAberturaService.Recommended(c)) &&
      info == StatusInfo(CapitalKey(cmp.status), cmp.diferencaPercentual)
  {
    PreAberturaService.CapitalBandsOnAmounts(informado, c);
  }
}

=== FILE: schemas.dfy ===
/** The request schemas of the two back-end entry points: field bounds, the state (UF)
    validator, the conditionally required amounts and the non-blocking coherence alerts. */
module Schemas {
  import opened Wrappers

  /** How a JSON key of the request arrived: left out, sent as `null`, or sent with a value.
      A field validator runs on a sent key only; a left-out key takes its default silently. */
  datatype Sent<T> = Omitted | Null | Given(value: T) {
    /** The value the model field ends up holding (`None` for a left-out or null key). */
    function Stored(): Option<T> {
      if Given? then Some(value) else None
    }
  }

  /** `ESTADOS_BR` of the analysis schema. */
  const UfsAnalise: seq<string> := [
    "AC", "AL", "AP", "AM", "BA", "CE", "DF", "ES", "GO", "MA",
    "MT", "MS", "MG", "PA", "PB", "PR", "PE", "PI", "RJ", "RN",
    "RS", "RO", "RR", "SC", "SP", "SE", "TO"]

  /** `ESTADOS_BR` of the pre-opening schema. */
  const UfsPreAbertura: seq<string> := [
    "AC", "AL", "AP", "AM", "BA", "CE", "DF", "ES", "GO", "MA",
    "MT", "MS", "MG", "PA", "PB", "PR", "PE", "PI", "RJ", "RN",
    "RS", "RO", "RR", "SC", "SP", "SE", "TO"]

  /** Both schemas accept the same 27 federative units. */
  lemma UfListsAgree()
    ensures UfsAnalise == UfsPreAbertura
    ensures |UfsAnalise| == 27
    ensures forall i, j :: 0 <= i < j < |UfsAnalise| ==> UfsAnalise[i] != UfsAnalise[j]
  {
  }

  function UpperChar(c: char): (u: char)
    ensures !('a' <= u <= 'z')
  {
    if 'a' <= c <= 'z' then (c as int - 32) as char else c
  }

  /** `str.upper()` on ASCII letters. */
  function Upper(s: string): (u: string)
    ensures |u| == |s|
    ensures forall k :: 0 <= k < |s| ==> u[k] == UpperChar(s[k])
  {
    if s == [] then [] else [UpperChar(s[0])] + Upper(s[1..])
  }

  lemma {:induction false} UpperIdempotent(s: string)
    ensures Upper(Upper(s)) == Upper(s)
  {
    var u := Upper(s);
    assert forall k :: 0 <= k < |u| ==> Upper(u)[k] == u[k];
  }

  /** `validar_estado`: upper-case the value and accept it iff it names a UF. */
  function ValidateEstado(ufs: seq<string>, v: string): (r: Result<string>)
    ensures r.Success? <==> Upper(v) in ufs
    ensures r.Success? ==> r.value == Upper(v)
  {
    var u := Upper(v);
    if u in ufs then Success(u) else Failure(422, "Estado inválido")
  }

  /** Validating an accepted state again accepts it unchanged. */
  lemma {:induction false} ValidateEstadoIdempotent(ufs: seq<string>, v: string)
    requires ValidateEstado(ufs, v).Success?
    ensures ValidateEstado(ufs, ValidateEstado(ufs, v).value) == ValidateEstado(ufs, v)
  {
    UpperIdempotent(v);
  }

  /** Lower-case input names the same unit. */
  lemma LowerCaseStateAccepted()
    ensures ValidateEstado(UfsAnalise, "sp") == Success("SP")
  {
    assert Upper("sp") == "SP";
  }

  /** The conditional-required rule as the field validators behave: it fires only on a
      key that was sent, so a left-out key passes even when the flag is set. */
  predicate RequiredWhenAsWritten<T>(flag: bool, v: Sent<T>) {
    !(flag && v.Null?)
  }

  /** The rule the validators' docstrings state: the value must be present under its flag. */
  predicate RequiredWhen<T>(flag: bool, v: Sent<T>) {
    !(flag && !v.Given?)
  }

  // ---------- Analysis request ----------

  /** `ReceitaHistorico` as received. */
  datatype History = History(tresMesesAtras: real, doisMesesAtras: real, mesPassado: real)

  /** The JSON body of an analysis request, `DadosAnaliseInput` before validation. */
  datatype AnaliseRequest = AnaliseRequest(
    nomeEmpresa: string,
    setor: string,
    estado: string,
    mesReferencia: int,
    anoReferencia: int,
    historico: History,
    receitaAtual: real,
    custoVendas: real,
    despesasFixas: real,
    caixaBancos: real,
    contasReceber: real,
    contasPagar: real,
    temEstoque: bool,
    estoque: Sent<real>,
    temDividas: bool,
    dividasTotais: Sent<real>,
    temBens: bool,
    bensEquipamentos: Sent<real>,
    numFuncionarios: int)

  /** A validated `DadosAnaliseInput`, with the coherence alerts stored on it. */
  datatype AnaliseInput = AnaliseInput(
    nomeEmpresa: string,
    setor: string,
    estado: string,
    mesReferencia: int,
    anoReferencia: int,
    historico: History,
    receitaAtual: real,
    custoVendas: real,
    despesasFixas: real,
    caixaBancos: real,
    contasReceber: real,
    contasPagar: real,
    temEstoque: bool,
    estoque: Option<real>,
    temDividas: bool,
    dividasTotais: Option<real>,
    temBens: bool,
    bensEquipamentos: Option<real>,
    numFuncionarios: int,
    alertasCoerencia: Option<seq<string>>)

  /** The 21 sectors of `SetorEnum`. */
  const Setores: set<string> := {
    "comercio_varejo", "comercio_atacado", "servicos", "industria", "tecnologia",
    "alimentacao", "saude", "educacao", "construcao", "agronegocio", "transporte",
    "hotelaria_turismo", "imobiliario", "financeiro", "comunicacao", "energia",
    "textil", "metalurgico", "moveis", "grafico", "reciclagem"}

  predicate NonNegativeIfSent(v: Sent<real>) {
    v.Given? ==> v.value >= 0.0
  }

  /** The `Field(...)` constraints of `DadosAnaliseInput` (the e-mail syntax is not modelled). */
  predicate AnaliseFieldBounds(r: AnaliseRequest) {
    && 2 <= |r.nomeEmpresa| <= 200
    && r.setor in Setores
    && |r.estado| == 2
    && 1 <= r.mesReferencia <= 12
    && 2020 <= r.anoReferencia <= 2030
    && r.historico.tresMesesAtras >= 0.0 && r.historico.doisMesesAtras >= 0.0 && r.historico.mesPassado >= 0.0
    && r.receitaAtual > 0.0
    && r.custoVendas >= 0.0 && r.despesasFixas >= 0.0
    && r.caixaBancos >= 0.0 && r.contasReceber >= 0.0 && r.contasPagar >= 0.0
    && NonNegativeIfSent(r.estoque) && NonNegativeIfSent(r.dividasTotais) && NonNegativeIfSent(r.bensEquipamentos)
    && r.numFuncionarios >= 1
  }

  /** The 422 messages of the request validators. */
  const OutOfBounds := "campo fora dos limites"
  const StockAmountRequired := "Valor do estoque é obrigatório quando possui estoque"
  const DebtAmountRequired := "Valor das dívidas é obrigatório quando possui dívidas"
  const AssetsAmountRequired := "Valor dos bens é obrigatório quando possui bens"
  const StockAnswerRequired := "Informar se terá estoque é obrigatório para negócios de produto"
  const BandRequired := "Faixa de funcionários é obrigatória quando há funcionários"

  const CostAlert := "O custo das vendas está maior que a receita. Verifique se os valores estão corretos."
  const ExpenseAlert := "As despesas fixas estão maiores que a receita. Isso indica prejuízo operacional."

  /** `validar_coerencia`: at most two alerts, cost before expenses; it never rejects. */
  function CoherenceAlerts(receita: real, custo: real, despesas: real): (a: seq<string>)
    ensures |a| <= 2
    ensures CostAlert in a <==> custo > receita
    ensures ExpenseAlert in a <==> despesas > receita
    ensures custo > receita ==> a[0] == CostAlert
  {
    (if custo > receita then [CostAlert] else []) + (if despesas > receita then [ExpenseAlert] else [])
  }

  /** `get_alertas`: the stored alerts, or none when no coherence pass stored any. */
  function GetAlerts(i: AnaliseInput): (a: seq<string>)
    ensures i.alertasCoerencia.None? ==> a == []
    ensures i.alertasCoerencia.Some? ==> a == i.alertasCoerencia.value
  {
    i.alertasCoerencia.GetOr([])
  }

  /** The validated model built from an accepted request. */
  function BuildAnalise(r: AnaliseRequest, estado: string): AnaliseInput {
    AnaliseInput(
      r.nomeEmpresa, r.setor, estado, r.mesReferencia, r.anoReferencia, r.historico,
      r.receitaAtual, r.custoVendas, r.despesasFixas, r.caixaBancos, r.contasReceber, r.contasPagar,
      r.temEstoque, r.estoque.Stored(), r.temDividas, r.dividasTotais.Stored(),
      r.temBens, r.bensEquipamentos.Stored(), r.numFuncionarios,
      Some(CoherenceAlerts(r.receitaAtual, r.custoVendas, r.despesasFixas)))
  }

  /** `DadosAnaliseInput` validation as the code behaves: a left-out amount skips its
      conditional check. */
  function ValidateAnaliseAsWritten(r: AnaliseRequest): (res: Result<AnaliseInput>)
    ensures res.Success? <==> AnaliseFieldBounds(r) && Upper(r.estado) in UfsAnalise
                              && RequiredWhenAsWritten(r.temEstoque, r.estoque)
                              && RequiredWhenAsWritten(r.temDividas, r.dividasTotais)
                              && RequiredWhenAsWritten(r.temBens, r.bensEquipamentos)
    ensures res.Success? ==> res.value == BuildAnalise(r, Upper(r.estado))
    ensures res.Success? ==> GetAlerts(res.value) == CoherenceAlerts(r.receitaAtual, r.custoVendas, r.despesasFixas)
  {
    if !AnaliseFieldBounds(r) then Failure(422, OutOfBounds)
    else match ValidateEstado(UfsAnalise, r.estado)
      case Failure(s, m) => Failure(s, m)
      case Success(uf) =>
        if !RequiredWhenAsWritten(r.temEstoque, r.estoque) then Failure(422, StockAmountRequired)
        else if !RequiredWhenAsWritten(r.temDividas, r.dividasTotais) then Failure(422, DebtAmountRequired)
        else if !RequiredWhenAsWritten(r.temBens, r.bensEquipamentos) then Failure(422, AssetsAmountRequired)
        else Success(BuildAnalise(r, uf))
  }

  /** An analysis input in which every flagged amount is present. */
  predicate AmountsPresent(i: AnaliseInput) {
    && (i.temEstoque ==> i.estoque.Some?)
    && (i.temDividas ==> i.dividasTotais.Some?)
    && (i.temBens ==> i.bensEquipamentos.Some?)
  }

  /** The accepted analysis input: all bounds, an upper-case UF, present amounts, and the
      coherence alerts stored. */
  predicate ValidAnalise(i: AnaliseInput) {
    && 2 <= |i.nomeEmpresa| <= 200
    && i.setor in Setores
    && i.estado in UfsAnalise
    && 1 <= i.mesReferencia <= 12
    && 2020 <= i.anoReferencia <= 2030
    && i.historico.tresMesesAtras >= 0.0 && i.historico.doisMesesAtras >= 0.0 && i.historico.mesPassado >= 0.0
    && i.receitaAtual > 0.0
    && i.custoVendas >= 0.0 && i.despesasFixas >= 0.0
    && i.caixaBancos >= 0.0 && i.contasReceber >= 0.0 && i.contasPagar >= 0.0
    && (i.estoque.Some? ==> i.estoque.value >= 0.0)
    && (i.dividasTotais.Some? ==> i.dividasTotais.value >= 0.0)
    && (i.bensEquipamentos.Some? ==> i.bensEquipamentos.value >= 0.0)
    && i.numFuncionarios >= 1
    && AmountsPresent(i)
    && i.alertasCoerencia == Some(CoherenceAlerts(i.receitaAtual, i.custoVendas, i.despesasFixas))
  }

  /** `DadosAnaliseInput` validation with each amount required under its flag whether its
      key was null or left out. */
  function ValidateAnalise(r: AnaliseRequest): (res: Result<AnaliseInput>)
    ensures res.Success? <==> AnaliseFieldBounds(r) && Upper(r.estado) in UfsAnalise
                              && RequiredWhen(r.temEstoque, r.estoque)
                              && RequiredWhen(r.temDividas, r.dividasTotais)
                              && RequiredWhen(r.temBens, r.bensEquipamentos)
    ensures res.Success? ==> ValidAnalise(res.value) && res.value.estado == Upper(r.estado)
    ensures res.Success? ==> GetAlerts(res.value) == CoherenceAlerts(r.receitaAtual, r.custoVendas, r.despesasFixas)
  {
    if !AnaliseFieldBounds(r) then Failure(422, OutOfBounds)
    else match ValidateEstado(UfsAnalise, r.estado)
      case Failure(s, m) => Failure(s, m)
      case Success(uf) =>
        if !RequiredWhen(r.temEstoque, r.estoque) then Failure(422, StockAmountRequired)
        else if !RequiredWhen(r.temDividas, r.dividasTotais) then Failure(422, DebtAmountRequired)
        else if !RequiredWhen(r.temBens, r.bensEquipamentos) then Failure(422, AssetsAmountRequired)
        else Success(BuildAnalise(r, uf))
  }

  /** An explicit `null` under a set flag is rejected in both readings, for each of the
      three amounts, and nulls under clear flags are accepted; the readings differ only on
      a left-out key. */
  lemma {:induction false} NullAmountRule(r: AnaliseRequest)
    requires AnaliseFieldBounds(r) && Upper(r.estado) in UfsAnalise
    requires !r.dividasTotais.Omitted? && !r.bensEquipamentos.Omitted?
    ensures r.estoque.Null? && r.temEstoque ==> ValidateAnalise(r).Failure? && ValidateAnaliseAsWritten(r).Failure?
    ensures r.dividasTotais.Null? && r.temDividas ==> ValidateAnalise(r).Failure? && ValidateAnaliseAsWritten(r).Failure?
    ensures r.bensEquipamentos.Null? && r.temBens ==> ValidateAnalise(r).Failure? && ValidateAnaliseAsWritten(r).Failure?
    ensures r.estoque.Null? && r.dividasTotais.Null? && r.bensEquipamentos.Null? && !r.temEstoque && !r.temDividas && !r.temBens
            ==> ValidateAnalise(r).Success? && ValidateAnaliseAsWritten(r).Success?
    ensures !r.estoque.Omitted? ==> ValidateAnalise(r) == ValidateAnaliseAsWritten(r)
  {
  }

  /** A request with `tem_estoque` set and no `estoque` key is accepted as written and
      yields an input without a stock amount. */
  lemma OmittedAmountSlipsThrough()
    ensures exists r: AnaliseRequest ::
      ValidateAnaliseAsWritten(r).Success?
      && ValidateAnaliseAsWritten(r).value.temEstoque
      && ValidateAnaliseAsWritten(r).value.estoque.None?
      && ValidateAnalise(r).Failure?
  {
    var r := AnaliseRequest("Loja", "comercio_varejo", "SP", 5, 2025, History(0.0, 0.0, 0.0),
      1000.0, 400.0, 300.0, 100.0, 0.0, 0.0, true, Omitted, false, Null, false, Null, 1);
    assert Upper("SP") == "SP";
    assert "SP" in UfsAnalise;
    assert ValidateAnaliseAsWritten(r).Success?;
  }

  // ---------- Pre-opening request ----------

  /** The JSON body of a pre-opening request, `PreAberturaInput` before validation. */
  datatype PreAberturaRequest = PreAberturaRequest(
    tipoNegocio: string,
    temEstoque: Sent<bool>,
    setor: string,
    estado: string,
    cidade: Option<string>,
    mesAbertura: int,
    anoAbertura: int,
    capitalDisponivel: real,
    prolabore: string,
    temFuncionarios: bool,
    faixaFuncionarios: Sent<string>,
    faturamentoEsperado: real,
    clientesGarantidos: string)

  /** A validated `PreAberturaInput`. */
  datatype PreAberturaInput = PreAberturaInput(
    tipoNegocio: string,
    temEstoque: Option<bool>,
    setor: string,
    estado: string,
    cidade: Option<string>,
    mesAbertura: int,
    anoAbertura: int,
    capitalDisponivel: real,
    prolabore: string,
    temFuncionarios: bool,
    faixaFuncionarios: Option<string>,
    faturamentoEsperado: real,
    clientesGarantidos: string)

  const Faixas: set<string> := {"1-2", "3-5", "6-10", "10+"}

  /** The `Field(...)` and enum constraints of `PreAberturaInput`. */
  predicate PreAberturaFieldBounds(r: PreAberturaRequest) {
    && r.tipoNegocio in {"produto", "servico"}
    && r.setor in Setores
    && |r.estado| == 2
    && (r.cidade.Some? ==> |r.cidade.value| <= 100)
    && 1 <= r.mesAbertura <= 12
    && 2024 <= r.anoAbertura <= 2030
    && r.capitalDisponivel > 0.0
    && r.prolabore in {"sim", "nao", "nao_sei"}
    && (r.faixaFuncionarios.Given? ==> r.faixaFuncionarios.value in Faixas)
    && r.faturamentoEsperado > 0.0
    && r.clientesGarantidos in {"sim", "nao", "parcialmente"}
  }

  function BuildPreAbertura(r: PreAberturaRequest, estado: string): PreAberturaInput {
    PreAberturaInput(
      r.tipoNegocio, r.temEstoque.Stored(), r.setor, estado, r.cidade, r.mesAbertura, r.anoAbertura,
      r.capitalDisponivel, r.prolabore, r.temFuncionarios, r.faixaFuncionarios.Stored(),
      r.faturamentoEsperado, r.clientesGarantidos)
  }

  /** `PreAberturaInput` validation as the code behaves: a left-out key skips its check. */
  function ValidatePreAberturaAsWritten(r: PreAberturaRequest): (res: Result<PreAberturaInput>)
    ensures res.Success? <==> PreAberturaFieldBounds(r) && Upper(r.estado) in UfsPreAbertura
                              && RequiredWhenAsWritten(r.tipoNegocio == "produto", r.temEstoque)
                              && RequiredWhenAsWritten(r.temFuncionarios, r.faixaFuncionarios)
    ensures res.Success? ==> res.value == BuildPreAbertura(r, Upper(r.estado))
  {
    if !PreAberturaFieldBounds(r) then Failure(422, OutOfBounds)
    else match ValidateEstado(UfsPreAbertura, r.estado)
      case Failure(s, m) => Failure(s, m)
      case Success(uf) =>
        if !RequiredWhenAsWritten(r.tipoNegocio == "produto", r.temEstoque) then Failure(422, StockAnswerRequired)
        else if !RequiredWhenAsWritten(r.temFuncionarios, r.faixaFuncionarios) then Failure(422, BandRequired)
        else Success(BuildPreAbertura(r, uf))
  }

  /** The accepted pre-opening input. */
  predicate ValidPreAbertura(i: PreAberturaInput) {
    && i.tipoNegocio in {"produto", "servico"}
    && i.setor in Setores
    && i.estado in UfsPreAbertura
    && (i.cidade.Some? ==> |i.cidade.value| <= 100)
    && 1 <= i.mesAbertura <= 12
    && 2024 <= i.anoAbertura <= 2030
    && i.capitalDisponivel > 0.0
    && i.prolabore in {"sim", "nao", "nao_sei"}
    && (i.faixaFuncionarios.Some? ==> i.faixaFuncionarios.value in Faixas)
    && i.faturamentoEsperado > 0.0
    && i.clientesGarantidos in {"sim", "nao", "parcialmente"}
    && (i.tipoNegocio == "produto" ==> i.temEstoque.Some?)
    && (i.temFuncionarios ==> i.faixaFuncionarios.Some?)
  }

  /** `PreAberturaInput` validation with the stock answer and the band required under
      their conditions whether null or left out. */
  function ValidatePreAbertura(r: PreAberturaRequest): (res: Result<PreAberturaInput>)
    ensures res.Success? <==> PreAberturaFieldBounds(r) && Upper(r.estado) in UfsPreAbertura
                              && RequiredWhen(r.tipoNegocio == "produto", r.temEstoque)
                              && RequiredWhen(r.temFuncionarios, r.faixaFuncionarios)
    ensures res.Success? ==> ValidPreAbertura(res.value) && res.value.estado == Upper(r.estado)
  {
    if !PreAberturaFieldBounds(r) then Failure(422, OutOfBounds)
    else match ValidateEstado(UfsPreAbertura, r.estado)
      case Failure(s, m) => Failure(s, m)
      case Success(uf) =>
        if !RequiredWhen(r.tipoNegocio == "produto", r.temEstoque) then Failure(422, StockAnswerRequired)
        else if !RequiredWhen(r.temFuncionarios, r.faixaFuncionarios) then Failure(422, BandRequired)
        else Success(BuildPreAbertura(r, uf))
  }

  /** A null stock answer is rejected for a product business and accepted for a service;
      a null band is rejected when there are employees. Both readings agree on sent keys. */
  lemma {:induction false} PreAberturaNullRules(r: PreAberturaRequest)
    requires PreAberturaFieldBounds(r) && Upper(r.estado) in UfsPreAbertura
    ensures r.temEstoque.Null? && r.tipoNegocio == "produto" ==> ValidatePreAbertura(r).Failure? && ValidatePreAberturaAsWritten(r).Failure?
    ensures r.temEstoque.Null? && r.tipoNegocio == "servico" && r.faixaFuncionarios.Given? ==> ValidatePreAbertura(r).Success?
    ensures r.faixaFuncionarios.Null? && r.temFuncionarios ==> ValidatePreAbertura(r).Failure? && ValidatePreAberturaAsWritten(r).Failure?
    ensures !r.temEstoque.Omitted? && !r.faixaFuncionarios.Omitted? ==> ValidatePreAbertura(r) == ValidatePreAberturaAsWritten(r)
  {
  }

  /** A product request without a `tem_estoque` key is accepted as written. */
  lemma OmittedStockAnswerSlipsThrough()
    ensures exists r: PreAberturaRequest ::
      ValidatePreAberturaAsWritten(r).Success?
      && ValidatePreAberturaAsWritten(r).value.tipoNegocio == "produto"
      && ValidatePreAberturaAsWritten(r).value.temEstoque.None?
      && ValidatePreAbertura(r).Failure?
  {
    var r := PreAberturaRequest("produto", Omitted, "comercio_varejo", "SP", None, 5, 2026,
      30000.0, "sim", false, Null, 15000.0, "sim");
    assert Upper("SP") == "SP";
    assert "SP" in UfsPreAbertura;
    assert ValidatePreAberturaAsWritten(r).Success?;
  }

  /** `PreAberturaResponse.alertas` carries at most three alerts. */
  predicate ResponseAlertsBound<A>(alertas: seq<A>) {
    |alertas| <= 3
  }
}

=== FILE: sessao.dfy ===
/** The analysis-session router: a session starts when the owner gives a company name and
    an e-mail, and is completed, or recovered after an abandonment e-mail, once the
    analysis is saved. The table is a sequence of rows with unique ids. */
module Sessoes {
  import opened Wrappers
  import Uuid
  import Text

  /** The five statuses a session goes through. */
  datatype Status = Iniciada | Concluida | AbandonoEmail1 | AbandonoEmail2 | Recuperada

  /** A row of the sessions table; times are seconds on the server's UTC clock. */
  datatype Sessao = Sessao(
    id: Uuid.Uuid,
    nomeEmpresa: string,
    email: string,
    status: Status,
    analiseId: Option<Uuid.Uuid>,
    email1EnviadoEm: Option<int>,
    email2EnviadoEm: Option<int>,
    createdAt: int)

  predicate IdsUnique(t: seq<Sessao>) {
    forall i, j :: 0 <= i < j < |t| ==> t[i].id != t[j].id
  }

  /** The row with the given id, as `query(...).filter(id == ...).first()` finds it. */
  function Find(t: seq<Sessao>, id: Uuid.Uuid): (r: Option<nat>)
    ensures r.Some? ==> r.value < |t| && t[r.value].id == id
    ensures r.None? <==> forall k :: 0 <= k < |t| ==> t[k].id != id
  {
    if t == [] then None
    else if t[0].id == id then Some(0)
    else
      match Find(t[1..], id)
      case None => None
      case Some(k) => Some(k + 1)
  }

  /** In a table with unique ids the row found is the only one with that id. */
  lemma FindUnique(t: seq<Sessao>, id: Uuid.Uuid, k: nat)
    requires IdsUnique(t) && k < |t| && t[k].id == id
    ensures Find(t, id) == Some(k)
  {
  }

  /** A row with a fresh id keeps the ids unique. */
  lemma AppendFresh(t: seq<Sessao>, s: Sessao)
    requires IdsUnique(t) && Find(t, s.id).None?
    ensures IdsUnique(t + [s])
  {
  }

  // ---------- Starting a session ----------

  function LowerChar(c: char): (l: char)
    ensures !('A' <= l <= 'Z')
    ensures Text.IsSpace(l) <==> Text.IsSpace(c)
  {
    if 'A' <= c <= 'Z' then (c as int + 32) as char else c
  }

  /** `str.lower()` on ASCII letters. */
  function Lower(s: string): (l: string)
    ensures |l| == |s|
    ensures forall k :: 0 <= k < |s| ==> l[k] == LowerChar(s[k])
  {
    if s == [] then [] else [LowerChar(s[0])] + Lower(s[1..])
  }

  /** `email.lower().strip()`. */
  function NormalizeEmail(e: string): (r: string)
    ensures r != [] ==> !Text.IsSpace(r[0]) && !Text.IsSpace(r[|r| - 1])
    ensures forall k :: 0 <= k < |r| ==> !('A' <= r[k] <= 'Z')
  {
    LowerNoUpper(e);
    TrimNoUpper(Lower(e));
    Text.Trim(Lower(e))
  }

  lemma LowerNoUpper(e: string)
    ensures forall k :: 0 <= k < |Lower(e)| ==> !('A' <= Lower(e)[k] <= 'Z')
  {
  }

  /** Trimming keeps a string free of capitals: the result is a slice. */
  lemma TrimNoUpper(s: string)
    requires forall k :: 0 <= k < |s| ==> !('A' <= s[k] <= 'Z')
    ensures forall k :: 0 <= k < |Text.Trim(s)| ==> !('A' <= Text.Trim(s)[k] <= 'Z')
  {
    var r := Text.Trim(s);
    var i, j :| 0 <= i <= j <= |s| && r == s[i..j];
    forall k | 0 <= k < |r| ensures !('A' <= r[k] <= 'Z') {
      assert r[k] == s[i + k];
    }
  }

  /** Normalising a stored address again leaves it as it is. */
  lemma NormalizeEmailIdempotent(e: string)
    ensures NormalizeEmail(NormalizeEmail(e)) == NormalizeEmail(e)
  {
    var r := NormalizeEmail(e);
    forall k | 0 <= k < |r| ensures Lower(r)[k] == r[k] {
      assert !('A' <= r[k] <= 'Z');
    }
    assert Lower(r) == r;
    TrimOfTrimmed(r);
  }

  lemma TrimOfTrimmed(s: string)
    requires s != [] ==> !Text.IsSpace(s[0]) && !Text.IsSpace(s[|s| - 1])
    ensures Text.Trim(s) == s
  {
  }

  /** `iniciar_sessao`: a new row with status "iniciada" and the normalised address; the
      response carries the new id as text. `novoId` is the fresh `uuid4`, `agora` the clock. */
  function IniciarSessao(t: seq<Sessao>, nomeEmpresa: string, email: string, novoId: Uuid.Uuid, agora: int): (r: (seq<Sessao>, string))
    requires Uuid.Valid(novoId) && Find(t, novoId).None?
    ensures |r.0| == |t| + 1 && r.0[..|t|] == t
    ensures IdsUnique(t) ==> IdsUnique(r.0)
    ensures r.0[|t|] == Sessao(novoId, nomeEmpresa, NormalizeEmail(email), Iniciada, None, None, None, agora)
    ensures Uuid.Parse(r.1) == Some(novoId)
  {
    var s := Sessao(novoId, nomeEmpresa, NormalizeEmail(email), Iniciada, None, None, None, agora);
    Uuid.ParseFormat(novoId);
    assert IdsUnique(t) ==> IdsUnique(t + [s]) by {
      if IdsUnique(t) { AppendFresh(t, s); }
    }
    assert (t + [s])[..|t|] == t;
    (t + [s], Uuid.Format(novoId))
  }

  // ---------- Completing a session ----------

  /** The status a completed session takes: recovered after an abandonment e-mail,
      concluded otherwise. */
  function StatusConcluido(s: Status): (r: Status)
    ensures r in {Concluida, Recuperada}
    ensures r == Recuperada <==> s in {AbandonoEmail1, AbandonoEmail2}
  {
    if s == AbandonoEmail1 || s == AbandonoEmail2 then Recuperada else Concluida
  }

  /** `concluir_sessao`: 400 for a malformed session id, 404 for an unknown one, 400 for a
      malformed analysis id (nothing is committed then); otherwise the one row takes its
      completed status and the analysis id. */
  function ConcluirSessao(t: seq<Sessao>, sessaoId: string, analiseId: string): (r: Result<(seq<Sessao>, Status)>)
    ensures Uuid.Parse(sessaoId).None? ==> r == Failure(400, "ID de sessão inválido")
    ensures Uuid.Parse(sessaoId).Some? && Find(t, Uuid.Parse(sessaoId).value).None? ==> r == Failure(404, "Sessão não encontrada")
    ensures Uuid.Parse(sessaoId).Some? && Find(t, Uuid.Parse(sessaoId).value).Some? && Uuid.Parse(analiseId).None? ==>
      r == Failure(400, "ID de análise inválido")
    ensures r.Success? ==>
      var k := Find(t, Uuid.Parse(sessaoId).value).value;
      var t2 := r.value.0;
      |t2| == |t| && (forall j :: 0 <= j < |t| && j != k ==> t2[j] == t[j]) &&
      t2[k] == t[k].(status := StatusConcluido(t[k].status), analiseId := Uuid.Parse(analiseId)) &&
      r.value.1 == t2[k].status
  {
    match Uuid.Parse(sessaoId)
    case None => Failure(400, "ID de sessão inválido")
    case Some(id) =>
      match Find(t, id)
      case None => Failure(404, "Sessão não encontrada")
      case Some(k) =>
        match Uuid.Parse(analiseId)
        case None => Failure(400, "ID de análise inválido")
        case Some(a) =>
          var s := t[k].(status := StatusConcluido(t[k].status), analiseId := Some(a));
          Success((t[k := s], s.status))
  }

  /** Completion of a row found by a well-formed id, with a well-formed analysis id. */
  lemma ConcluirFound(t: seq<Sessao>, sessaoId: string, analiseId: string, k: nat, a: Uuid.Uuid)
    requires k < |t| && Uuid.Parse(sessaoId) == Some(t[k].id) && Find(t, t[k].id) == Some(k)
    requires Uuid.Parse(analiseId) == Some(a)
    ensures ConcluirSessao(t, sessaoId, analiseId) ==
      Success((t[k := t[k].(status := StatusConcluido(t[k].status), analiseId := Some(a))], StatusConcluido(t[k].status)))
  {
  }

  /** A fresh row just appended completes as "concluida" and nothing else changes. */
  lemma CompleteFresh(t: seq<Sessao>, s: Sessao, sessaoId: string, analiseId: string)
    requires IdsUnique(t) && Find(t, s.id).None? && s.status == Iniciada
    requires Uuid.Parse(sessaoId) == Some(s.id) && Uuid.Parse(analiseId).Some?
    ensures ConcluirSessao(t + [s], sessaoId, analiseId) ==
      Success((t + [s.(status := Concluida, analiseId := Uuid.Parse(analiseId))], Concluida))
  {
    AppendFresh(t, s);
    FindUnique(t + [s], s.id, |t|);
    ConcluirFound(t + [s], sessaoId, analiseId, |t|, Uuid.Parse(analiseId).value);
    assert (t + [s])[|t| := s.(status := Concluida, analiseId := Uuid.Parse(analiseId))] ==
      t + [s.(status := Concluida, analiseId := Uuid.Parse(analiseId))];
  }

  /** Starting a session and completing it with the id returned succeeds with "concluida",
      and leaves the rest of the table as it was. */
  lemma StartThenComplete(t: seq<Sessao>, nome: string, email: string, novoId: Uuid.Uuid, agora: int, analiseId: string)
    requires Uuid.Valid(novoId) && Find(t, novoId).None? && IdsUnique(t) && Uuid.Parse(analiseId).Some?
    ensures var p := IniciarSessao(t, nome, email, novoId, agora);
      var r := ConcluirSessao(p.0, p.1, analiseId);
      r.Success? && r.value.1 == Concluida && r.value.0[..|t|] == t && r.value.0[|t|].analiseId == Uuid.Parse(analiseId)
  {
    var p := IniciarSessao(t, nome, email, novoId, agora);
    var s := p.0[|t|];
    assert p.0 == t + [s];
    CompleteFresh(t, s, p.1, analiseId);
    var s2 := s.(status := Concluida, analiseId := Uuid.Parse(analiseId));
    assert (t + [s2])[..|t|] == t;
  }

  /** Completing a recovered session again turns it into "concluida". */
  lemma RecompletingRecoveredConcludes(t: seq<Sessao>, sessaoId: string, analiseId: string)
    requires ConcluirSessao(t, sessaoId, analiseId).Success?
    requires t[Find(t, Uuid.Parse(sessaoId).value).value].status == Recuperada
    ensures ConcluirSessao(t, sessaoId, analiseId).value.1 == Concluida
  {
  }

  /** `buscar_sessao`: the same two errors as completion, otherwise the row itself. */
  function BuscarSessao(t: seq<Sessao>, sessaoId: string): (r: Result<Sessao>)
    ensures Uuid.Parse(sessaoId).None? ==> r == Failure(400, "ID de sessão inválido")
    ensures Uuid.Parse(sessaoId).Some? ==>
      (r.Success? <==> exists k :: 0 <= k < |t| && t[k].id == Uuid.Parse(sessaoId).value)
    ensures r.Failure? ==> r.status in {400, 404}
    ensures r.Success? ==> r.value in t && Uuid.Parse(sessaoId) == Some(r.value.id)
  {
    match Uuid.Parse(sessaoId)
    case None => Failure(400, "ID de sessão inválido")
    case Some(id) =>
      match Find(t, id)
      case None => Failure(404, "Sessão não encontrada")
      case Some(k) => Success(t[k])
  }
}

=== FILE: simulador.dfy ===
/** The dashboard's survival simulator: the month as it is and the month with 30% less
    revenue, how many days the cash lasts in each, and the conclusion drawn from them. */
module Simulador {
  import opened Numeric

  /** Days reported for a scenario that does not burn cash. */
  const SemQueima: int := 999

  /** One scenario: days of cash, monthly balance, monthly shortfall and the revenue used. */
  datatype Cenario = Cenario(dias: int, saldo: real, deficit: real, receita: real)

  datatype Simulacao = Simulacao(normal: Cenario, estresse: Cenario, custoTotal: real)

  /** `run`: the scenario for revenue `rec` against the month's total cost, with `caixa`
      in the bank; the inputs are already clamped to be non-negative. */
  function Run(caixa: real, custoTotal: real, rec: real): (c: Cenario)
    requires caixa >= 0.0 && custoTotal >= 0.0 && rec >= 0.0
    ensures c.receita == rec && c.saldo == rec - custoTotal
    ensures c.dias >= 0 && c.deficit >= 0.0
    ensures c.saldo >= 0.0 ==> c.dias == SemQueima && c.deficit == 0.0
    ensures c.saldo < 0.0 ==> c.deficit == -c.saldo
    ensures c.saldo < 0.0 && caixa == 0.0 ==> c.dias == 0
    ensures c.saldo < 0.0 && caixa > 0.0 ==>
      c.dias as real - 0.5 <= 30.0 * caixa / c.deficit < c.dias as real + 0.5
  {
    var saldo := rec - custoTotal;
    if custoTotal == 0.0 then Cenario(SemQueima, rec, 0.0, rec)
    else if saldo >= 0.0 then Cenario(SemQueima, saldo, 0.0, rec)
    else
      var deficit := Abs(saldo);
      if caixa <= 0.0 then Cenario(0, saldo, deficit, rec)
      else
        var x := caixa / (deficit / 30.0);
        assert x == 30.0 * caixa / deficit;
        RoundBounds(x);
        var d := Round(x);
        Cenario(if d >= 0 then d else 0, saldo, deficit, rec)
  }

  /** `Math.max(0, v || 0)`. */
  function Clamp(v: real): (r: real)
    ensures r >= 0.0 && (v >= 0.0 ==> r == v)
  {
    Max(0.0, v)
  }

  /** `calcular`: both scenarios over the clamped inputs; the stress scenario keeps 70%
      of the revenue. */
  function Calcular(caixa: real, receita: real, custoVendas: real, despesasFixas: real): (s: Simulacao)
    ensures s.custoTotal == Clamp(custoVendas) + Clamp(despesasFixas)
    ensures s.normal.receita == Clamp(receita) && s.estresse.receita == 0.7 * Clamp(receita)
    ensures s.normal.saldo - s.estresse.saldo == 0.3 * Clamp(receita) >= 0.0
    ensures s.estresse.saldo >= 0.0 ==> s.normal.saldo >= 0.0
    ensures s.normal.dias >= 0 && s.estresse.dias >= 0
  {
    var cx := Clamp(caixa);
    var rec := Clamp(receita);
    var total := Clamp(custoVendas) + Clamp(despesasFixas);
    Simulacao(Run(cx, total, rec), Run(cx, total, rec * 0.7), total)
  }

  /** With the same cash, more revenue never shortens the days while both scenarios burn cash. */
  lemma StressBurnsFaster(caixa: real, receita: real, custoVendas: real, despesasFixas: real)
    ensures var s := Calcular(caixa, receita, custoVendas, despesasFixas);
      s.normal.saldo < 0.0 ==> s.estresse.saldo < 0.0 && s.estresse.dias <= s.normal.dias
  {
    var s := Calcular(caixa, receita, custoVendas, despesasFixas);
    var cx := Clamp(caixa);
    if s.normal.saldo < 0.0 && cx > 0.0 {
      var dn, de := s.normal.deficit, s.estresse.deficit;
      assert 0.0 < dn <= de;
      var xn, xe := cx / (dn / 30.0), cx / (de / 30.0);
      assert xe <= xn by {
        PerDay(cx, de);
        PerDay(cx, dn);
        if xe > xn {
          ScaleLt(xn, xe, de);
          ScaleLe(dn, de, xn);
        }
      }
      RoundMonotone(xe, xn);
    }
  }

  datatype ConclusaoTipo = Alerta | Critico

  /** Which of the five conclusions is drawn, with the figures it quotes. */
  datatype ConclusaoTexto =
    | PassaAoPrejuizo(queda: real)
    | SobraReduzida(queda: real, pctQueda: int)
    | SemCaixa
    | CaixaVulneravel
    | FolegoCairia(de: int, para: int)

  datatype Conclusao = Conclusao(texto: ConclusaoTexto, tipo: ConclusaoTipo)

  /** The conclusion block; `receitaMensal` is the unclamped revenue the drop is measured from. */
  function Concluir(receitaMensal: real, s: Simulacao): (c: Conclusao)
    requires s.normal.dias >= 0
    ensures c.tipo == Critico <==> s.normal.saldo < 0.0 && s.normal.dias < 60
    ensures c.texto.PassaAoPrejuizo? <==> s.normal.saldo >= 0.0 && s.estresse.saldo < 0.0
    ensures c.texto.SobraReduzida? <==> s.normal.saldo >= 0.0 && s.estresse.saldo >= 0.0
    ensures c.texto.SemCaixa? <==> s.normal.saldo < 0.0 && s.normal.dias == 0
    ensures c.texto.FolegoCairia? ==> c.texto.de == s.normal.dias && c.texto.para == s.estresse.dias
    ensures (c.texto.PassaAoPrejuizo? || c.texto.SobraReduzida?) ==> c.texto.queda == receitaMensal - s.estresse.receita
    ensures c.texto.SobraReduzida? && s.estresse.saldo <= s.normal.saldo ==> 0 <= c.texto.pctQueda <= 100
  {
    var queda := receitaMensal - s.estresse.receita;
    var hojePositivo := s.normal.saldo >= 0.0;
    var estressePositivo := s.estresse.saldo >= 0.0;
    if hojePositivo && !estressePositivo then Conclusao(PassaAoPrejuizo(queda), Alerta)
    else if hojePositivo && estressePositivo then
      var pct := if s.normal.saldo > 0.0 then Round((1.0 - s.estresse.saldo / s.normal.saldo) * 100.0) else 0;
      assert s.estresse.saldo <= s.normal.saldo ==> 0 <= pct <= 100 by {
        if s.normal.saldo > 0.0 && s.estresse.saldo <= s.normal.saldo {
          var q := s.estresse.saldo / s.normal.saldo;
          UnitShare(s.estresse.saldo, s.normal.saldo);
          RoundMonotone(0.0, (1.0 - q) * 100.0);
          RoundMonotone((1.0 - q) * 100.0, 100.0);
          RoundOfInt(0);
          RoundOfInt(100);
        }
      }
      Conclusao(SobraReduzida(queda, pct), Alerta)
    else if s.normal.dias == 0 then Conclusao(SemCaixa, Critico)
    else if s.normal.dias < 60 then Conclusao(CaixaVulneravel, Critico)
    else Conclusao(FolegoCairia(s.normal.dias, s.estresse.dias), Alerta)
  }

  /** On non-negative revenue the drop quoted is 30% of it. */
  lemma DropIsThirtyPercent(caixa: real, receita: real, custoVendas: real, despesasFixas: real)
    requires receita >= 0.0
    ensures var s := Calcular(caixa, receita, custoVendas, despesasFixas);
      var c := Concluir(receita, s);
      (c.texto.PassaAoPrejuizo? || c.texto.SobraReduzida?) ==> c.texto.queda == 0.3 * receita
  {
  }

  datatype BarColour = Esmeralda | Ambar | Vermelha

  /** `Barra`: the share of a 180-day scale, capped at the full bar. */
  function BarWidth(dias: int): (w: real)
    ensures dias >= 0 ==> 0.0 <= w <= 100.0
    ensures w == 100.0 <==> dias >= 180
    ensures dias < 180 ==> w * 180.0 == dias as real * 100.0
  {
    Min(100.0, dias as real / 180.0 * 100.0)
  }

  function BarColourOf(dias: int): (c: BarColour)
    ensures c == Esmeralda <==> dias >= 90
    ensures c == Vermelha <==> dias < 60
  {
    if dias >= 90 then Esmeralda else if dias >= 60 then Ambar else Vermelha
  }

  /** A longer runway never draws a shorter bar. */
  lemma BarWidthMonotone(d1: int, d2: int)
    requires d1 <= d2
    ensures BarWidth(d1) <= BarWidth(d2)
  {
  }

  /** A critical conclusion is drawn exactly when today's bar would be red and cash is burning. */
  lemma CriticalMatchesRedBar(receitaMensal: real, s: Simulacao)
    requires s.normal.dias >= 0
    ensures Concluir(receitaMensal, s).tipo == Critico <==>
      s.normal.saldo < 0.0 && BarColourOf(s.normal.dias) == Vermelha
  {
  }
}

=== FILE: text.dfy ===
/** String predicates the analysis intake relies on: JavaScript's `trim` and the e-mail
    pattern `/^[\w.-]+@[\w.-]+\.\w+$/`. */
module Text {
  import opened Wrappers

  /** The white-space characters `String.prototype.trim` removes (the ASCII ones and NBSP). */
  predicate IsSpace(c: char) {
    c == ' ' || c == '\t' || c == '\n' || c == '\r' || c == '\U{000B}' || c == '\U{000C}' || c == '\U{00A0}'
  }

  /** `\w`: an ASCII letter, digit or underscore. */
  predicate IsWord(c: char) {
    ('a' <= c <= 'z') || ('A' <= c <= 'Z') || ('0' <= c <= '9') || c == '_'
  }

  /** `[\w.-]`. */
  predicate IsLocal(c: char) {
    IsWord(c) || c == '.' || c == '-'
  }

  /** The first position at or after `i` that is not white space, or `|s|`. */
  function SkipSpaces(s: string, i: nat): (j: nat)
    requires i <= |s|
    ensures i <= j <= |s|
    ensures forall k :: i <= k < j ==> IsSpace(s[k])
    ensures j < |s| ==> !IsSpace(s[j])
    decreases |s| - i
  {
    if i < |s| && IsSpace(s[i]) then SkipSpaces(s, i + 1) else i
  }

  /** The end of `s[lo..j]` once its trailing white space is dropped. */
  function SkipSpacesBack(s: string, lo: nat, j: nat): (e: nat)
    requires lo <= j <= |s|
    ensures lo <= e <= j
    ensures forall k :: e <= k < j ==> IsSpace(s[k])
    ensures e > lo ==> !IsSpace(s[e - 1])
  {
    if j > lo && IsSpace(s[j - 1]) then SkipSpacesBack(s, lo, j - 1) else j
  }

  /** `s.trim()`: the slice of s left after dropping white space at both ends. */
  function Trim(s: string): (r: string)
    ensures exists i, j :: 0 <= i <= j <= |s| && r == s[i..j]
    ensures r != [] ==> !IsSpace(r[0]) && !IsSpace(r[|r| - 1])
    ensures (forall k :: 0 <= k < |s| ==> IsSpace(s[k])) <==> r == []
  {
    var i := SkipSpaces(s, 0);
    var j := SkipSpacesBack(s, i, |s|);
    assert i < j ==> s[i..j][0] == s[i] && s[i..j][j - i - 1] == s[j - 1];
    s[i..j]
  }

  /** The pattern read as a grammar: a local part, one '@', a domain and, after the last
      '.', a non-empty word suffix. */
  ghost predicate MatchesEmailPattern(s: string) {
    exists i, j :: MatchSplit(s, i, j)
  }

  /** `s[..i]` matches `[\w.-]+`, `s[i]` is '@', `s[i+1..j]` matches `[\w.-]+`, `s[j]` is '.',
      and `s[j+1..]` matches `\w+`. */
  predicate MatchSplit(s: string, i: int, j: int) {
    && 0 < i && i + 1 < j && j + 1 < |s|
    && s[i] == '@' && s[j] == '.'
    && (forall k :: 0 <= k < i ==> IsLocal(s[k]))
    && (forall k :: i < k < j ==> IsLocal(s[k]))
    && (forall k :: j < k < |s| ==> IsWord(s[k]))
  }

  /** The first position of c in s at or after `i`. */
  function IndexFrom(s: string, c: char, i: nat): (r: Option<nat>)
    requires i <= |s|
    ensures r.None? ==> forall k :: i <= k < |s| ==> s[k] != c
    ensures r.Some? ==> i <= r.value < |s| && s[r.value] == c && forall k :: i <= k < r.value ==> s[k] != c
    decreases |s| - i
  {
    if i == |s| then None
    else if s[i] == c then Some(i)
    else IndexFrom(s, c, i + 1)
  }

  /** The first position of c in s. */
  function IndexOf(s: string, c: char): (r: Option<nat>)
    ensures r.None? ==> forall k :: 0 <= k < |s| ==> s[k] != c
    ensures r.Some? ==> r.value < |s| && s[r.value] == c && forall k :: 0 <= k < r.value ==> s[k] != c
  {
    IndexFrom(s, c, 0)
  }

  /** The last position of c in s before `j`. */
  function LastIndexBefore(s: string, c: char, j: nat): (r: Option<nat>)
    requires j <= |s|
    ensures r.None? ==> forall k :: 0 <= k < j ==> s[k] != c
    ensures r.Some? ==> r.value < j && s[r.value] == c && forall k :: r.value < k < j ==> s[k] != c
  {
    if j == 0 then None
    else if s[j - 1] == c then Some(j - 1)
    else LastIndexBefore(s, c, j - 1)
  }

  /** The last position of c in s. */
  function LastIndexOf(s: string, c: char): (r: Option<nat>)
    ensures r.None? ==> forall k :: 0 <= k < |s| ==> s[k] != c
    ensures r.Some? ==> r.value < |s| && s[r.value] == c && forall k :: r.value < k < |s| ==> s[k] != c
  {
    LastIndexBefore(s, c, |s|)
  }

  predicate AllLocal(s: string) {
    forall k :: 0 <= k < |s| ==> IsLocal(s[k])
  }

  predicate AllWord(s: string) {
    forall k :: 0 <= k < |s| ==> IsWord(s[k])
  }

  /** `/^[\w.-]+@[\w.-]+\.\w+$/.test(s)`, decided without search: the first '@' ends the
      local part, and the last '.' of the domain starts the suffix. */
  function EmailValid(s: string): bool {
    match IndexOf(s, '@')
    case None => false
    case Some(at) =>
      var dominio := s[at + 1..];
      && at > 0 && AllLocal(s[..at]) && AllLocal(dominio)
      && match LastIndexOf(dominio, '.')
         case None => false
         case Some(ponto) => 0 < ponto < |dominio| - 1 && AllWord(dominio[ponto + 1..])
  }

  /** The decision procedure accepts exactly the strings the pattern matches. */
  lemma EmailValidMatchesPattern(s: string)
    ensures EmailValid(s) <==> MatchesEmailPattern(s)
  {
    if EmailValid(s) {
      EmailValidSound(s);
    }
    if MatchesEmailPattern(s) {
      var i, j :| MatchSplit(s, i, j);
      EmailValidComplete(s, i, j);
    }
  }

  /** An accepted string splits as the pattern requires. */
  lemma EmailValidSound(s: string)
    requires EmailValid(s)
    ensures MatchesEmailPattern(s)
  {
    var at := IndexOf(s, '@').value;
    var dominio := s[at + 1..];
    var ponto := LastIndexOf(dominio, '.').value;
    var j := at + 1 + ponto;
    forall k | at < k < j ensures IsLocal(s[k]) {
      assert s[k] == dominio[k - at - 1];
    }
    forall k | j < k < |s| ensures IsWord(s[k]) {
      assert s[k] == dominio[ponto + 1..][k - j - 1];
    }
    forall k | 0 <= k < at ensures IsLocal(s[k]) {
      assert s[k] == s[..at][k];
    }
    assert MatchSplit(s, at, j);
  }

  /** A string the pattern matches is accepted: '@' and '.' are not word characters, so the
      first '@' and the domain's last '.' are the split points. */
  lemma EmailValidComplete(s: string, i: int, j: int)
    requires MatchSplit(s, i, j)
    ensures EmailValid(s)
  {
    assert !IsLocal('@') && !IsWord('.');
    IndexOfFirst(s, '@', i);
    var dominio := s[i + 1..];
    var p := j - i - 1;
    assert AllLocal(s[..i]) by {
      forall k | 0 <= k < i ensures IsLocal(s[..i][k]) {
        assert s[..i][k] == s[k];
      }
    }
    forall k | 0 <= k < |dominio| ensures dominio[k] == s[i + 1 + k] {
    }
    assert AllLocal(dominio) by {
      forall k | 0 <= k < |dominio| ensures IsLocal(dominio[k]) {
        if i + 1 + k > j {
          assert IsWord(s[i + 1 + k]);
        }
      }
    }
    forall k | p < k < |dominio| ensures dominio[k] != '.' {
      assert IsWord(s[i + 1 + k]);
    }
    LastIndexOfLast(dominio, '.', p);
    var sufixo := dominio[p + 1..];
    assert AllWord(sufixo) by {
      forall k | 0 <= k < |sufixo| ensures IsWord(sufixo[k]) {
        assert sufixo[k] == s[j + 1 + k];
      }
    }
  }

  lemma IndexOfFirst(s: string, c: char, i: nat)
    requires i < |s| && s[i] == c && forall k :: 0 <= k < i ==> s[k] != c
    ensures IndexOf(s, c) == Some(i)
  {
  }

  lemma LastIndexOfLast(s: string, c: char, j: nat)
    requires j < |s| && s[j] == c && forall k :: j < k < |s| ==> s[k] != c
    ensures LastIndexOf(s, c) == Some(j)
  {
  }

  /** An address of the usual shape is accepted. */
  lemma EmailAccepted()
    ensures EmailValid("ana@loja.com")
  {
    var s := "ana@loja.com";
    assert s[3] == '@' && s[8] == '.';
    assert MatchSplit(s, 3, 8);
    EmailValidMatchesPattern(s);
  }

  /** A string without '@' is rejected. */
  lemma EmailWithoutAtRejected(s: string)
    requires forall k :: 0 <= k < |s| ==> s[k] != '@'
    ensures !EmailValid(s)
  {
  }
}

=== FILE: uuid.dfy ===
/** Identifiers as Python's `uuid.UUID` reads them from text and `str(uuid)` writes them:
    32 hexadecimal digits, written lower-case in groups 8-4-4-4-12. */
module Uuid {
  import opened Wrappers

  type Hex = x: int | 0 <= x < 16

  datatype Uuid = Uuid(digits: seq<Hex>)

  predicate Valid(u: Uuid) {
    |u.digits| == 32
  }

  /** The value of one hexadecimal digit, either case. */
  function HexValue(c: char): (r: Option<Hex>)
    ensures r.Some? <==> ('0' <= c <= '9') || ('a' <= c <= 'f') || ('A' <= c <= 'F')
  {
    if '0' <= c <= '9' then Some(c as int - '0' as int)
    else if 'a' <= c <= 'f' then Some(c as int - 'a' as int + 10)
    else if 'A' <= c <= 'F' then Some(c as int - 'A' as int + 10)
    else None
  }

  /** The lower-case digit `str(uuid)` writes. */
  function HexChar(d: Hex): (c: char)
    ensures HexValue(c) == Some(d)
    ensures c != '-' && c != '{' && c != '}'
  {
    if d < 10 then ('0' as int + d) as char else ('a' as int + d - 10) as char
  }

  function HexChars(ds: seq<Hex>): (s: string)
    ensures |s| == |ds| && forall k :: 0 <= k < |ds| ==> s[k] == HexChar(ds[k])
  {
    seq(|ds|, k requires 0 <= k < |ds| => HexChar(ds[k]))
  }

  /** `str.strip('{}')`: braces dropped from both ends. */
  function StripBraces(s: string): (r: string)
    ensures |r| <= |s|
    ensures s != [] && s[0] !in "{}" && s[|s| - 1] !in "{}" ==> r == s
  {
    if s != [] && s[0] in "{}" then StripBraces(s[1..])
    else if s != [] && s[|s| - 1] in "{}" then StripBraces(s[..|s| - 1])
    else s
  }

  /** `hex.replace('-', '')`. */
  function RemoveHyphens(s: string): (r: string)
    ensures '-' !in r
  {
    if s == [] then [] else (if s[0] == '-' then [] else [s[0]]) + RemoveHyphens(s[1..])
  }

  lemma {:induction false} RemoveHyphensAppend(a: string, b: string)
    ensures RemoveHyphens(a + b) == RemoveHyphens(a) + RemoveHyphens(b)
  {
    if a != [] {
      assert (a + b)[1..] == a[1..] + b;
      RemoveHyphensAppend(a[1..], b);
    } else {
      assert a + b == b;
    }
  }

  lemma {:induction false} RemoveHyphensNone(s: string)
    requires '-' !in s
    ensures RemoveHyphens(s) == s
  {
    if s != [] {
      assert s == [s[0]] + s[1..];
      RemoveHyphensNone(s[1..]);
    }
  }

  /** Every character read as a hexadecimal digit, or None at the first one that is not. */
  function HexDigits(s: string): (r: Option<seq<Hex>>)
    ensures r.Some? <==> forall k :: 0 <= k < |s| ==> HexValue(s[k]).Some?
    ensures r.Some? ==> |r.value| == |s| && forall k :: 0 <= k < |s| ==> HexValue(s[k]) == Some(r.value[k])
  {
    if s == [] then Some([])
    else
      match HexValue(s[0])
      case None => None
      case Some(d) =>
        match HexDigits(s[1..])
        case None => None
        case Some(ds) => Some([d] + ds)
  }

  /** `uuid.UUID(text)`: braces stripped, hyphens removed, then exactly 32 hexadecimal digits. */
  function Parse(s: string): (r: Option<Uuid>)
    ensures r.Some? ==> Valid(r.value)
    ensures r.Some? <==> |RemoveHyphens(StripBraces(s))| == 32 && HexDigits(RemoveHyphens(StripBraces(s))).Some?
  {
    var h := RemoveHyphens(StripBraces(s));
    if |h| != 32 then None
    else
      match HexDigits(h)
      case None => None
      case Some(ds) => Some(Uuid(ds))
  }

  /** `str(uuid)`: the canonical 36-character form. */
  function Format(u: Uuid): (s: string)
    requires Valid(u)
    ensures |s| == 36 && s[8] == '-' && s[13] == '-' && s[18] == '-' && s[23] == '-'
  {
    var d := u.digits;
    HexChars(d[..8]) + "-" + HexChars(d[8..12]) + "-" + HexChars(d[12..16]) + "-" +
    HexChars(d[16..20]) + "-" + HexChars(d[20..])
  }

  lemma HexCharsAppend(a: seq<Hex>, b: seq<Hex>)
    ensures HexChars(a + b) == HexChars(a) + HexChars(b)
  {
  }

  lemma NoHyphenInHex(ds: seq<Hex>)
    ensures '-' !in HexChars(ds)
  {
    var s := HexChars(ds);
    forall k | 0 <= k < |s| ensures s[k] != '-' {
    }
  }

  lemma HexDigitsOfHexChars(ds: seq<Hex>)
    ensures HexDigits(HexChars(ds)) == Some(ds)
  {
    var r := HexDigits(HexChars(ds));
    assert r.Some?;
    assert r.value == ds;
  }

  /** Dropping the hyphen between a prefix and a hyphen-free group. */
  lemma HyphenStep(a: string, g: string)
    requires '-' !in g
    ensures RemoveHyphens(a + "-" + g) == RemoveHyphens(a) + g
  {
    var ah := a + "-";
    RemoveHyphensAppend(ah, g);
    RemoveHyphensAppend(a, "-");
    RemoveHyphensNone(g);
    assert RemoveHyphens("-") == [] + RemoveHyphens([]);
    assert RemoveHyphens(ah) == RemoveHyphens(a);
  }

  /** The digits of the canonical form, hyphens removed. */
  lemma FormatDigits(u: Uuid)
    requires Valid(u)
    ensures RemoveHyphens(Format(u)) == HexChars(u.digits)
  {
    var d := u.digits;
    var g0, g1, g2, g3, g4 := HexChars(d[..8]), HexChars(d[8..12]), HexChars(d[12..16]), HexChars(d[16..20]), HexChars(d[20..]);
    NoHyphenInHex(d[..8]);
    NoHyphenInHex(d[8..12]);
    NoHyphenInHex(d[12..16]);
    NoHyphenInHex(d[16..20]);
    NoHyphenInHex(d[20..]);
    RemoveHyphensNone(g0);
    var p1 := g0 + "-" + g1;
    HyphenStep(g0, g1);
    var p2 := p1 + "-" + g2;
    HyphenStep(p1, g2);
    var p3 := p2 + "-" + g3;
    HyphenStep(p2, g3);
    HyphenStep(p3, g4);
    assert Format(u) == p3 + "-" + g4;
    assert d == d[..8] + d[8..12] + d[12..16] + d[16..20] + d[20..];
    HexCharsAppend(d[..8], d[8..12]);
    HexCharsAppend(d[..8] + d[8..12], d[12..16]);
    HexCharsAppend(d[..8] + d[8..12] + d[12..16], d[16..20]);
    HexCharsAppend(d[..8] + d[8..12] + d[12..16] + d[16..20], d[20..]);
  }

  /** Reading back the text of an identifier gives the same identifier. */
  lemma ParseFormat(u: Uuid)
    requires Valid(u)
    ensures Parse(Format(u)) == Some(u)
  {
    var s := Format(u);
    assert s[0] == HexChar(u.digits[0]) && s[35] == HexChar(u.digits[31]);
    assert StripBraces(s) == s;
    FormatDigits(u);
    HexDigitsOfHexChars(u.digits);
  }
}

=== FILE: wrappers.dfy ===
/** Failure-compatible wrappers shared by every module of the model. */
module Wrappers {

  /** A value that may be missing: TypeScript's `null`/`undefined`, Python's `None`. */
  datatype Option<+T> = None | Some(value: T) {

    /** The wrapped value, or `default` when there is none. */
    function GetOr(default: T): T {
      match this
      case Some(v) => v
      case None => default
    }
  }

  /** The outcome of a request handler: a value, or an HTTP error status with its detail. */
  datatype Result<+R> = Success(value: R) | Failure(status: int, detail: string)
}
